=== FILE: README.md ===
# DnD Assistant — a Dafny model of the combat assistant's core

The DnD Assistant is a tabletop combat helper. A Node server keeps one record per game session. Each record holds:

- the monster roster;
- the initiative order;
- a battlefield (background image, pieces, grid settings);
- a dice-roll history.

The server offers REST routes to read and change sessions, and a Socket.IO push channel that relays table events between the browsers at one session. The browsers keep their own copy of the roster and battlefield and change it in place.

This project models, in Dafny:

- **the session record and its document methods** (`SessionModel`): the schema's constraints as a validity predicate, `updateMonsterHp`, `addCondition`, `removeCondition`, the `activeMonsters`/`totalMonsters` views and the one-day activity window. The document is a class whose methods update the monster they find.
- **the error middleware** (`ErrorHandler`): the ordered mapping from an error's name and code to a status and body.
- **the three REST routers** (`RouteCommon`, `BattlesRoute`, `BattlefieldRoute`, `DiceRoute`):
  - every validation middleware is a total function. It returns `Pass`, `Fail(first failed check)` or `Crash`; `Crash` is the TypeError a null array element causes.
  - every handler is a function from the store (`map<string, Session>`) and the request to the new store, the reply and the room broadcast.
  - the statistics route's `forEach` loops are methods, proved against tally functions.
- **the push channel of `server.js`** (`PushChannel`): a `Hub` class holding the connections, the rooms, the 20-roll cache and the store. It has one method per socket event, built on:
  - the per-event `sessionId` gate;
  - the "room minus sender" fan-out;
  - the roll cache's shift/push.
- **the browser state** (`ClientMain`, `ClientBattlefield`, `ClientDice`):
  - the global monster list, initiative order and battlefield as a `ClientState` class, changed in place by the page's handlers;
  - the grid snap and zoom arithmetic;
  - the dice table;
  - the bounded quantity input.

JSON payloads are `JsValue.Value` (undefined, null, booleans, numbers as reals, strings, arrays, objects). Field access, truthiness and `===` follow JavaScript. The clock, random draws and generated ids are parameters.

Mongoose casting is modelled strictly (module `Casting`):

- a field is stored only when it already has the schema's type;
- anything else is a cast failure, which the handlers answer with their catch-all 500;
- a failed schema validator is a 400 `SchemaViolation`.

## Model

| member | source | states |
|---|---|---|
| SessionModel.NewSession | server/models/session.js:131-134 | an upserted record starts with no monsters, order or rolls, no background, grid 50 shown, and the given id and stamp |
| SessionModel.ValidSession | server/models/session.js:4-130 | every constraint the schema declares, over the whole record; a valid record has a 3–50 character id, pieces with maxHp at least 1 and roll names of 1–50 characters |
| SessionModel.NewSessionValid | server/models/session.js:4-11 | a fresh record with a 3–50 character id satisfies every schema constraint |
| SessionModel.ActiveMonsters | server/models/session.js:148-150 | the `activeMonsters` virtual: exactly the monsters with positive current HP, never more than the roster |
| SessionModel.ActiveMonstersSpec | server/models/session.js:148-154 | `activeMonsters` holds exactly the monsters with positive HP, is no longer than `totalMonsters`, and is the roster itself when every monster stands |
| SessionModel.ActiveMonstersAppend | server/models/session.js:148-150 | the active view keeps record order (it distributes over concatenation) |
| SessionModel.FindMonster | server/models/session.js:158 | the index found is the first monster with the id; none iff no monster has it |
| Seqs.FindFirst | server/models/session.js:158 | `find`, as an index: the index found satisfies the test and no earlier element does; none iff no element does |
| SessionModel.ClampHp | server/models/session.js:162 | the new HP lies in [0, maxHp]; it is the request when in range, 0 below, maxHp above |
| SessionModel.WithCondition | server/models/session.js:172-177 | the tag is present afterwards; appended only when absent, otherwise the list is unchanged |
| SessionModel.WithConditionIdempotent | server/models/session.js:172-177 | adding a tag twice equals adding it once |
| SessionModel.WithoutCondition | server/models/session.js:185 | the `filter(c => c !== condition)` of `removeCondition`: the tag is gone and every other tag stays |
| SessionModel.WithoutConditionSpec | server/models/session.js:185 | removal drops every occurrence, keeps each other tag's count, keeps relative order, and is the identity for an absent tag |
| SessionModel.AddThenRemove | server/models/session.js:167-188 | removing right after adding leaves what removing alone leaves |
| SessionModel.SessionDocument.UpdateMonsterHp | server/models/session.js:157-165 | unknown id: MonsterNotFound and nothing changes; otherwise only the first matching monster's HP becomes the clamped value and the stamp is set |
| SessionModel.SessionDocument.AddCondition | server/models/session.js:167-178 | unknown id: error, no change; a tag already present: nothing saved; otherwise only that monster gains the tag and the stamp is set |
| SessionModel.SessionDocument.RemoveCondition | server/models/session.js:180-188 | unknown id: error, no change; otherwise only that monster loses every occurrence of the tag and the stamp is set |
| SessionModel.UpdateHpKeepsValid | server/models/session.js:24-33 | clamping keeps a valid record valid, with HP in [0, maxHp] |
| SessionModel.AddConditionValidity | server/models/session.js:39-46 | after adding, the record is valid iff the tag is one of the twelve enum tags or was already present |
| SessionModel.RemoveConditionKeepsValid | server/models/session.js:39-46 | removing a tag keeps a valid record valid |
| SessionModel.GoblinClampScenario | server/models/session.js:162 | a 7-HP monster set to -10 ends at 0 |
| SessionModel.FindActiveSessions | server/models/session.js:195-199 | the active map holds exactly the stored sessions whose `lastUpdated` is at least now minus one day, unchanged |
| SessionModel.ActiveWindow | server/models/session.js:197 | a session is active iff now is at most 86,400,000 ms after its `lastUpdated` |
| ErrorHandler.Handle | server/middlewares/errorHandler.js:1-87 | the middleware's if-chain in source order; details are sent iff the error is a ValidationError, which is also the only case without a message; the body is a business error iff no name claims the error and it is flagged as one, and internal iff neither |
| ErrorHandler.ValidationErrorDetails | server/middlewares/errorHandler.js:13-19 | a ValidationError is a 400 whose details list every contained message, in order |
| ErrorHandler.ConflictOnlyForDuplicateKey | server/middlewares/errorHandler.js:29-35 | 409 is answered iff the error is a MongoError with code 11000, or an unclaimed business error carrying 409; other MongoError codes give 500 |
| ErrorHandler.NamedStatuses | server/middlewares/errorHandler.js:13-70 | Validation, Cast, Multer and Socket errors give 400; the two token errors give 401 |
| ErrorHandler.NameTakesPrecedence | server/middlewares/errorHandler.js:13-79 | an error claimed by name is answered the same whatever its business flag and status code |
| ErrorHandler.BusinessStatus | server/middlewares/errorHandler.js:73-79 | an unclaimed business error answers its own status code, or 400 when it has none, with its name |
| ErrorHandler.FallbackIsInternal | server/middlewares/errorHandler.js:82-86 | everything else is a 500 whose message is the error's own only in development |
| ErrorHandler.StatusRange | server/middlewares/errorHandler.js:1-87 | every status is 400, 401, 409, 500 or a business error's own code |
| Casting.DecodeMonster | server/models/session.js:12-58 | a monster casts only from an object whose id and name are strings and whose HP and initiative are numbers, carried over as sent; a missing tempHp, conditions or isAdventurer takes the schema default; an explicit null in tempHp or isAdventurer is a cast failure |
| Casting.DecodePiece | server/models/session.js:69-101 | a piece casts only from an object whose id and name are strings and whose position and HP are numbers, carried over as sent |
| Casting.DecodeSettings | server/models/session.js:102-113 | missing settings are the defaults (grid 50, shown); a non-object fails; otherwise each field is the sent value, or its default when missing |
| Casting.DecodeBattlefield | server/models/session.js:63-114 | a battlefield casts only from an object; a missing or null background is none and a string is kept; missing or null pieces are none, otherwise the decoded array; the settings are DecodeSettings of the sent settings |
| Casting.DecodeStrings | server/models/session.js:58-62 | an array of strings is stored element for element; it fails only when some element is not a string |
| RouteCommon.Refusal | server/routes/battles.js:8-14 | a failed check answers 400 with its reason; a thrown TypeError reaches the error middleware's status |
| RouteCommon.CrashIsInternalError | server/middlewares/errorHandler.js:82-86 | a TypeError thrown by a validator is a 500 in every environment |
| RouteCommon.ValidateSessionId | server/routes/battles.js:6-16 | the route guard (copied in the dice and battlefield routers) passes iff the id has 3 to 50 characters, and otherwise fails with the invalid-id reason |
| RouteCommon.SessionIdGuardMatchesSchema | server/routes/battles.js:6-16 | the session-id guard passes exactly the ids of length 3 to 50, the same ids the schema accepts |
| RouteCommon.Scan | server/routes/battles.js:38-47 | the element loop passes iff every element passes; otherwise its verdict is that of the first element that does not pass |
| RouteCommon.ScanVerdicts | server/routes/battlefield.js:62-80 | a loop never reports a failure that the per-element check cannot give |
| BattlesRoute.MonsterShape | server/routes/battles.js:39-46 | a monster fails only with "missing field" |
| BattlesRoute.ValidateMonsterData | server/routes/battles.js:18-61 | passes iff both lists are arrays, every monster has a truthy id and name and numeric HP, maxHp and initiative, and every order entry strictly equals some monster's id |
| BattlesRoute.MonsterDataCheckOrder | server/routes/battles.js:21-58 | the checks run in source order: a non-array monster list is the first failure, an unknown order id is reported only when no monster is null, and the check crashes exactly when both lists are arrays and a null monster follows only well-formed ones |
| BattlesRoute.ValidateBattlefieldData | server/routes/battles.js:63-98 | passes iff the battlefield is a truthy object and a truthy `pieces` is an array of well-formed pieces; HP range is not checked |
| BattlesRoute.FalsyPiecesSkipCheck | server/routes/battles.js:74-95 | a falsy `pieces` is not checked at all |
| BattlesRoute.GetSession | server/routes/battles.js:101-123 | 200 with the stored record iff the id is valid and stored; 404 for a valid unknown id |
| BattlesRoute.PostSession | server/routes/battles.js:126-176 | on success the key set gains the id, other records are unchanged, the reply is the saved record, and the room is sent the monsters and order; any failure leaves the store unchanged and broadcasts nothing; a request whose id, body, casts and schema all pass always succeeds, for a new id as for a stored one |
| BattlesRoute.PostSessionStoresRequest | server/routes/battles.js:131-145 | the upserted record holds exactly the request's monsters and order and the new stamp, and keeps an existing record's battlefield and history (a new one gets the defaults) |
| BattlesRoute.PostSessionOrderIntegrity | server/routes/battles.js:50-58 | every id of a stored order names a stored monster |
| BattlesRoute.PostSessionKeepsStoreValid | server/routes/battles.js:140-145 | the upsert keeps every record valid and filed under its own id |
| BattlesRoute.OrderMayRepeatAndOmit | server/routes/battles.js:50-58 | an order naming one monster twice and leaving out another is accepted and stored as sent |
| BattlesRoute.PostBattlefield | server/routes/battles.js:179-234 | on success only the battlefield and stamp of an existing record change, to the decoded request; a request that passes the id check, the body check, the cast and the schema succeeds iff the id is stored, and an unknown id then gets 404 |
| BattlesRoute.PostBattlefieldKeepsStoreValid | server/routes/battles.js:184-196 | replacing a battlefield keeps every record valid |
| BattlesRoute.ValidationPrecedesLookup | server/routes/battles.js:184-204 | a battlefield the schema refuses is a 400 even for an unknown id |
| BattlesRoute.DeleteSession | server/routes/battles.js:237-258 | 200 iff the id is valid and stored; the key is removed and the room told; otherwise nothing changes and nothing is broadcast |
| BattlesRoute.DeleteTwice | server/routes/battles.js:239-247 | a second delete finds nothing and changes nothing |
| BattlefieldRoute.ValidateSettings | server/routes/battlefield.js:21-49 | passes iff `settings` is a truthy object with a number `gridSize` in [10, 200] and a boolean `showGrid` |
| BattlefieldRoute.SettingsCheckSubsumesSchema | server/routes/battlefield.js:21-49 | settings the route accepts always cast and satisfy the schema |
| BattlefieldRoute.PieceCheck | server/routes/battlefield.js:62-80 | a piece fails only for a missing field or HP out of range |
| BattlefieldRoute.ValidatePieces | server/routes/battlefield.js:51-83 | passes iff `pieces` is an array whose every element is non-null and passes the piece check (the empty array passes) |
| BattlefieldRoute.ShapeCheckedBeforeHp | server/routes/battlefield.js:63-79 | a piece without an id is reported as missing a field, whatever its HP |
| BattlefieldRoute.PostSettings | server/routes/battlefield.js:183-238 | on success only `battlefield.settings` and the stamp of an existing record change; the reply and broadcast carry the new settings |
| BattlefieldRoute.AcceptedSettingsApply | server/routes/battlefield.js:188-208 | accepted settings either are stored exactly as sent or meet an unknown id (404), never a cast or schema error |
| BattlefieldRoute.PostSettingsIdempotent | server/routes/battlefield.js:188-216 | sending the same settings twice, at any two instants, gives the same reply and broadcast and the same stored settings; only the stamp moves |
| BattlefieldRoute.PostPieces | server/routes/battlefield.js:241-296 | on success only `battlefield.pieces` and the stamp change, to the decoded request; reply and broadcast carry the pieces; a request that passes the id check, the body check, the cast and the schema succeeds iff the id is stored, and an unknown id then gets 404 |
| BattlefieldRoute.StoredPiecesWithinHp | server/routes/battlefield.js:73-79 | every stored piece has 0 ≤ currentHp ≤ maxHp |
| BattlefieldRoute.PostSettingsKeepsStoreValid | server/routes/battlefield.js:188-208 | a settings update keeps every record valid |
| BattlefieldRoute.PostPiecesKeepsStoreValid | server/routes/battlefield.js:246-266 | a pieces update keeps every record valid |
| BattlefieldRoute.IsImageName | server/routes/battlefield.js:102 | the upload filter's case-sensitive regex test: the name ends with `.jpg`, `.jpeg`, `.png` or `.gif`, so it has at least four characters |
| BattlefieldRoute.StoredExtension | server/routes/battlefield.js:92 | the stored file keeps the image extension the name ends with |
| BattlefieldRoute.ImageUrl | server/routes/battlefield.js:144 | the stored url is under `/uploads/` and ends with that extension |
| BattlefieldRoute.UploadBackground | server/routes/battlefield.js:96-180 | success requires an image name within 5 MB and a stored id, and sets only the background url and stamp, the saved record satisfying the schema; a non-image name is the file filter's 500, a missing file is a 400; an acceptable file for an unknown id gets 404, and for a valid stored record whose new url fits the schema it succeeds |
| BattlefieldRoute.OversizeUploadRefused | server/routes/battlefield.js:98-100 | a file over 5 MB is refused with 400 |
| BattlefieldRoute.UpperCaseExtensionRefused | server/routes/battlefield.js:102 | the extension test is case-sensitive |
| BattlefieldRoute.UploadKeepsStoreValid | server/routes/battlefield.js:144-147 | an upload keeps every record valid |
| BattlefieldRoute.DeleteBackground | server/routes/battlefield.js:299-330 | on success only the background (now none) and stamp change; a valid stored record always succeeds; a valid unknown id gets 404 |
| BattlefieldRoute.UploadThenDelete | server/routes/battlefield.js:110-330 | for a record without a background, deleting after an upload restores it but for its stamp |
| DiceRoute.DieCheck | server/routes/dice.js:47-55 | a die passes iff its type is truthy and its value a non-zero number |
| JsValue.Trim | server/routes/dice.js:103 | `.trim()`: the result is a slice of the input after its leading whitespace, never longer, empty iff the input is all whitespace, and otherwise starts and ends with a non-whitespace character |
| DiceRoute.ValidateRollData | server/routes/dice.js:18-58 | passes iff the name is a string that is not blank once trimmed and `rollData` is an object with a non-empty array of well-formed dice |
| DiceRoute.AccumulatedSpec | server/routes/dice.js:229-236 | each type's accumulator holds the number of dice of that type and the sum of their values, for exactly the types thrown |
| DiceRoute.KindCounts | server/routes/dice.js:226 | the per-type counter of the stats loop, die by die: every counted type has a count between 1 and the number of dice |
| DiceRoute.KindCountsTally | server/routes/dice.js:226 | counting die by die is tallying the list of types |
| DiceRoute.PlayerCounts | server/routes/dice.js:222 | the per-player counter of the stats loop, roll by roll: every counted name has a count between 1 and the number of rolls |
| DiceRoute.PlayerCountsTally | server/routes/dice.js:222 | counting roll by roll is tallying the list of player names |
| DiceRoute.CountDie | server/routes/dice.js:226-236 | one die adds one to its type's count and its value to its type's accumulator, created empty when missing |
| DiceRoute.CountDice | server/routes/dice.js:225-237 | the inner loop leaves the counts and accumulators of the dice seen so far plus this roll's dice |
| DiceRoute.CountPlayer | server/routes/dice.js:222 | `(players[name] \|\| 0) + 1` increments that name's count only |
| DiceRoute.CountRolls | server/routes/dice.js:220-238 | the outer loop leaves the per-player counts and per-type counts and accumulators of the whole history |
| DiceRoute.ComputeStats | server/routes/dice.js:213-244 | totalRolls is the history length; players and diceTypes are tallies of names and types; every type's average is its value total over its count |
| DiceRoute.PlayerCountsSumToRolls | server/routes/dice.js:222 | the per-player counts add up to the number of rolls |
| DiceRoute.TypeCountsSumToDice | server/routes/dice.js:226 | the per-type counts add up to the number of dice thrown |
| DiceRoute.TypeCountIsOccurrences | server/routes/dice.js:226 | each type's count is its number of occurrences |
| JsValue.ParseInt | server/routes/dice.js:73 | `parseInt` without a radix: a blank string is NaN, and a negative result needs a minus sign in the text; `ParseIntOfIntToString` gives the round trip with the decimal rendering |
| DiceRoute.LimitOf | server/routes/dice.js:73 | the limit is never 0; it is the parsed query when that is a non-zero integer, and 20 when the query is absent, unparsable or 0 |
| DiceRoute.SliceFromEnd | server/routes/dice.js:74 | a positive limit keeps the last min(limit, n) records in order; a negative one drops that many from the front |
| DiceRoute.NegativeLimitSkipsOldest | server/routes/dice.js:73-74 | `?limit=-2` skips the two oldest rolls instead of keeping the last two |
| DiceRoute.GetHistory | server/routes/dice.js:61-90 | 200 iff the id is valid and stored, and a valid unknown id gets 404; for a positive limit the page is the newest min(limit, n) rolls (20 when no limit is sent); the page is `slice(-limit)` of the history for every limit, so a negative one skips the oldest rolls; it reports the full length |
| DiceRoute.PostRoll | server/routes/dice.js:93-153 | on success the roll, with the trimmed name and the stamp, is appended last, nothing else changes, and it is the reply and the broadcast; a roll that passes the id check, the body check and the schema succeeds iff the id is stored, and an unknown id then gets 404 |
| DiceRoute.LongNameIsSchemaViolation | server/routes/dice.js:110-113 | a trimmed name over 50 characters passes the route's check and is refused by the schema |
| DiceRoute.PostRollKeepsInvariants | server/routes/dice.js:98-114 | recording a roll keeps the store valid and every history readable by the stats route |
| DiceRoute.ResetHistory | server/routes/dice.js:156-198 | 200 iff the id is valid and stored; then the history is empty and the room told; a valid unknown id gets 404; otherwise nothing changes |
| DiceRoute.ResetThenHistory | server/routes/dice.js:158-170 | after a reset the history page is empty with total 0 |
| DiceRoute.GetStats | server/routes/dice.js:201-258 | 200 iff the id is valid, stored and its history well formed; the statistics are the tallies of the history; 404 for an unknown id |
| PushChannel.BoundValue | server.js:66 | an absent query is undefined, a repeated one an array |
| PushChannel.Admitted | server.js:96-194 | an event passes the gate iff its data is truthy and its `sessionId` strictly equals the bound id; the room is then the bound string |
| PushChannel.RepeatedQueryPassesNoGate | server.js:65-72 | a connection whose query repeats `sessionId` is bound to an array, which no event's id equals |
| PushChannel.Audience | server.js:99 | the recipients are the room's members except the sender |
| PushChannel.Forwarded | server.js:96-240 | each relay goes out iff its payload field is truthy (a piece move also needs x and y defined) and carries that field, or the documented wrapper object |
| PushChannel.PieceAtOriginRelayed | server.js:207 | a move to x = 0 with y = null is relayed: only `undefined` is refused |
| PushChannel.Latest | server.js:171-175 | the newest min(n, 20) rolls, in order |
| PushChannel.Pushed | server.js:166-175 | a push onto an entry of at most 20 leaves the newest 20 of the entry plus the roll, the roll last |
| PushChannel.LatestSnoc | server.js:171-175 | truncating before each push equals truncating once at the end |
| PushChannel.CacheHoldsLatest | server.js:161-180 | after any run of rolls into a fresh session the cache holds the newest 20 |
| PushChannel.SlotOf | server.js:166 | a cache lookup finds the own entry when there is one, an inherited `Object.prototype` member for the inherited names, and nothing otherwise |
| PushChannel.RollAsWritten | server.js:166-175 | as written, a roll throws iff the session has no own entry and its name is inherited; otherwise the entry (created empty) gets the roll pushed and nothing else changes |
| PushChannel.ConstructorRoomRollThrows | server.js:166-175 | `constructor` is a valid session id, and a roll into it throws as written |
| PushChannel.TwentyOneRolls | server.js:171-175 | after 21 rolls the cache is rolls 2 to 21 in order |
| PushChannel.PersistOrder | server.js:129-134 | the stored order of an existing record becomes the sent string array with the new stamp; nothing else changes and nothing is created |
| PushChannel.ReorderSkipsOrderCheck | server.js:130-134 | a persisted order can name an unknown monster or be an empty string, breaking a valid record |
| PushChannel.Hub.constructor | server.js:62 | a hub starts with no connections, rooms or cache entries |
| PushChannel.Hub.Connect | server.js:65-84 | a connection is accepted iff its query `sessionId` is truthy, and is then bound to it |
| PushChannel.Hub.JoinRoom | server.js:87-94 | a join with the bound id adds the connection to that room (`join-battlefield`, server.js 197-204, is the same handler); any other id changes nothing |
| PushChannel.Hub.Relay | server.js:96-240 | a relayed event reaches the room minus the sender, only when it passes the gate and has its payload |
| PushChannel.Hub.JoinDiceSession | server.js:139-152 | a gated join records the room and player (default "未知玩家"), joins the room, and replays the cache entry to the joiner only when one exists |
| PushChannel.Hub.RollDice | server.js:161-180 | a gated roll with data pushes onto the room's cache entry, created when missing, keeping at most 20, and relays to the room minus the sender |
| PushChannel.Hub.ResetDice | server.js:182-194 | a gated reset empties an existing entry, creates none, and relays to the room minus the sender |
| PushChannel.Hub.ReorderMonsters | server.js:119-136 | a gated reorder with an order relays it and persists it without checking its ids |
| PushChannel.Hub.Disconnect | server.js:242-245 | the connection's state is forgotten and it leaves every room; the cache and store are kept |
| ClientMain.FindMonster | public/js/main.js:175 | the index of the first monster with the id; none iff absent |
| ClientMain.Lookup | public/js/main.js:220 | the monster found carries the id; none iff no monster has it |
| ClientMain.RenderOrder | public/js/main.js:219-225 | the cards are monsters of the roster whose ids are in the order, at most one per order entry |
| ClientMain.RenderOrderComplete | public/js/main.js:219-225 | when every order id names a monster, there is one card per entry, in order |
| ClientMain.Toggled | public/js/main.js:195-200 | an absent tag is appended; a present one loses exactly one occurrence |
| ClientMain.ToggleTwiceAbsent | public/js/main.js:195-200 | toggling an absent tag twice restores the list exactly |
| ClientMain.ToggleOffRemoves | public/js/main.js:199 | on a duplicate-free list, toggling a present tag splices it out at its index |
| ClientMain.ToggleTwicePresent | public/js/main.js:195-200 | toggling a present tag twice restores the multiset; the list is equal iff the tag was last |
| ClientMain.ToggleKeepsDuplicateFree | public/js/main.js:195-200 | toggling keeps a duplicate-free list duplicate-free |
| ClientMain.WithoutMonster | public/js/main.js:208 | the survivors are exactly the monsters without the id |
| ClientMain.WithoutId | public/js/main.js:209 | the intended order filter keeps exactly the other ids |
| ClientMain.WithoutIdAsWritten | public/js/main.js:209 | the filter as written empties the order |
| ClientMain.LookupSurvivor | public/js/main.js:206-226 | deleting one id does not change the lookup of another |
| ClientMain.DeletionKeepsRenderedOrder | public/js/main.js:206-225 | with the intended filter, the cards after a delete are the cards before minus the deleted monster |
| ClientMain.DeletionAsWrittenHidesSurvivors | public/js/main.js:206-226 | with the filter as written, no card is shown after any delete |
| ClientMain.DeleteGoblinScenario | public/js/main.js:206-225 | deleting one of two monsters shows no card as written, the other monster with the fix |
| ClientMain.SameIdsListed | public/js/main.js:174-203 | changing monsters without changing ids keeps the order's ids listed |
| ClientMain.AppendListed | public/js/main.js:167-168 | appending a monster and its id keeps the order's ids listed |
| ClientMain.DeletionListed | public/js/main.js:208-209 | the intended delete keeps the order's ids listed |
| ClientMain.Face | public/js/main.js:291 | a die face lies in [1, diceType] |
| ClientMain.SumBounds | public/js/main.js:294 | the total of n faces of a d-sided die lies in [n, n·d] |
| ClientMain.RollDice | public/js/main.js:288-308 | `quantity` results (none for a non-positive quantity), each the face of its draw, and their sum as total |
| ClientMain.ThreeD6 | public/js/main.js:291-294 | draws 0, 0.5 and 0.99 on a d6 give faces 1, 4 and 6, totalling 11 |
| ClientMain.ClientState.constructor | public/js/main.js:4-13 | the page starts with no monsters, an empty order and the default battlefield |
| ClientMain.ClientState.AddMonster | public/js/main.js:152-172 | one monster (name prefix + new count, full HP, no temp HP, conditions or initiative) and its id are appended; the order invariant is kept |
| ClientMain.ClientState.UpdateMonsterHp | public/js/main.js:174-181 | only the first matching monster's HP changes, to max(0, HP + amount), with no cap at maxHp; an unknown id changes nothing |
| ClientMain.ClientState.UpdateMonsterInitiative | public/js/main.js:183-190 | only the first matching monster's initiative changes; an unknown id changes nothing |
| ClientMain.ClientState.ToggleMonsterCondition | public/js/main.js:192-204 | only the first matching monster's conditions are toggled; an unknown id changes nothing |
| ClientMain.ClientState.DeleteMonsterAsWritten | public/js/main.js:206-213 | once confirmed, the monsters with the id go and the order becomes empty |
| ClientMain.ClientState.DeleteMonster | public/js/main.js:206-213 | once confirmed, the monsters and the order entries with the id go; the order invariant is kept |
| ClientMain.ClientState.RenderMonsters | public/js/main.js:216-226 | the cards are produced in initiative order, skipping ids without a monster |
| ClientMain.ClientState.ResetSession | public/js/main.js:351-365 | monsters and order are emptied and the battlefield is the default one |
| ClientBattlefield.SnapSpec | public/js/battlefield.js:40-41 | the snapped coordinate is a multiple of the grid size with snap ≤ x < snap + grid size |
| ClientBattlefield.SnapIdempotent | public/js/battlefield.js:92-93 | snapping a snapped coordinate leaves it unchanged |
| ClientBattlefield.Zoomed | public/js/battlefield.js:106 | the grid size is clamped into [20, 100], and equals the sum when that lies inside |
| ClientBattlefield.HandleZoom | public/js/battlefield.js:101-120 | a click on a button changes only the grid size, by +5 for zoom-in and −5 otherwise, clamped; a click elsewhere changes nothing |
| ClientBattlefield.ToggleGrid | public/js/battlefield.js:123-126 | only `showGrid` changes, to its negation |
| ClientBattlefield.FindPiece | public/js/battlefield.js:153 | the index of the first piece with the id; none iff absent |
| ClientBattlefield.UpdatePiecePosition | public/js/battlefield.js:152-159 | only the first matching piece's x and y change; an unknown id changes nothing |
| ClientBattlefield.MoveKeepsFinds | public/js/battlefield.js:155-156 | a move keeps every id in place, so every piece is found at the same index afterwards |
| ClientBattlefield.AddPiece | public/js/battlefield.js:162-173 | one piece with the given id, name, x and y and no HP fields is appended |
| ClientBattlefield.WithoutPiece | public/js/battlefield.js:177 | the remaining pieces are exactly those without the id |
| ClientBattlefield.DeletePieceSpec | public/js/battlefield.js:177 | deletion keeps each other piece as often as before, drops every piece with the id, and is the identity for an unknown id |
| ClientBattlefield.DeletePiece | public/js/battlefield.js:176-180 | the pieces become the filtered list; nothing else changes |
| ClientDice.DiceTypesTable | public/js/dice.js:2-10 | seven die types with values 4, 6, 8, 10, 12, 20, 100, increasing, each labelled `d` + value |
| ClientDice.OrOne | public/js/dice.js:42 | `x \|\| 1`: never 0; the parsed number unless that is NaN or 0 |
| ClientDice.Quantity | public/js/dice.js:40-43 | the quantity is never 0 and is either the parsed number or 1 |
| ClientDice.QuantityOfWritten | public/js/dice.js:45-59 | a non-zero number written into the input reads back as itself |
| ClientDice.Incremented | public/js/dice.js:48-50 | plus one below 100, unchanged from 100 up |
| ClientDice.Decremented | public/js/dice.js:56-58 | minus one above 1, unchanged at 1 and below |
| ClientDice.ClicksStayInRange | public/js/dice.js:23-59 | from [1, 100], any run of presses stays in [1, 100] |
| ClientDice.PlusThenMinus | public/js/dice.js:45-59 | from [1, 99], plus then minus returns to the start |
| ClientDice.QuantityInput.constructor | public/js/dice.js:23 | the input starts at "1", within range |
| ClientDice.QuantityInput.Increment | public/js/dice.js:45-51 | writes the current quantity plus one only below 100; the new reading is that; the range is kept |
| ClientDice.QuantityInput.Decrement | public/js/dice.js:53-59 | writes the current quantity minus one only above 1; the new reading is that; the range is kept |

## Left out

- HTTP and socket plumbing. Express wiring, CORS, morgan, static files and the SPA fallback (server.js:1-59 and 248-257) are framework plumbing. Socket.IO delivery is a set of recipients per event.
- Concurrency: each request and each socket event is one atomic step, so interleaved async store calls are not modelled.
- The database connection (server/config/database.js) is not part of this model; it is I/O and timers.
- `findBySessionId` (server/models/session.js:190-192) is `findOne({sessionId})`. The read handlers call it: the session GET, the history GET, the stats, the upload and the background delete (server/routes/battles.js:103, server/routes/dice.js:63 and 203, server/routes/battlefield.js:123 and 301). The model's `id in store` lookup stands for it. The other writes call `findOneAndUpdate` or `findOneAndDelete` directly, and these are modelled as map updates.
- The characters router (routes/characters.js) is not part of this model; it returns a constant.
- File I/O of the background upload:
  - multer's streaming to disk;
  - `fs.unlink` of old, failed or orphaned files;
  - the `path.join` of the stored path.
  The file name's random stem is a parameter (`uniqueSuffix`); the 5 MB limit and the extension filter are modelled.
- File names with path separators. `path.extname` is taken to see only the final extension of `originalname`; names containing directory parts are not modelled.
- Mongoose's conversions. Casting is strict, so the model refuses values Mongoose would convert or accept:
  - a numeric string for a number, or a number for a string (Mongoose stores `order: [1, 2]` as `["1", "2"]`);
  - a scalar where an array is expected (Mongoose wraps `order: "g1"` into `["g1"]`);
  - an explicit `null` in an optional field, such as a monster's `tempHp` or `isAdventurer` (server/models/session.js:34-37 and 53-57), which passes the route's body check and which Mongoose stores as null.
  String fields are also not trimmed on save: the model stores them as sent. Over HTTP, such requests end in the handlers' catch-all 500 instead of being stored converted. On the socket path (`reorder-monsters`, `PushChannel.PersistOrder`) the write is skipped: the store is unchanged, nothing answers the sender, and the relay to the room still goes out.
- The ValidationError `details` of the route handlers. A schema failure is the body `SchemaViolation`, without the per-field messages.
- Lengths are counted in code points, not UTF-16 code units (`minlength`, `maxlength`, `sessionId.length`).
- Numbers are exact reals. There is no NaN or Infinity (JSON bodies cannot carry them) and no floating-point rounding. The stats averages are exact quotients.
- DiceRoute.Die: die types are kept as JSON values. The stats object keys them by string conversion, so the types `6` and `"6"` share one entry there but not in the model.
- DiceRoute.GetStats: a history containing a roll without a `dice` array (possible only for records written outside the roll route) makes the route throw and answer 500. The model answers 500 for any history that is not well formed; it does not model which statement throws.
- PushChannel.Hub.JoinDiceSession: the cache is a map with own keys only. As written, a connection bound to an inherited name such as `constructor` is replayed the inherited member (a function, which the transport sends as `null`); the model replays nothing.
- PushChannel.Hub.RollDice: every session gets its own cache entry, the corrected behaviour of the finding below. As written, a session named like an inherited member throws before caching or relaying; `PushChannel.RollAsWritten` models that.
- PushChannel.Hub.ResetDice: as written, a reset in a session named like an inherited member creates an own empty entry (for `__proto__` it replaces the cache object's prototype instead); the model creates no entry.
- DiceRoute.ComputeStats: the tallies are maps with own keys only. As written, the `players`, `diceTypes` and `averageRolls` objects are plain objects, so a player or die type named like an inherited member (`constructor`, `toString`, `__proto__`) gets a garbled count, vanishes, or writes onto `Object.prototype`; the model gives clean tallies.
- DiceRoute.GetStats: its statistics are those of `DiceRoute.ComputeStats`, so the inherited-name cases above are not captured here either.
- Repeated `?limit=` query parameters (an array for `parseInt`) are not modelled; the limit is one optional string.
- Socket.IO rooms: `Hub.Disconnect` removes the connection from every room, which Socket.IO does on its own. The per-connection `joinedDiceSession` and `playerName` are kept in the connection record and forgotten with it.
- Events that no server handler listens for are not modelled: the browser's `syncSession` emits `sessionUpdate` and its `rollDice` emits `diceRoll`, while the server listens for `session-update` and `roll-dice`. The client's `sessionUpdate` listener (public/js/main.js:51-59), `loadSession`, `fetchSessionData`, `createNewSession` and `updateBackground` are network calls and are not modelled.
- DOM and rendering: `createMonsterCard`, `renderBattlefield`, `renderGrid`, the drag handlers' pixel reads, `handleZoom`'s repositioning of piece elements, `showDiceResults`, `animateDiceRoll`, `updateSyncStatus`, `confirm` (a boolean parameter).
- Randomness and time. `Math.random` (ids, die draws, file stems) and `Date.now` are parameters.
- ClientMain.ClientState.UpdateMonsterInitiative: the page assigns the input's string value; the model stores an integer, so "initiative is a string afterwards" is not captured.
- ClientMain.Monster: client numbers are integers. HP arithmetic on fractional values typed into an input is not modelled.
- ClientBattlefield.Snap: the grid size is an integer and the cursor position a real. Snapping with a fractional grid size is not modelled.

## Findings

| source | as written | input that shows it | evidently intended | confidence | as-written member | corrected member |
|---|---|---|---|---|---|---|
| public/js/main.js:209 | `monsterOrder.filter(id => id !== id)`: the arrow's parameter shadows the deleted id, so every entry compares unequal to nothing and the whole order is dropped | monsters `a`, `b` with order `["a", "b"]`; delete `a`: no card is rendered although `b` survives | drop only the entries equal to the deleted id, so the remaining monsters keep their initiative order | high (not executed) | ClientMain.ClientState.DeleteMonsterAsWritten (with ClientMain.DeletionAsWrittenHidesSurvivors, ClientMain.DeleteGoblinScenario) | ClientMain.ClientState.DeleteMonster (with ClientMain.DeletionKeepsRenderedOrder, ClientMain.DeletionListed) |
| server.js:166-175 | the cache is a plain object, so `diceSessionHistory[id]` finds an inherited `Object.prototype` member for a session named like one; that member is truthy, so no entry is created, and it has no `push`, so the listener throws | a connection with `?sessionId=constructor` sends `roll-dice` with a `rollData`: a TypeError is thrown, nothing is cached and nothing is relayed | every session gets its own entry (a prototype-less object or a `Map`) | high (not executed) | PushChannel.RollAsWritten (with PushChannel.ConstructorRoomRollThrows) | PushChannel.Hub.RollDice (with PushChannel.CacheHoldsLatest) |

=== FILE: battlefield_route.dfy ===
/**
 * The battlefield router: upload and delete the background image, replace
 * the grid settings, replace the pieces. Handlers are functions from the
 * store and the request to the new store, the reply and the room broadcast.
 */
module BattlefieldRoute {
  import opened Wrappers
  import opened JsValue
  import opened SessionModel
  import opened RouteCommon
  import Casting
  import ErrorHandler

  // ---- validateSettings ----

  /** `validateSettings`: an object, a number grid size in [10, 200], a boolean grid switch. */
  function ValidateSettings(body: Value): (v: Verdict)
    ensures v.Pass? || v.Fail?
    ensures var s := Field(body, "settings");
      v.Pass? <==> && Truthy(s) && IsObjectType(s)
                   && Field(s, "gridSize").Num? && 10.0 <= Field(s, "gridSize").n <= 200.0
                   && Field(s, "showGrid").Bool?
  {
    var settings := Field(body, "settings");
    if !Truthy(settings) || !IsObjectType(settings) then Fail(SettingsNotObject)
    else if !Field(settings, "gridSize").Num? || Field(settings, "gridSize").n < 10.0
            || Field(settings, "gridSize").n > 200.0 then Fail(InvalidGridSize)
    else if !Field(settings, "showGrid").Bool? then Fail(InvalidShowGrid)
    else Pass
  }

  /**
   * Settings the route lets through always cast and always satisfy the
   * schema: the route's check is at least as strict as the store's.
   */
  lemma SettingsCheckSubsumesSchema(body: Value)
    requires ValidateSettings(body).Pass?
    ensures var s := Field(body, "settings");
      && s.Obj?
      && Casting.DecodeSettings(s) == Some(Settings(Field(s, "gridSize").n, Field(s, "showGrid").b))
      && ValidSettings(Casting.DecodeSettings(s).value)
  {
  }

  // ---- validatePieces ----

  /** One piece: the required fields, then hit points within [0, maxHp]. */
  function PieceCheck(p: Value): (v: Verdict)
    ensures v.Pass? || v == Fail(PieceMissingField) || v == Fail(InvalidPieceHp)
  {
    if !Truthy(Field(p, "id")) || !Truthy(Field(p, "name")) || !Field(p, "x").Num? || !Field(p, "y").Num?
       || !Field(p, "currentHp").Num? || !Field(p, "maxHp").Num?
    then Fail(PieceMissingField)
    else if Field(p, "currentHp").n < 0.0 || Field(p, "currentHp").n > Field(p, "maxHp").n then Fail(InvalidPieceHp)
    else Pass
  }

  /** `validatePieces`: an array, each piece checked in turn. */
  function ValidatePieces(body: Value): (v: Verdict)
    ensures v.Pass? <==>
      Field(body, "pieces").Arr?
      && forall k :: 0 <= k < |Field(body, "pieces").items| ==>
           var p := Field(body, "pieces").items[k]; !IsNullish(p) && PieceCheck(p).Pass?
  {
    var pieces := Field(body, "pieces");
    if !pieces.Arr? then Fail(PiecesNotArray) else Scan(pieces.items, PieceCheck)
  }

  /** A piece that fails both checks is reported as missing a field: the shape is checked first. */
  lemma ShapeCheckedBeforeHp(p: Value)
    requires !Truthy(Field(p, "id"))
    ensures PieceCheck(p) == Fail(PieceMissingField)
  {
  }

  // ---- Handlers ----

  /** `POST /sessions/:sessionId/settings`. */
  function PostSettings(store: Store, id: string, body: Value, now: int): (o: Outcome<Settings>)
    ensures o.reply.status == 200 <==> o.notice.Some?
    ensures o.reply.status != 200 ==> o.store == store
    ensures o.reply.status == 200 ==>
      && id in store && id in o.store && o.store == store[id := o.store[id]]
      && o.store[id] == store[id].(battlefield := store[id].battlefield.(settings := o.store[id].battlefield.settings),
                                   lastUpdated := now)
      && o.reply.body == Data(o.store[id].battlefield.settings)
      && o.notice == Some(Notice(id, "battlefield-settings-updated", SettingsPayload(o.store[id].battlefield.settings)))
  {
    if !ValidateSessionId(id).Pass? then Outcome(store, Refusal(ValidateSessionId(id)), None)
    else
      var verdict := ValidateSettings(body);
      if !verdict.Pass? then Outcome(store, Refusal(verdict), None)
      else
        var settings := Casting.DecodeSettings(Field(body, "settings"));
        if settings.None? then Outcome(store, Reply(500, ServerError), None)
        else if !ValidSettings(settings.value) then Outcome(store, Reply(400, SchemaViolation), None)
        else if id !in store then Outcome(store, Reply(404, NotFound), None)
        else
          var saved := store[id].(battlefield := store[id].battlefield.(settings := settings.value), lastUpdated := now);
          Outcome(store[id := saved], Reply(200, Data(saved.battlefield.settings)),
                  Some(Notice(id, "battlefield-settings-updated", SettingsPayload(saved.battlefield.settings))))
  }

  /**
   * A settings request the route check accepts either succeeds with exactly
   * the sent values or finds no session: it never reaches a cast or schema error.
   */
  lemma AcceptedSettingsApply(store: Store, id: string, body: Value, now: int)
    requires ValidateSessionId(id).Pass? && ValidateSettings(body).Pass?
    ensures var o := PostSettings(store, id, body, now);
      && (id in store <==> o.reply.status == 200)
      && (id !in store ==> o.reply == Reply(404, NotFound))
      && (id in store ==>
            o.store[id].battlefield.settings ==
            Settings(Field(Field(body, "settings"), "gridSize").n, Field(Field(body, "settings"), "showGrid").b))
  {
    SettingsCheckSubsumesSchema(body);
  }

  /**
   * Sending the same settings twice, at any two instants, gives the same
   * answer and broadcast as one request and the same stored battlefield;
   * only the stamp moves to the second instant.
   */
  lemma PostSettingsIdempotent(store: Store, id: string, body: Value, now1: int, now2: int)
    ensures var first := PostSettings(store, id, body, now1);
      var second := PostSettings(first.store, id, body, now2);
      && second.reply == first.reply && second.notice == first.notice
      && (first.reply.status == 200 ==>
            second.store == first.store[id := first.store[id].(lastUpdated := now2)]
            && second.store[id].battlefield.settings == first.store[id].battlefield.settings)
      && (first.reply.status != 200 ==> second.store == store)
  {
  }

  /** `POST /sessions/:sessionId/pieces`. */
  function PostPieces(store: Store, id: string, body: Value, now: int): (o: Outcome<seq<Piece>>)
    ensures o.reply.status == 200 <==> o.notice.Some?
    ensures o.reply.status != 200 ==> o.store == store
    ensures o.reply.status == 200 ==>
      && id in store && id in o.store && o.store == store[id := o.store[id]]
      && o.store[id] == store[id].(battlefield := store[id].battlefield.(pieces := o.store[id].battlefield.pieces),
                                   lastUpdated := now)
      && Field(body, "pieces").Arr?
      && Casting.DecodePieces(Field(body, "pieces").items) == Some(o.store[id].battlefield.pieces)
      && o.reply.body == Data(o.store[id].battlefield.pieces)
      && o.notice == Some(Notice(id, "battlefield-pieces-updated", PiecesPayload(o.store[id].battlefield.pieces)))
    ensures (ValidateSessionId(id).Pass? && ValidatePieces(body).Pass? && Field(body, "pieces").Arr?
             && Casting.DecodePieces(Field(body, "pieces").items).Some?
             && (forall k :: 0 <= k < |Casting.DecodePieces(Field(body, "pieces").items).value| ==>
                   ValidPiece(Casting.DecodePieces(Field(body, "pieces").items).value[k]))) ==>
      && (o.reply.status == 200 <==> id in store)
      && (id !in store ==> o.reply == Reply(404, NotFound))
  {
    if !ValidateSessionId(id).Pass? then Outcome(store, Refusal(ValidateSessionId(id)), None)
    else
      var verdict := ValidatePieces(body);
      if !verdict.Pass? then Outcome(store, Refusal(verdict), None)
      else
        var pieces := Casting.DecodePieces(Field(body, "pieces").items);
        if pieces.None? then Outcome(store, Reply(500, ServerError), None)
        else if !(forall k :: 0 <= k < |pieces.value| ==> ValidPiece(pieces.value[k]))
        then Outcome(store, Reply(400, SchemaViolation), None)
        else if id !in store then Outcome(store, Reply(404, NotFound), None)
        else
          var saved := store[id].(battlefield := store[id].battlefield.(pieces := pieces.value), lastUpdated := now);
          Outcome(store[id := saved], Reply(200, Data(saved.battlefield.pieces)),
                  Some(Notice(id, "battlefield-pieces-updated", PiecesPayload(saved.battlefield.pieces))))
  }

  /** A decoded piece carries the numbers of the object it came from. */
  lemma DecodedPieceNumbers(v: Value)
    requires Casting.DecodePiece(v).Some?
    ensures Field(v, "currentHp") == Num(Casting.DecodePiece(v).value.currentHp)
    ensures Field(v, "maxHp") == Num(Casting.DecodePiece(v).value.maxHp)
  {
  }

  lemma DecodedPiecesNumbers(vs: seq<Value>, k: nat)
    requires Casting.DecodePieces(vs).Some? && k < |vs|
    ensures Casting.DecodePiece(vs[k]).Some? && Casting.DecodePiece(vs[k]).value == Casting.DecodePieces(vs).value[k]
  {
    if k > 0 {
      DecodedPiecesNumbers(vs[1..], k - 1);
    }
  }

  /**
   * Beyond the schema's bounds, the route keeps every stored piece's hit
   * points within [0, maxHp].
   */
  lemma StoredPiecesWithinHp(store: Store, id: string, body: Value, now: int)
    requires PostPieces(store, id, body, now).reply.status == 200
    ensures var ps := PostPieces(store, id, body, now).store[id].battlefield.pieces;
      forall k :: 0 <= k < |ps| ==> 0.0 <= ps[k].currentHp <= ps[k].maxHp
  {
    var vs := Field(body, "pieces").items;
    var ps := PostPieces(store, id, body, now).store[id].battlefield.pieces;
    forall k | 0 <= k < |ps|
      ensures 0.0 <= ps[k].currentHp <= ps[k].maxHp
    {
      DecodedPiecesNumbers(vs, k);
      DecodedPieceNumbers(vs[k]);
      assert PieceCheck(vs[k]).Pass?;
    }
  }

  /** A settings update keeps every record valid. */
  lemma PostSettingsKeepsStoreValid(store: Store, id: string, body: Value, now: int)
    requires StoreValid(store)
    ensures StoreValid(PostSettings(store, id, body, now).store)
  {
    if ValidateSessionId(id).Pass? && ValidateSettings(body).Pass? && id in store {
      var settings := Casting.DecodeSettings(Field(body, "settings"));
      if settings.Some? && ValidSettings(settings.value) {
        var saved := store[id].(battlefield := store[id].battlefield.(settings := settings.value), lastUpdated := now);
        ReplaceKeepsStoreValid(store, id, saved);
      }
    }
  }

  /** A pieces update keeps every record valid. */
  lemma PostPiecesKeepsStoreValid(store: Store, id: string, body: Value, now: int)
    requires StoreValid(store)
    ensures StoreValid(PostPieces(store, id, body, now).store)
  {
    if ValidateSessionId(id).Pass? && ValidatePieces(body).Pass? && id in store {
      var pieces := Casting.DecodePieces(Field(body, "pieces").items);
      if pieces.Some? && forall k :: 0 <= k < |pieces.value| ==> ValidPiece(pieces.value[k]) {
        var saved := store[id].(battlefield := store[id].battlefield.(pieces := pieces.value), lastUpdated := now);
        ReplaceKeepsStoreValid(store, id, saved);
      }
    }
  }

  // ---- Background image ----

  /** The file part of a multipart upload, as multer receives it. */
  datatype FilePart = FilePart(originalName: string, size: nat)

  const MAX_UPLOAD_BYTES: nat := 5 * 1024 * 1024
  const IMAGE_EXTENSIONS: seq<string> := [".jpg", ".jpeg", ".png", ".gif"]

  /** The error the file filter raises for a name without an image extension. */
  const NOT_AN_IMAGE: ErrorHandler.Error :=
    ErrorHandler.Error("Error", "只允许上传图片文件！", None, [], false, 0)
  /** The error multer raises for a file over the size limit. */
  const FILE_TOO_LARGE: ErrorHandler.Error :=
    ErrorHandler.Error("MulterError", "File too large", None, [], false, 0)

  predicate EndsWith(s: string, suffix: string) {
    |suffix| <= |s| && s[|s| - |suffix|..] == suffix
  }

  /** The file filter's test: the name ends, case-sensitively, with an image extension. */
  predicate IsImageName(name: string)
    ensures IsImageName(name) <==>
      || EndsWith(name, IMAGE_EXTENSIONS[0]) || EndsWith(name, IMAGE_EXTENSIONS[1])
      || EndsWith(name, IMAGE_EXTENSIONS[2]) || EndsWith(name, IMAGE_EXTENSIONS[3])
    ensures IsImageName(name) ==> |name| >= 4
  {
    exists k :: 0 <= k < |IMAGE_EXTENSIONS| && EndsWith(name, IMAGE_EXTENSIONS[k])
  }

  /**
   * The extension the stored file keeps: the image extension the name ends
   * with, or none when the name is nothing but that extension (a dot-file).
   */
  function StoredExtension(name: string): (r: string)
    ensures r == [] || (r in IMAGE_EXTENSIONS && EndsWith(name, r) && |r| < |name|)
    ensures IsImageName(name) && r == [] ==> name in IMAGE_EXTENSIONS
  {
    if EndsWith(name, ".jpeg") then (if name == ".jpeg" then [] else ".jpeg")
    else if EndsWith(name, ".jpg") then (if name == ".jpg" then [] else ".jpg")
    else if EndsWith(name, ".png") then (if name == ".png" then [] else ".png")
    else if EndsWith(name, ".gif") then (if name == ".gif" then [] else ".gif")
    else []
  }

  /** The url the record stores for an uploaded file. */
  function ImageUrl(uniqueSuffix: string, part: FilePart): (r: string)
    ensures |r| >= 9 && r[..9] == "/uploads/" && EndsWith(r, StoredExtension(part.originalName))
  {
    "/uploads/" + uniqueSuffix + StoredExtension(part.originalName)
  }

  /**
   * `POST /sessions/:sessionId/background`: the upload middleware runs after
   * the id guard; `uniqueSuffix` stands for the time-and-random file stem.
   */
  function UploadBackground(store: Store, id: string, part: Option<FilePart>, uniqueSuffix: string, now: int)
    : (o: Outcome<string>)
    ensures o.reply.status == 200 <==> o.notice.Some?
    ensures o.reply.status != 200 ==> o.store == store
    ensures o.reply.status == 200 ==>
      && part.Some? && IsImageName(part.value.originalName) && part.value.size <= MAX_UPLOAD_BYTES
      && id in store && id in o.store && o.store == store[id := o.store[id]]
      && o.store[id] == store[id].(battlefield := store[id].battlefield.(background := Some(ImageUrl(uniqueSuffix, part.value))),
                                   lastUpdated := now)
      && o.reply.body == Data(ImageUrl(uniqueSuffix, part.value))
      && o.notice == Some(Notice(id, "background-updated", ImagePayload(ImageUrl(uniqueSuffix, part.value))))
      && ValidateSessionId(id).Pass? && ValidSession(o.store[id])
    ensures ValidateSessionId(id).Pass? && part.Some? && !IsImageName(part.value.originalName) ==>
      o.reply == Reply(500, Unhandled(NOT_AN_IMAGE))
    ensures ValidateSessionId(id).Pass? && part.None? ==> o.reply == Reply(400, Rejected(NoFileUploaded))
    ensures (ValidateSessionId(id).Pass? && part.Some? && IsImageName(part.value.originalName)
             && part.value.size <= MAX_UPLOAD_BYTES) ==>
      && (id !in store ==> o.reply == Reply(404, NotFound))
      && (id in store && ValidSession(store[id]) && |ImageUrl(uniqueSuffix, part.value)| <= 500 ==>
            o.reply.status == 200)
  {
    if !ValidateSessionId(id).Pass? then Outcome(store, Refusal(ValidateSessionId(id)), None)
    else if part.Some? && !IsImageName(part.value.originalName) then
      Outcome(store, Reply(ErrorHandler.Handle(NOT_AN_IMAGE, false).status, Unhandled(NOT_AN_IMAGE)), None)
    else if part.Some? && part.value.size > MAX_UPLOAD_BYTES then
      Outcome(store, Reply(ErrorHandler.Handle(FILE_TOO_LARGE, false).status, Unhandled(FILE_TOO_LARGE)), None)
    else if part.None? then Outcome(store, Reply(400, Rejected(NoFileUploaded)), None)
    else if id !in store then Outcome(store, Reply(404, NotFound), None)
    else
      var url := ImageUrl(uniqueSuffix, part.value);
      var saved := store[id].(battlefield := store[id].battlefield.(background := Some(url)), lastUpdated := now);
      // `save()` validates the whole record; its failure lands in the handler's catch-all
      if !ValidSession(saved) then Outcome(store, Reply(500, ServerError), None)
      else Outcome(store[id := saved], Reply(200, Data(url)), Some(Notice(id, "background-updated", ImagePayload(url))))
  }

  /** An over-size file is refused by the upload middleware with 400, whatever the session. */
  lemma OversizeUploadRefused(store: Store, id: string, name: string, size: nat, uniqueSuffix: string, now: int)
    requires ValidateSessionId(id).Pass? && IsImageName(name) && size > MAX_UPLOAD_BYTES
    ensures UploadBackground(store, id, Some(FilePart(name, size)), uniqueSuffix, now).reply.status == 400
  {
  }

  /** The extension test is case-sensitive: an upper-case extension is refused. */
  lemma UpperCaseExtensionRefused()
    ensures !IsImageName("map.JPG")
  {
    assert !EndsWith("map.JPG", ".jpg") && !EndsWith("map.JPG", ".jpeg")
        && !EndsWith("map.JPG", ".png") && !EndsWith("map.JPG", ".gif") by {
      assert "map.JPG"[3..] == ".JPG";
      assert "map.JPG"[2..] == "p.JPG";
    }
  }

  /** Uploading keeps every record valid. */
  lemma UploadKeepsStoreValid(store: Store, id: string, part: Option<FilePart>, uniqueSuffix: string, now: int)
    requires StoreValid(store)
    ensures StoreValid(UploadBackground(store, id, part, uniqueSuffix, now).store)
  {
  }

  /** `DELETE /sessions/:sessionId/background`: the record forgets its image. */
  function DeleteBackground(store: Store, id: string, now: int): (o: Outcome<()>)
    ensures o.reply.status == 200 <==> o.notice.Some?
    ensures o.reply.status != 200 ==> o.store == store
    ensures o.reply.status == 200 ==>
      && id in store && id in o.store && o.store == store[id := o.store[id]]
      && o.store[id] == store[id].(battlefield := store[id].battlefield.(background := None), lastUpdated := now)
      && o.notice == Some(Notice(id, "background-deleted", NoPayload))
    ensures ValidateSessionId(id).Pass? && id in store && ValidSession(store[id]) ==> o.reply.status == 200
    ensures ValidateSessionId(id).Pass? && id !in store ==> o.reply == Reply(404, NotFound)
  {
    if !ValidateSessionId(id).Pass? then Outcome(store, Refusal(ValidateSessionId(id)), None)
    else if id !in store then Outcome(store, Reply(404, NotFound), None)
    else
      var saved := store[id].(battlefield := store[id].battlefield.(background := None), lastUpdated := now);
      if !ValidSession(saved) then Outcome(store, Reply(500, ServerError), None)
      else Outcome(store[id := saved], Reply(200, Done), Some(Notice(id, "background-deleted", NoPayload)))
  }

  /** Deleting the background after an upload restores the record but for its stamp. */
  lemma UploadThenDelete(store: Store, id: string, part: Option<FilePart>, uniqueSuffix: string, t1: int, t2: int)
    requires UploadBackground(store, id, part, uniqueSuffix, t1).reply.status == 200
    requires store[id].battlefield.background.None?
    ensures var up := UploadBackground(store, id, part, uniqueSuffix, t1).store;
      DeleteBackground(up, id, t2).store == store[id := store[id].(lastUpdated := t2)]
  {
    DeleteRestores(store, id, ImageUrl(uniqueSuffix, part.value), t1, t2);
  }

  /** Deleting an image just set on a record without one gives back that record, restamped. */
  lemma DeleteRestores(store: Store, id: string, url: string, t1: int, t2: int)
    requires ValidateSessionId(id).Pass? && id in store && store[id].battlefield.background.None?
    requires var saved := store[id].(battlefield := store[id].battlefield.(background := Some(url)), lastUpdated := t1);
      ValidSession(saved)
    ensures var saved := store[id].(battlefield := store[id].battlefield.(background := Some(url)), lastUpdated := t1);
      DeleteBackground(store[id := saved], id, t2).store == store[id := store[id].(lastUpdated := t2)]
  {
    var saved := store[id].(battlefield := store[id].battlefield.(background := Some(url)), lastUpdated := t1);
    var up := store[id := saved];
    assert saved.(battlefield := saved.battlefield.(background := None), lastUpdated := t2) == store[id].(lastUpdated := t2);
    assert up[id := store[id].(lastUpdated := t2)] == store[id := store[id].(lastUpdated := t2)];
  }
}

=== FILE: battles_route.dfy ===
/**
 * The session router: read a session, create or replace its monsters and
 * initiative order (an upsert), replace its battlefield, and delete it.
 * Each handler is a function from the store and the request to the new
 * store, the reply and the room broadcast it issues.
 */
module BattlesRoute {
  import opened Wrappers
  import opened JsValue
  import opened SessionModel
  import opened RouteCommon
  import Casting

  // ---- validateMonsterData ----

  /** The fields one monster of the request must carry. */
  function MonsterShape(m: Value): (v: Verdict)
    ensures v.Pass? || v == Fail(MonsterMissingField)
  {
    if Truthy(Field(m, "id")) && Truthy(Field(m, "name")) && Field(m, "currentHp").Num?
       && Field(m, "maxHp").Num? && Field(m, "initiative").Num?
    then Pass else Fail(MonsterMissingField)
  }

  /** `monsterIds.includes(id)` for the ids of the request's monsters. */
  predicate KnownMonsterId(monsters: seq<Value>, id: Value) {
    exists j :: 0 <= j < |monsters| && StrictEquals(Field(monsters[j], "id"), id)
  }

  /** `validateMonsterData`: array checks, then each monster in turn, then the order. */
  function ValidateMonsterData(body: Value): (v: Verdict)
    ensures v.Pass? <==>
      && Field(body, "monsters").Arr? && Field(body, "monsterOrder").Arr?
      && (forall k :: 0 <= k < |Field(body, "monsters").items| ==>
            var m := Field(body, "monsters").items[k]; !IsNullish(m) && MonsterShape(m).Pass?)
      && (forall k :: 0 <= k < |Field(body, "monsterOrder").items| ==>
            KnownMonsterId(Field(body, "monsters").items, Field(body, "monsterOrder").items[k]))
  {
    var monsters := Field(body, "monsters");
    var order := Field(body, "monsterOrder");
    if !monsters.Arr? then Fail(MonstersNotArray)
    else if !order.Arr? then Fail(OrderNotArray)
    else
      var scanned := Scan(monsters.items, MonsterShape);
      if !scanned.Pass? then scanned
      else if exists k :: 0 <= k < |order.items| && !KnownMonsterId(monsters.items, order.items[k])
      then Fail(OrderUnknownId)
      else Pass
  }

  /**
   * The checks run in a fixed order: a null monster makes the request fail
   * with a server error even when the order names unknown ids, and the
   * unknown-id answer is only given once every monster is well formed.
   */
  lemma MonsterDataCheckOrder(body: Value)
    ensures !Field(body, "monsters").Arr? ==> ValidateMonsterData(body) == Fail(MonstersNotArray)
    ensures ValidateMonsterData(body) == Fail(OrderUnknownId) ==>
      forall k :: 0 <= k < |Field(body, "monsters").items| ==> !IsNullish(Field(body, "monsters").items[k])
    ensures ValidateMonsterData(body).Crash? <==>
      && Field(body, "monsters").Arr? && Field(body, "monsterOrder").Arr?
      && exists k :: 0 <= k < |Field(body, "monsters").items| && IsNullish(Field(body, "monsters").items[k])
           && forall j :: 0 <= j < k ==> ElementVerdict(Field(body, "monsters").items[j], MonsterShape).Pass?
  {
    var monsters := Field(body, "monsters");
    var order := Field(body, "monsterOrder");
    if monsters.Arr? && order.Arr? {
      var scanned := Scan(monsters.items, MonsterShape);
      if ValidateMonsterData(body).Crash? {
        assert scanned.Crash?;
        var k :| 0 <= k < |monsters.items| && scanned == ElementVerdict(monsters.items[k], MonsterShape)
                 && forall j :: 0 <= j < k ==> ElementVerdict(monsters.items[j], MonsterShape).Pass?;
        assert IsNullish(monsters.items[k]);
      }
      if exists k :: 0 <= k < |monsters.items| && IsNullish(monsters.items[k])
           && forall j :: 0 <= j < k ==> ElementVerdict(monsters.items[j], MonsterShape).Pass? {
        var k :| 0 <= k < |monsters.items| && IsNullish(monsters.items[k])
                 && forall j :: 0 <= j < k ==> ElementVerdict(monsters.items[j], MonsterShape).Pass?;
        assert !ElementVerdict(monsters.items[k], MonsterShape).Pass?;
        assert !scanned.Pass?;
        var i :| 0 <= i < |monsters.items| && scanned == ElementVerdict(monsters.items[i], MonsterShape)
                 && forall j :: 0 <= j < i ==> ElementVerdict(monsters.items[j], MonsterShape).Pass?;
        assert i == k;
      }
      if ValidateMonsterData(body) == Fail(OrderUnknownId) {
        assert scanned.Pass?;
      }
    }
  }

  // ---- validateBattlefieldData ----

  /** The fields one piece of the request must carry. */
  function PieceShape(p: Value): (v: Verdict)
    ensures v.Pass? || v == Fail(PieceMissingField)
  {
    if Truthy(Field(p, "id")) && Truthy(Field(p, "name")) && Field(p, "x").Num? && Field(p, "y").Num?
       && Field(p, "currentHp").Num? && Field(p, "maxHp").Num?
    then Pass else Fail(PieceMissingField)
  }

  /** `validateBattlefieldData`: an object (arrays included), whose truthy `pieces` is an array of pieces. */
  function ValidateBattlefieldData(body: Value): (v: Verdict)
    ensures v.Pass? <==>
      && Truthy(Field(body, "battlefield")) && IsObjectType(Field(body, "battlefield"))
      && (Truthy(Field(Field(body, "battlefield"), "pieces")) ==>
            && Field(Field(body, "battlefield"), "pieces").Arr?
            && forall k :: 0 <= k < |Field(Field(body, "battlefield"), "pieces").items| ==>
                 var p := Field(Field(body, "battlefield"), "pieces").items[k]; !IsNullish(p) && PieceShape(p).Pass?)
  {
    var battlefield := Field(body, "battlefield");
    if !Truthy(battlefield) || !IsObjectType(battlefield) then Fail(BattlefieldNotObject)
    else
      var pieces := Field(battlefield, "pieces");
      if Truthy(pieces) && !pieces.Arr? then Fail(PiecesNotArray)
      else if Truthy(pieces) then Scan(pieces.items, PieceShape)
      else Pass
  }

  /** A falsy `pieces` (absent, null, 0, empty string) is not checked at all. */
  lemma FalsyPiecesSkipCheck(body: Value)
    requires Truthy(Field(body, "battlefield")) && IsObjectType(Field(body, "battlefield"))
    requires !Truthy(Field(Field(body, "battlefield"), "pieces"))
    ensures ValidateBattlefieldData(body).Pass?
  {
  }

  // ---- Handlers ----

  /** `GET /sessions/:sessionId`. */
  function GetSession(store: Store, id: string): (r: Reply<Session>)
    ensures r.status == 200 <==> ValidateSessionId(id).Pass? && id in store
    ensures r.status == 200 ==> r.body == Data(store[id])
    ensures ValidateSessionId(id).Pass? && id !in store ==> r == Reply(404, NotFound)
  {
    if !ValidateSessionId(id).Pass? then Refusal(ValidateSessionId(id))
    else if id !in store then Reply(404, NotFound)
    else Reply(200, Data(store[id]))
  }

  /**
   * `POST /sessions/:sessionId`: guard, body check, cast, schema validation,
   * then the upsert, which creates the record with its defaults when absent.
   */
  function PostSession(store: Store, id: string, body: Value, now: int): (o: Outcome<Session>)
    ensures o.reply.status == 200 <==> o.notice.Some?
    ensures o.reply.status != 200 ==> o.store == store
    ensures o.reply.status == 200 ==>
      && o.store.Keys == store.Keys + {id}
      && (forall k :: k in store && k != id ==> o.store[k] == store[k])
      && o.reply.body == Data(o.store[id])
      && o.notice == Some(Notice(id, "session-updated", MonstersPayload(o.store[id].monsters, o.store[id].monsterOrder)))
    ensures (ValidateSessionId(id).Pass? && ValidateMonsterData(body).Pass?
             && Field(body, "monsters").Arr? && Field(body, "monsterOrder").Arr?
             && Casting.DecodeMonsters(Field(body, "monsters").items).Some?
             && Casting.DecodeStrings(Field(body, "monsterOrder").items).Some?
             && ValidMonsters(Casting.DecodeMonsters(Field(body, "monsters").items).value)
             && ValidOrder(Casting.DecodeStrings(Field(body, "monsterOrder").items).value)) ==>
      o.reply.status == 200
  {
    if !ValidateSessionId(id).Pass? then Outcome(store, Refusal(ValidateSessionId(id)), None)
    else
      var verdict := ValidateMonsterData(body);
      if !verdict.Pass? then Outcome(store, Refusal(verdict), None)
      else
        var monsters := Casting.DecodeMonsters(Field(body, "monsters").items);
        var order := Casting.DecodeStrings(Field(body, "monsterOrder").items);
        if monsters.None? || order.None? then Outcome(store, Reply(500, ServerError), None)
        else if !ValidMonsters(monsters.value) || !ValidOrder(order.value) then Outcome(store, Reply(400, SchemaViolation), None)
        else
          var base := if id in store then store[id] else NewSession(id, now);
          var saved := base.(monsters := monsters.value, monsterOrder := order.value, lastUpdated := now);
          Outcome(store[id := saved], Reply(200, Data(saved)),
                  Some(Notice(id, "session-updated", MonstersPayload(saved.monsters, saved.monsterOrder))))
  }

  /**
   * An accepted upsert stores exactly the request's monsters and order,
   * stamps the record, and keeps the battlefield and roll history of an
   * existing record (a new one gets the defaults).
   */
  lemma PostSessionStoresRequest(store: Store, id: string, body: Value, now: int)
    requires PostSession(store, id, body, now).reply.status == 200
    ensures var s := PostSession(store, id, body, now).store[id];
      && Casting.DecodeMonsters(Field(body, "monsters").items) == Some(s.monsters)
      && Casting.DecodeStrings(Field(body, "monsterOrder").items) == Some(s.monsterOrder)
      && s.lastUpdated == now && s.sessionId == (if id in store then store[id].sessionId else id)
      && (id in store ==> s.battlefield == store[id].battlefield && s.diceHistory == store[id].diceHistory)
      && (id !in store ==> s.battlefield == DEFAULT_BATTLEFIELD && s.diceHistory == [])
  {
  }

  /**
   * Every id in a stored order names a stored monster: the body check lets
   * an order through only when each entry strictly equals some monster's id.
   */
  lemma PostSessionOrderIntegrity(store: Store, id: string, body: Value, now: int)
    requires PostSession(store, id, body, now).reply.status == 200
    ensures OrderReferencesMonsters(PostSession(store, id, body, now).store[id])
  {
    var s := PostSession(store, id, body, now).store[id];
    var ms := Field(body, "monsters").items;
    var os := Field(body, "monsterOrder").items;
    forall k | 0 <= k < |s.monsterOrder|
      ensures exists j :: 0 <= j < |s.monsters| && s.monsters[j].id == s.monsterOrder[k]
    {
      assert os[k] == Str(s.monsterOrder[k]);
      assert KnownMonsterId(ms, os[k]);
      var j :| 0 <= j < |ms| && StrictEquals(Field(ms[j], "id"), os[k]);
      assert Field(ms[j], "id") == Str(s.monsters[j].id);
    }
  }

  /** The upsert keeps every stored record valid and filed under its own id. */
  lemma PostSessionKeepsStoreValid(store: Store, id: string, body: Value, now: int)
    requires StoreValid(store)
    ensures StoreValid(PostSession(store, id, body, now).store)
  {
    if ValidateSessionId(id).Pass? && ValidateMonsterData(body).Pass? {
      var monsters := Casting.DecodeMonsters(Field(body, "monsters").items);
      var order := Casting.DecodeStrings(Field(body, "monsterOrder").items);
      if monsters.Some? && order.Some? && ValidMonsters(monsters.value) && ValidOrder(order.value) {
        SessionIdGuardMatchesSchema(id);
        NewSessionValid(id, now);
        var base := if id in store then store[id] else NewSession(id, now);
        var saved := base.(monsters := monsters.value, monsterOrder := order.value, lastUpdated := now);
        ReplaceKeepsStoreValid(store, id, saved);
      }
    }
  }

  const GOBLIN: Value := Obj(map["id" := Str("g1"), "name" := Str("Goblin"), "currentHp" := Num(7.0),
                                 "maxHp" := Num(7.0), "initiative" := Num(12.0)])
  const ORC: Value := Obj(map["id" := Str("o1"), "name" := Str("Orc"), "currentHp" := Num(15.0),
                              "maxHp" := Num(15.0), "initiative" := Num(8.0)])
  /** Two monsters, with an order that names the goblin twice and leaves out the orc. */
  const REPEATING_ORDER: Value := Obj(map["monsters" := Arr([GOBLIN, ORC]), "monsterOrder" := Arr([Str("g1"), Str("g1")])])

  lemma RepeatingOrderPassesCheck()
    ensures ValidateMonsterData(REPEATING_ORDER).Pass?
  {
    assert Field(REPEATING_ORDER, "monsters") == Arr([GOBLIN, ORC]);
    assert Field(REPEATING_ORDER, "monsterOrder") == Arr([Str("g1"), Str("g1")]);
    assert StrictEquals(Field([GOBLIN, ORC][0], "id"), Str("g1"));
    assert KnownMonsterId([GOBLIN, ORC], Str("g1"));
    assert MonsterShape(GOBLIN).Pass? && MonsterShape(ORC).Pass?;
  }

  /** The two sample monsters decode field for field, with no temp HP, conditions or adventurer flag. */
  lemma RepeatingMonstersDecode()
    ensures Casting.DecodeMonsters([GOBLIN, ORC]) == Some([Monster("g1", "Goblin", 7.0, 7.0, 0.0, [], 12.0, false),
                                                          Monster("o1", "Orc", 15.0, 15.0, 0.0, [], 8.0, false)])
  {
    var goblin := Monster("g1", "Goblin", 7.0, 7.0, 0.0, [], 12.0, false);
    var orc := Monster("o1", "Orc", 15.0, 15.0, 0.0, [], 8.0, false);
    assert Casting.DecodeMonster(GOBLIN) == Some(goblin);
    assert Casting.DecodeMonster(ORC) == Some(orc);
    var ms := [GOBLIN, ORC];
    var tail := [ORC];
    assert ms[1..] == tail && tail[1..] == [];
    assert Casting.DecodeMonsters(tail[1..]) == Some([]);
    assert [orc] + [] == [orc];
    assert Casting.DecodeMonsters(tail) == Some([orc]);
    assert [goblin] + [orc] == [goblin, orc];
  }

  /** The repeated order decodes as sent. */
  lemma RepeatingOrderDecodes()
    ensures Casting.DecodeStrings([Str("g1"), Str("g1")]) == Some(["g1", "g1"])
  {
    var os := [Str("g1"), Str("g1")];
    var rest := [Str("g1")];
    assert os[1..] == rest && rest[1..] == [];
    assert Casting.DecodeStrings(rest[1..]) == Some([]);
    assert ["g1"] + [] == ["g1"];
    assert Casting.DecodeStrings(rest) == Some(["g1"]);
    assert ["g1"] + ["g1"] == ["g1", "g1"];
  }

  /**
   * The body check does not ask the order to list every monster, nor to
   * list each once: an order naming one monster twice and leaving out the
   * other is stored as sent.
   */
  lemma OrderMayRepeatAndOmit(store: Store, now: int)
    ensures var o := PostSession(store, "table-1", REPEATING_ORDER, now);
      o.reply.status == 200 && o.store["table-1"].monsterOrder == ["g1", "g1"]
      && |o.store["table-1"].monsters| == 2
  {
    RepeatingOrderPassesCheck();
    RepeatingMonstersDecode();
    RepeatingOrderDecodes();
    assert Field(REPEATING_ORDER, "monsters") == Arr([GOBLIN, ORC]);
    assert Field(REPEATING_ORDER, "monsterOrder") == Arr([Str("g1"), Str("g1")]);
    SessionIdGuardMatchesSchema("table-1");
    var ms := [Monster("g1", "Goblin", 7.0, 7.0, 0.0, [], 12.0, false), Monster("o1", "Orc", 15.0, 15.0, 0.0, [], 8.0, false)];
    assert ValidMonster(ms[0]) && ValidMonster(ms[1]);
    assert ValidMonsters(ms);
    assert ValidOrder(["g1", "g1"]);
  }

  /**
   * `POST /sessions/:sessionId/battlefield`: guard, body check, cast and
   * schema validation, and only then the lookup, which does not create.
   */
  function PostBattlefield(store: Store, id: string, body: Value, now: int): (o: Outcome<Session>)
    ensures o.reply.status == 200 <==> o.notice.Some?
    ensures o.reply.status != 200 ==> o.store == store
    ensures o.reply.status == 200 ==>
      && id in store && id in o.store && o.store == store[id := o.store[id]]
      && o.store[id] == store[id].(battlefield := o.store[id].battlefield, lastUpdated := now)
      && Casting.DecodeBattlefield(Field(body, "battlefield")) == Some(o.store[id].battlefield)
      && o.reply.body == Data(o.store[id])
      && o.notice == Some(Notice(id, "battlefield-updated", BattlefieldPayload(o.store[id].battlefield)))
    ensures ValidateSessionId(id).Pass? && ValidateBattlefieldData(body).Pass? && id !in store ==>
      o.reply.status != 200
    ensures (ValidateSessionId(id).Pass? && ValidateBattlefieldData(body).Pass?
             && Casting.DecodeBattlefield(Field(body, "battlefield")).Some?
             && ValidBattlefield(Casting.DecodeBattlefield(Field(body, "battlefield")).value)) ==>
      && (o.reply.status == 200 <==> id in store)
      && (id !in store ==> o.reply == Reply(404, NotFound))
  {
    if !ValidateSessionId(id).Pass? then Outcome(store, Refusal(ValidateSessionId(id)), None)
    else
      var verdict := ValidateBattlefieldData(body);
      if !verdict.Pass? then Outcome(store, Refusal(verdict), None)
      else
        var battlefield := Casting.DecodeBattlefield(Field(body, "battlefield"));
        if battlefield.None? then Outcome(store, Reply(500, ServerError), None)
        else if !ValidBattlefield(battlefield.value) then Outcome(store, Reply(400, SchemaViolation), None)
        else if id !in store then Outcome(store, Reply(404, NotFound), None)
        else
          var saved := store[id].(battlefield := battlefield.value, lastUpdated := now);
          Outcome(store[id := saved], Reply(200, Data(saved)),
                  Some(Notice(id, "battlefield-updated", BattlefieldPayload(saved.battlefield))))
  }

  /** Replacing a battlefield keeps every stored record valid. */
  lemma PostBattlefieldKeepsStoreValid(store: Store, id: string, body: Value, now: int)
    requires StoreValid(store)
    ensures StoreValid(PostBattlefield(store, id, body, now).store)
  {
  }

  /** An invalid battlefield is refused with 400 before the lookup, even for an unknown id. */
  lemma ValidationPrecedesLookup(store: Store, id: string, body: Value, now: int)
    requires ValidateSessionId(id).Pass? && ValidateBattlefieldData(body).Pass?
    requires Casting.DecodeBattlefield(Field(body, "battlefield")).Some?
    requires !ValidBattlefield(Casting.DecodeBattlefield(Field(body, "battlefield")).value)
    ensures PostBattlefield(store, id, body, now).reply == Reply(400, SchemaViolation)
  {
  }

  /** `DELETE /sessions/:sessionId`. */
  function DeleteSession(store: Store, id: string): (o: Outcome<()>)
    ensures o.reply.status == 200 <==> ValidateSessionId(id).Pass? && id in store
    ensures o.reply.status == 200 ==>
      o.store == store - {id} && o.notice == Some(Notice(id, "session-deleted", NoPayload))
    ensures o.reply.status != 200 ==> o.store == store && o.notice.None?
  {
    if !ValidateSessionId(id).Pass? then Outcome(store, Refusal(ValidateSessionId(id)), None)
    else if id !in store then Outcome(store, Reply(404, NotFound), None)
    else Outcome(store - {id}, Reply(200, Done), Some(Notice(id, "session-deleted", NoPayload)))
  }

  /** Deleting twice: the second request finds nothing. */
  lemma DeleteTwice(store: Store, id: string)
    requires ValidateSessionId(id).Pass?
    ensures var once := DeleteSession(store, id).store;
      DeleteSession(once, id).reply == Reply(404, NotFound) && DeleteSession(once, id).store == once
  {
  }
}

=== FILE: casting.dfy ===
/**
 * How a JSON payload becomes the typed record the session schema stores.
 * The model's casting is strict: a field decodes only when it already has
 * the schema's type (a string for ids and names, a number, a boolean, an
 * array of strings), a missing optional field takes the schema default, and
 * anything else is a cast failure that the store reports as an error.
 * Extra fields are dropped, as the schema's strict mode does.
 */
module Casting {
  import opened Wrappers
  import opened JsValue
  import opened SessionModel

  function DecodeString(v: Value): (r: Option<string>)
    ensures r.Some? <==> v.Str?
    ensures r.Some? ==> v == Str(r.value)
  {
    if v.Str? then Some(v.s) else None
  }

  function DecodeNumber(v: Value): (r: Option<real>)
    ensures r.Some? <==> v.Num?
    ensures r.Some? ==> v == Num(r.value)
  {
    if v.Num? then Some(v.n) else None
  }

  /** A number field with a schema default. */
  function DecodeNumberOr(v: Value, default: real): Option<real> {
    if v.Undefined? then Some(default) else DecodeNumber(v)
  }

  /** A boolean field with a schema default. */
  function DecodeBoolOr(v: Value, default: bool): Option<bool> {
    if v.Undefined? then Some(default) else if v.Bool? then Some(v.b) else None
  }

  /** An array of strings, element by element. */
  function DecodeStrings(vs: seq<Value>): (r: Option<seq<string>>)
    ensures r.Some? ==> |r.value| == |vs| && forall k :: 0 <= k < |vs| ==> vs[k] == Str(r.value[k])
    ensures r.None? ==> exists k :: 0 <= k < |vs| && !vs[k].Str?
  {
    if vs == [] then Some([])
    else if !vs[0].Str? then None
    else match DecodeStrings(vs[1..])
      case None => None
      case Some(rest) => Some([vs[0].s] + rest)
  }

  /** An optional array of strings (`conditions`, default empty). */
  function DecodeStringsOr(v: Value): Option<seq<string>> {
    if v.Undefined? then Some([]) else if v.Arr? then DecodeStrings(v.items) else None
  }

  function DecodeMonster(v: Value): (r: Option<Monster>)
    ensures r.Some? ==> Field(v, "id") == Str(r.value.id)
    ensures r.Some? ==>
      && v.Obj? && Field(v, "name") == Str(r.value.name)
      && Field(v, "currentHp") == Num(r.value.currentHp) && Field(v, "maxHp") == Num(r.value.maxHp)
      && Field(v, "initiative") == Num(r.value.initiative)
    ensures r.Some? && Field(v, "tempHp").Undefined? ==> r.value.tempHp == 0.0
    ensures r.Some? && Field(v, "conditions").Undefined? ==> r.value.conditions == []
    ensures r.Some? && Field(v, "isAdventurer").Undefined? ==> !r.value.isAdventurer
    ensures Field(v, "tempHp").Null? || Field(v, "isAdventurer").Null? ==> r.None?
  {
    if !v.Obj? then None
    else
      var id := DecodeString(Field(v, "id"));
      var name := DecodeString(Field(v, "name"));
      var currentHp := DecodeNumber(Field(v, "currentHp"));
      var maxHp := DecodeNumber(Field(v, "maxHp"));
      var tempHp := DecodeNumberOr(Field(v, "tempHp"), 0.0);
      var conditions := DecodeStringsOr(Field(v, "conditions"));
      var initiative := DecodeNumber(Field(v, "initiative"));
      var isAdventurer := DecodeBoolOr(Field(v, "isAdventurer"), false);
      if id.Some? && name.Some? && currentHp.Some? && maxHp.Some? && tempHp.Some?
         && conditions.Some? && initiative.Some? && isAdventurer.Some?
      then Some(Monster(id.value, name.value, currentHp.value, maxHp.value, tempHp.value,
                        conditions.value, initiative.value, isAdventurer.value))
      else None
  }

  function DecodeMonsters(vs: seq<Value>): (r: Option<seq<Monster>>)
    ensures r.Some? ==> |r.value| == |vs| && forall k :: 0 <= k < |vs| ==> Field(vs[k], "id") == Str(r.value[k].id)
  {
    if vs == [] then Some([])
    else match (DecodeMonster(vs[0]), DecodeMonsters(vs[1..]))
      case (Some(m), Some(rest)) => Some([m] + rest)
      case _ => None
  }

  function DecodePiece(v: Value): (r: Option<Piece>)
    ensures r.Some? ==> Field(v, "id") == Str(r.value.id)
    ensures r.Some? ==>
      && v.Obj? && Field(v, "name") == Str(r.value.name)
      && Field(v, "x") == Num(r.value.x) && Field(v, "y") == Num(r.value.y)
      && Field(v, "currentHp") == Num(r.value.currentHp) && Field(v, "maxHp") == Num(r.value.maxHp)
  {
    if !v.Obj? then None
    else
      var id := DecodeString(Field(v, "id"));
      var name := DecodeString(Field(v, "name"));
      var x := DecodeNumber(Field(v, "x"));
      var y := DecodeNumber(Field(v, "y"));
      var currentHp := DecodeNumber(Field(v, "currentHp"));
      var maxHp := DecodeNumber(Field(v, "maxHp"));
      if id.Some? && name.Some? && x.Some? && y.Some? && currentHp.Some? && maxHp.Some?
      then Some(Piece(id.value, name.value, x.value, y.value, currentHp.value, maxHp.value))
      else None
  }

  function DecodePieces(vs: seq<Value>): (r: Option<seq<Piece>>)
    ensures r.Some? ==> |r.value| == |vs|
  {
    if vs == [] then Some([])
    else match (DecodePiece(vs[0]), DecodePieces(vs[1..]))
      case (Some(p), Some(rest)) => Some([p] + rest)
      case _ => None
  }

  /** `battlefield.settings`; a missing object or field takes the schema default. */
  function DecodeSettings(v: Value): (r: Option<Settings>)
    ensures v.Undefined? ==> r == Some(DEFAULT_SETTINGS)
    ensures !v.Undefined? && !v.Obj? ==> r.None?
    ensures r.Some? && v.Obj? ==>
      && (if Field(v, "gridSize").Undefined? then r.value.gridSize == 50.0 else Field(v, "gridSize") == Num(r.value.gridSize))
      && (if Field(v, "showGrid").Undefined? then r.value.showGrid else Field(v, "showGrid") == Bool(r.value.showGrid))
  {
    if v.Undefined? then Some(DEFAULT_SETTINGS)
    else if !v.Obj? then None
    else
      var gridSize := DecodeNumberOr(Field(v, "gridSize"), 50.0);
      var showGrid := DecodeBoolOr(Field(v, "showGrid"), true);
      if gridSize.Some? && showGrid.Some? then Some(Settings(gridSize.value, showGrid.value)) else None
  }

  /** A whole battlefield object; a missing or null `background` is no background. */
  function DecodeBattlefield(v: Value): (r: Option<Battlefield>)
    ensures r.Some? ==> v.Obj? && DecodeSettings(Field(v, "settings")) == Some(r.value.settings)
    ensures r.Some? ==> (r.value.background.None? <==> IsNullish(Field(v, "background")))
    ensures r.Some? && r.value.background.Some? ==> Field(v, "background") == Str(r.value.background.value)
    ensures r.Some? && IsNullish(Field(v, "pieces")) ==> r.value.pieces == []
    ensures r.Some? && !IsNullish(Field(v, "pieces")) ==>
      Field(v, "pieces").Arr? && DecodePieces(Field(v, "pieces").items) == Some(r.value.pieces)
  {
    if !v.Obj? then None
    else
      var bg := Field(v, "background");
      var background: Option<Option<string>> :=
        if IsNullish(bg) then Some(None) else if bg.Str? then Some(Some(bg.s)) else None;
      var pv := Field(v, "pieces");
      var pieces := if IsNullish(pv) then Some([]) else if pv.Arr? then DecodePieces(pv.items) else None;
      var settings := DecodeSettings(Field(v, "settings"));
      if background.Some? && pieces.Some? && settings.Some?
      then Some(Battlefield(background.value, pieces.value, settings.value))
      else None
  }
}

=== FILE: client_battlefield.dfy ===
/**
 * The browser-side battlefield (public/js/battlefield.js): snapping a
 * cursor position to the grid, the zoom buttons and grid toggle that
 * change the global battlefield's settings, and the piece operations that
 * change its piece list in place.
 */
module ClientBattlefield {
  import opened Wrappers
  import Seqs
  import opened ClientMain

  /** The zoom limits of the grid size, in pixels. */
  const MIN_GRID: int := 20
  const MAX_GRID: int := 100
  const ZOOM_STEP: int := 5

  /** `Math.floor(x / gridSize) * gridSize`: the grid line at or left of `x`. */
  function Snap(x: real, gridSize: int): int
    requires gridSize > 0
  {
    (x / gridSize as real).Floor * gridSize
  }

  /**
   * The snapped coordinate is a multiple of the grid size and the grid
   * line at or before the position: `snap <= x < snap + gridSize`.
   */
  lemma SnapSpec(x: real, gridSize: int)
    requires gridSize > 0
    ensures Snap(x, gridSize) % gridSize == 0
    ensures Snap(x, gridSize) as real <= x < (Snap(x, gridSize) + gridSize) as real
  {
    var f := (x / gridSize as real).Floor;
    FloorScaled(x, gridSize as real);
    CastProduct(f, gridSize);
    MultipleMod(f, gridSize);
  }

  /** The floor of `x / g`, scaled back by `g`, is at most `x` and more than `x - g`. */
  lemma FloorScaled(x: real, g: real)
    requires g > 0.0
    ensures (x / g).Floor as real * g <= x < (x / g).Floor as real * g + g
  {
    var q := x / g;
    var f := q.Floor as real;
    assert f <= q < f + 1.0;
    assert q * g == x;
    MultiplyBelow(f, q, g);
    MultiplyStrict(q, f + 1.0, g);
    assert (f + 1.0) * g == f * g + g;
    assert x < f * g + g;
  }

  /** Scaling by a positive factor keeps strict order. */
  lemma MultiplyStrict(a: real, b: real, g: real)
    requires g > 0.0 && a < b
    ensures a * g < b * g
  {
    assert b * g - a * g == (b - a) * g;
  }

  /** Converting an integer product to a real multiplies the converted factors. */
  lemma CastProduct(a: int, b: int)
    ensures (a * b) as real == a as real * b as real
    ensures (a * b + b) as real == a as real * b as real + b as real
  {
  }

  /** An integer multiple of `g` leaves no remainder. */
  lemma MultipleMod(f: int, g: int)
    requires g > 0
    ensures (f * g) % g == 0
  {
    var q := (f * g) / g;
    assert (f - q) * g == (f * g) % g;
    ScaledBand(f - q, g);
  }

  /** The only multiple of a positive `g` in `[0, g)` is zero. */
  lemma ScaledBand(d: int, g: int)
    requires g > 0 && 0 <= d * g < g
    ensures d == 0
  {
    if d > 0 {
      MulMono(1, d, g);
    } else if d < 0 {
      MulMono(d, -1, g);
    }
  }

  /** Scaling integers by a positive factor keeps order. */
  lemma MulMono(a: int, b: int, g: int)
    requires g > 0 && a <= b
    ensures a * g <= b * g
  {
    assert b * g - a * g == (b - a) * g;
  }

  /** Scaling by a positive factor keeps order. */
  lemma MultiplyBelow(a: real, b: real, g: real)
    requires g > 0.0
    ensures a <= b ==> a * g <= b * g
    ensures a < b ==> a * g < b * g
  {
  }

  /** Snapping a position already on a grid line leaves it there. */
  lemma SnapIdempotent(x: real, gridSize: int)
    requires gridSize > 0
    ensures Snap(Snap(x, gridSize) as real, gridSize) == Snap(x, gridSize)
  {
    var f := (x / gridSize as real).Floor;
    var s := f * gridSize;
    assert s as real / gridSize as real == f as real;
  }

  /** Which zoom control a click landed on, if any. */
  datatype ZoomClick = NoButton | ZoomIn | ZoomOut

  /** `Math.max(20, Math.min(100, gridSize + delta))`. */
  function Zoomed(gridSize: int, delta: int): (g: int)
    ensures MIN_GRID <= g <= MAX_GRID
    ensures MIN_GRID <= gridSize + delta <= MAX_GRID ==> g == gridSize + delta
    ensures gridSize + delta < MIN_GRID ==> g == MIN_GRID
    ensures gridSize + delta > MAX_GRID ==> g == MAX_GRID
  {
    var capped := if gridSize + delta < MAX_GRID then gridSize + delta else MAX_GRID;
    if capped > MIN_GRID then capped else MIN_GRID
  }

  /**
   * `handleZoom`: a click on a zoom button moves the grid size five pixels
   * up (zoom-in) or down (any other button) within [20, 100]; a click that
   * is not on a button changes nothing.
   */
  method HandleZoom(st: ClientState, click: ZoomClick)
    modifies st
    ensures click.NoButton? ==> st.battlefield == old(st.battlefield)
    ensures !click.NoButton? ==>
      st.battlefield == old(st.battlefield).(settings := old(st.battlefield.settings).(
        gridSize := Zoomed(old(st.battlefield.settings.gridSize), if click.ZoomIn? then ZOOM_STEP else -ZOOM_STEP)))
    ensures st.monsters == old(st.monsters) && st.monsterOrder == old(st.monsterOrder)
  {
    if click.NoButton? {
      return;
    }
    var delta := if click.ZoomIn? then ZOOM_STEP else -ZOOM_STEP;
    var settings := st.battlefield.settings;
    st.battlefield := st.battlefield.(settings := settings.(gridSize := Zoomed(settings.gridSize, delta)));
  }

  /** `toggleGrid`: flip `showGrid`, so a second toggle restores it. */
  method ToggleGrid(st: ClientState)
    modifies st
    ensures st.battlefield.settings.showGrid == !old(st.battlefield.settings.showGrid)
    ensures st.battlefield == old(st.battlefield).(settings := old(st.battlefield.settings).(showGrid := st.battlefield.settings.showGrid))
    ensures st.monsters == old(st.monsters) && st.monsterOrder == old(st.monsterOrder)
  {
    var settings := st.battlefield.settings;
    st.battlefield := st.battlefield.(settings := settings.(showGrid := !settings.showGrid));
  }

  /** `battlefield.pieces.find(p => p.id === pieceId)`, as the index of the first match. */
  function FindPiece(ps: seq<Piece>, id: string): (r: Option<nat>)
    ensures r.None? <==> forall k :: 0 <= k < |ps| ==> ps[k].id != id
    ensures r.Some? ==> r.value < |ps| && ps[r.value].id == id && forall k :: 0 <= k < r.value ==> ps[k].id != id
  {
    Seqs.FindFirst(ps, (p: Piece) => p.id == id)
  }

  /** `updatePiecePosition`: move the first piece with the id; an unknown id changes nothing. */
  method UpdatePiecePosition(st: ClientState, pieceId: string, x: int, y: int)
    modifies st
    ensures FindPiece(old(st.battlefield.pieces), pieceId).None? ==> st.battlefield == old(st.battlefield)
    ensures FindPiece(old(st.battlefield.pieces), pieceId).Some? ==>
      var i := FindPiece(old(st.battlefield.pieces), pieceId).value;
      st.battlefield == old(st.battlefield).(pieces := old(st.battlefield.pieces)[i := old(st.battlefield.pieces[i]).(x := x, y := y)])
    ensures st.monsters == old(st.monsters) && st.monsterOrder == old(st.monsterOrder)
  {
    var pieces := st.battlefield.pieces;
    var found := FindPiece(pieces, pieceId);
    if found.Some? {
      var i := found.value;
      st.battlefield := st.battlefield.(pieces := pieces[i := pieces[i].(x := x, y := y)]);
    }
  }

  /**
   * A move keeps every id in place, so after `UpdatePiecePosition` every
   * piece, moved or not, is found at the index it was found before.
   */
  lemma MoveKeepsFinds(ps: seq<Piece>, i: nat, x: int, y: int, id: string)
    requires i < |ps|
    ensures FindPiece(ps[i := ps[i].(x := x, y := y)], id) == FindPiece(ps, id)
  {
    var moved := ps[i := ps[i].(x := x, y := y)];
    assert forall k :: 0 <= k < |ps| ==> moved[k].id == ps[k].id;
  }

  /** `addPiece(name, x, y)` with the generated id given: append a piece without HP fields. */
  method AddPiece(st: ClientState, name: string, x: int, y: int, id: string)
    modifies st
    ensures st.battlefield == old(st.battlefield).(pieces := old(st.battlefield.pieces) + [Piece(id, name, x, y, None)])
    ensures st.monsters == old(st.monsters) && st.monsterOrder == old(st.monsterOrder)
  {
    st.battlefield := st.battlefield.(pieces := st.battlefield.pieces + [Piece(id, name, x, y, None)]);
  }

  /** `battlefield.pieces.filter(p => p.id !== pieceId)`. */
  function WithoutPiece(ps: seq<Piece>, id: string): (r: seq<Piece>)
    ensures forall p :: p in r <==> p in ps && p.id != id
  {
    Seqs.Filter(ps, (p: Piece) => p.id != id)
  }

  /**
   * Deleting keeps each other piece as often as it was there, drops every
   * piece with the id, and is the identity for an id no piece has.
   */
  lemma DeletePieceSpec(ps: seq<Piece>, id: string)
    ensures forall p: Piece :: p.id != id ==> multiset(WithoutPiece(ps, id))[p] == multiset(ps)[p]
    ensures forall p: Piece :: p.id == id ==> multiset(WithoutPiece(ps, id))[p] == 0
    ensures (forall k :: 0 <= k < |ps| ==> ps[k].id != id) ==> WithoutPiece(ps, id) == ps
  {
    forall p: Piece {
      Seqs.FilterCounts(ps, (p: Piece) => p.id != id, p);
    }
    if forall k :: 0 <= k < |ps| ==> ps[k].id != id {
      Seqs.FilterKeepsAll(ps, (p: Piece) => p.id != id);
    }
  }

  /** `deletePiece(pieceId)`: keep the other pieces in order. */
  method DeletePiece(st: ClientState, pieceId: string)
    modifies st
    ensures st.battlefield == old(st.battlefield).(pieces := WithoutPiece(old(st.battlefield.pieces), pieceId))
    ensures st.monsters == old(st.monsters) && st.monsterOrder == old(st.monsterOrder)
  {
    st.battlefield := st.battlefield.(pieces := WithoutPiece(st.battlefield.pieces, pieceId));
  }
}

=== FILE: client_dice.dfy ===
/**
 * The browser-side dice dialog (public/js/dice.js): the table of die types
 * it offers, and the per-type quantity input with its `+` and `-` buttons.
 * The input's text is the state; every read goes through `parseInt(..) || 1`.
 */
module ClientDice {
  import opened Wrappers
  import JsValue

  /** One entry of the die-type table; `tag` is the `label` shown on the card. */
  datatype DiceType = DiceType(value: nat, tag: string)

  /** The label shown for a die with `value` faces. */
  function LabelOf(value: nat): string {
    "d" + JsValue.NatToString(value)
  }

  /** The seven die types the dialog offers, smallest first. */
  const DICE_TYPES: seq<DiceType> := [
    DiceType(4, "d4"), DiceType(6, "d6"), DiceType(8, "d8"), DiceType(10, "d10"),
    DiceType(12, "d12"), DiceType(20, "d20"), DiceType(100, "d100")
  ]

  /** The table has seven entries, strictly increasing values, and each label is `'d'` followed by its value. */
  lemma DiceTypesTable()
    ensures |DICE_TYPES| == 7
    ensures forall k :: 0 <= k < |DICE_TYPES| ==> DICE_TYPES[k].tag == LabelOf(DICE_TYPES[k].value)
    ensures forall j, k :: 0 <= j < k < |DICE_TYPES| ==> DICE_TYPES[j].value < DICE_TYPES[k].value
    ensures [DICE_TYPES[0].value, DICE_TYPES[1].value, DICE_TYPES[2].value, DICE_TYPES[3].value,
             DICE_TYPES[4].value, DICE_TYPES[5].value, DICE_TYPES[6].value] == [4, 6, 8, 10, 12, 20, 100]
  {
    assert JsValue.NatToString(4) == "4";
    assert JsValue.NatToString(6) == "6";
    assert JsValue.NatToString(8) == "8";
    assert JsValue.NatToString(1) == "1";
    assert JsValue.NatToString(2) == "2";
    assert JsValue.NatToString(0) == "0";
    assert JsValue.NatToString(10) == "10";
    assert JsValue.NatToString(12) == "12";
    assert JsValue.NatToString(20) == "20";
    assert JsValue.NatToString(100) == "100";
  }

  /** `x || 1` for the number `parseInt` produced: NaN and zero fall back to 1. */
  function OrOne(parsed: Option<int>): (q: int)
    ensures q != 0
    ensures parsed == Some(q) || q == 1
    ensures parsed.Some? && parsed.value != 0 ==> q == parsed.value
  {
    match parsed
    case Some(n) => if n == 0 then 1 else n
    case None => 1
  }

  /** `getQuantity`: the quantity the input's text stands for. */
  function Quantity(text: string): (q: int)
    ensures q != 0
    ensures JsValue.ParseInt(text) == Some(q) || q == 1
  {
    OrOne(JsValue.ParseInt(text))
  }

  /** A nonzero number written into the input reads back as itself. */
  lemma QuantityOfWritten(n: int)
    requires n != 0
    ensures Quantity(JsValue.IntToString(n)) == n
  {
    JsValue.ParseIntOfIntToString(n);
  }

  /** What `incrementQuantity` does to the current quantity: add one below 100. */
  function Incremented(c: int): (r: int)
    ensures c < 100 ==> r == c + 1
    ensures c >= 100 ==> r == c
  {
    if c < 100 then c + 1 else c
  }

  /** What `decrementQuantity` does to the current quantity: take one away above 1. */
  function Decremented(c: int): (r: int)
    ensures c > 1 ==> r == c - 1
    ensures c <= 1 ==> r == c
  {
    if c > 1 then c - 1 else c
  }

  /** A press of the `+` or `-` button. */
  datatype Click = Plus | Minus

  /** The quantity read back after a run of button presses from `start`. */
  function AfterClicks(start: int, clicks: seq<Click>): int
    decreases |clicks|
  {
    if clicks == [] then start
    else
      var c := if clicks[0].Plus? then Incremented(start) else Decremented(start);
      AfterClicks(OrOne(Some(c)), clicks[1..])
  }

  /** Starting in [1, 100], the `min`/`max` of the input, no run of presses leaves that range. */
  lemma {:induction false} ClicksStayInRange(start: int, clicks: seq<Click>)
    requires 1 <= start <= 100
    ensures 1 <= AfterClicks(start, clicks) <= 100
    decreases |clicks|
  {
    if clicks != [] {
      var c := if clicks[0].Plus? then Incremented(start) else Decremented(start);
      ClicksStayInRange(OrOne(Some(c)), clicks[1..]);
    }
  }

  /** `+` then `-` from inside [1, 99] comes back to where it started. */
  lemma PlusThenMinus(start: int)
    requires 1 <= start < 100
    ensures AfterClicks(start, [Plus, Minus]) == start
  {
    assert [Plus, Minus][1..] == [Minus];
    assert [Minus][1..] == [];
  }

  /** One quantity input of the dialog; its text starts as `"1"`. */
  class QuantityInput {
    var text: string

    /** The quantity lies within the input's `min`/`max` bounds. */
    predicate InRange()
      reads this
    {
      1 <= Quantity(text) <= 100
    }

    constructor ()
      ensures text == "1"
      ensures InRange()
    {
      text := "1";
      assert JsValue.IntToString(1) == "1";
      QuantityOfWritten(1);
    }

    /** `incrementQuantity`: write back the current quantity plus one when it is below 100. */
    method Increment()
      modifies this
      ensures var c := Quantity(old(text));
        text == if c < 100 then JsValue.IntToString(c + 1) else old(text)
      ensures Quantity(text) == OrOne(Some(Incremented(Quantity(old(text)))))
      ensures old(InRange()) ==> InRange()
    {
      var current := Quantity(text);
      if current < 100 {
        text := JsValue.IntToString(current + 1);
        JsValue.ParseIntOfIntToString(current + 1);
      }
    }

    /** `decrementQuantity`: write back the current quantity minus one when it is above 1. */
    method Decrement()
      modifies this
      ensures var c := Quantity(old(text));
        text == if c > 1 then JsValue.IntToString(c - 1) else old(text)
      ensures Quantity(text) == OrOne(Some(Decremented(Quantity(old(text)))))
      ensures old(InRange()) ==> InRange()
    {
      var current := Quantity(text);
      if current > 1 {
        text := JsValue.IntToString(current - 1);
        QuantityOfWritten(current - 1);
      }
    }
  }
}

=== FILE: client_main.dfy ===
/**
 * The browser-side combat tracker (public/js/main.js): the global monster
 * list, the initiative order of monster ids and the battlefield, changed in
 * place by the tracker's buttons; the order projection the tracker renders;
 * and the client-side dice roll.
 */
module ClientMain {
  import opened Wrappers
  import JsValue
  import Seqs

  datatype Monster = Monster(
    id: string,
    name: string,
    currentHp: int,
    maxHp: int,
    tempHp: int,
    conditions: seq<string>,
    initiative: int,
    isAdventurer: bool)

  /** A battlefield piece; the ones placed in the browser carry no HP fields. */
  datatype Piece = Piece(id: string, name: string, x: int, y: int, hp: Option<(int, int)>)

  datatype Settings = Settings(gridSize: int, showGrid: bool)

  datatype Battlefield = Battlefield(background: string, pieces: seq<Piece>, settings: Settings)

  /** The battlefield the page starts with and `resetSession` restores. */
  const INITIAL_BATTLEFIELD: Battlefield := Battlefield("", [], Settings(50, true))

  /** `monsters.find(m => m.id === id)`, as the index of the first match. */
  function FindMonster(ms: seq<Monster>, id: string): (r: Option<nat>)
    ensures r.None? <==> forall k :: 0 <= k < |ms| ==> ms[k].id != id
    ensures r.Some? ==> r.value < |ms| && ms[r.value].id == id && forall k :: 0 <= k < r.value ==> ms[k].id != id
  {
    Seqs.FindFirst(ms, (m: Monster) => m.id == id)
  }

  /** The monster `find` returns, if any. */
  function Lookup(ms: seq<Monster>, id: string): (r: Option<Monster>)
    ensures r.Some? ==> r.value in ms && r.value.id == id
    ensures r.None? <==> forall k :: 0 <= k < |ms| ==> ms[k].id != id
  {
    match FindMonster(ms, id)
    case None => None
    case Some(k) => Some(ms[k])
  }

  /** Some monster carries the id. */
  predicate HasMonster(ms: seq<Monster>, id: string) {
    exists j :: 0 <= j < |ms| && ms[j].id == id
  }

  /** Every id in the order names one of the monsters. */
  predicate Listed(ms: seq<Monster>, order: seq<string>) {
    forall k :: 0 <= k < |order| ==> HasMonster(ms, order[k])
  }

  /**
   * What `renderMonsters` shows: the monsters in `monsterOrder` order, each
   * order id showing the first monster with that id, ids without a monster
   * skipped.
   */
  function RenderOrder(ms: seq<Monster>, order: seq<string>): (r: seq<Monster>)
    ensures |r| <= |order|
    ensures forall m :: m in r ==> m in ms && m.id in order
  {
    if order == [] then []
    else
      var rest := RenderOrder(ms, order[1..]);
      match Lookup(ms, order[0])
      case None => rest
      case Some(m) => [m] + rest
  }

  /** When every order id names a monster, every order slot is shown. */
  lemma {:induction false} RenderOrderComplete(ms: seq<Monster>, order: seq<string>)
    requires Listed(ms, order)
    ensures |RenderOrder(ms, order)| == |order|
    ensures forall k :: 0 <= k < |order| ==> RenderOrder(ms, order)[k].id == order[k]
  {
    if order != [] {
      var j :| 0 <= j < |ms| && ms[j].id == order[0];
      assert Lookup(ms, order[0]).Some?;
      RenderOrderComplete(ms, order[1..]);
    }
  }

  // ---- Conditions ----

  /** `conditions.indexOf(c)` for a condition that is present. */
  function IndexOf(cs: seq<string>, c: string): (i: nat)
    requires c in cs
    ensures i < |cs| && cs[i] == c && c !in cs[..i]
  {
    if cs[0] == c then 0 else IndexOf(cs[1..], c) + 1
  }

  /** `toggleMonsterCondition` on a list: append an absent condition, splice out the first occurrence of a present one. */
  function Toggled(cs: seq<string>, c: string): (r: seq<string>)
    ensures c !in cs ==> r == cs + [c]
    ensures c in cs ==> |r| == |cs| - 1 && multiset(r) == multiset(cs) - multiset{c}
  {
    if c !in cs then cs + [c]
    else
      var i := IndexOf(cs, c);
      assert cs == cs[..i] + [c] + cs[i + 1..];
      cs[..i] + cs[i + 1..]
  }

  predicate DuplicateFree(cs: seq<string>) {
    forall i, j :: 0 <= i < j < |cs| ==> cs[i] != cs[j]
  }

  /** Toggling an absent condition on and off again restores the list exactly. */
  lemma ToggleTwiceAbsent(cs: seq<string>, c: string)
    requires c !in cs
    ensures Toggled(Toggled(cs, c), c) == cs
  {
    var on := cs + [c];
    assert on[..|cs|] == cs && on[|cs| + 1..] == [];
    assert forall k :: 0 <= k < |cs| ==> on[k] == cs[k];
    assert IndexOf(on, c) == |cs|;
  }

  /** Splicing out the only occurrence of a tag leaves none. */
  lemma ToggleOffRemoves(cs: seq<string>, c: string)
    requires c in cs && DuplicateFree(cs)
    ensures Toggled(cs, c) == cs[..IndexOf(cs, c)] + cs[IndexOf(cs, c) + 1..]
    ensures c !in Toggled(cs, c)
  {
    var i := IndexOf(cs, c);
    var off := cs[..i] + cs[i + 1..];
    forall k | 0 <= k < |off| ensures off[k] != c {
      if k < i { assert off[k] == cs[k]; } else { assert off[k] == cs[k + 1]; }
    }
  }

  /**
   * Toggling a present condition off and on again keeps the same tags, but
   * moves the tag to the end: the list comes back unchanged only when the
   * tag was already last.
   */
  lemma ToggleTwicePresent(cs: seq<string>, c: string)
    requires c in cs && DuplicateFree(cs)
    ensures multiset(Toggled(Toggled(cs, c), c)) == multiset(cs)
    ensures Toggled(Toggled(cs, c), c) == cs <==> cs[|cs| - 1] == c
  {
    ToggleBackSameTags(cs, c);
    ToggleBackMovesLast(cs, c);
  }

  /** Toggling a present tag off and on again keeps the multiset of tags. */
  lemma ToggleBackSameTags(cs: seq<string>, c: string)
    requires c in cs
    ensures c !in Toggled(cs, c) ==> multiset(Toggled(Toggled(cs, c), c)) == multiset(cs)
  {
    var off := Toggled(cs, c);
    if c !in off {
      assert Toggled(off, c) == off + [c];
      assert multiset(off + [c]) == multiset(off) + multiset{c};
      PutBack(multiset(cs), c);
    }
  }

  /** Toggling a present tag of a duplicate-free list off and on again puts it last. */
  lemma ToggleBackMovesLast(cs: seq<string>, c: string)
    requires c in cs && DuplicateFree(cs)
    ensures c !in Toggled(cs, c)
    ensures Toggled(Toggled(cs, c), c) == cs <==> cs[|cs| - 1] == c
  {
    ToggleOffRemoves(cs, c);
    var i := IndexOf(cs, c);
    var off := Toggled(cs, c);
    var back := Toggled(off, c);
    assert back == off + [c];
    if cs[|cs| - 1] == c {
      OnlyOccurrence(cs, i, |cs| - 1);
      assert cs[i + 1..] == [];
      assert cs == cs[..i] + [c];
    } else {
      assert back[|back| - 1] == c;
    }
  }

  /** Taking one copy of an element out of a multiset and putting it back restores the multiset. */
  lemma PutBack(m: multiset<string>, c: string)
    requires c in m
    ensures m - multiset{c} + multiset{c} == m
  {
  }

  /** In a duplicate-free list two positions holding the same tag are the same position. */
  lemma OnlyOccurrence(cs: seq<string>, i: nat, j: nat)
    requires DuplicateFree(cs) && i < |cs| && j < |cs| && cs[i] == cs[j]
    ensures i == j
  {
  }

  /** The list of conditions on the sheet: appending does not duplicate, splicing keeps uniqueness. */
  lemma ToggleKeepsDuplicateFree(cs: seq<string>, c: string)
    requires DuplicateFree(cs)
    ensures DuplicateFree(Toggled(cs, c))
  {
    if c in cs {
      var i := IndexOf(cs, c);
      var r := cs[..i] + cs[i + 1..];
      forall a, b | 0 <= a < b < |r| ensures r[a] != r[b] {
        var a' := if a < i then a else a + 1;
        var b' := if b < i then b else b + 1;
        assert r[a] == cs[a'] && r[b] == cs[b'];
      }
    } else {
      var r := cs + [c];
      forall a, b | 0 <= a < b < |r| ensures r[a] != r[b] {
        if b == |cs| { assert r[a] == cs[a]; }
      }
    }
  }

  // ---- Deletion ----

  /** `monsters.filter(m => m.id !== id)`. */
  function WithoutMonster(ms: seq<Monster>, id: string): (r: seq<Monster>)
    ensures forall m :: m in r <==> m in ms && m.id != id
  {
    Seqs.Filter(ms, (m: Monster) => m.id != id)
  }

  /** `monsterOrder.filter(o => o !== id)`, the order filter that was evidently intended. */
  function WithoutId(order: seq<string>, id: string): (r: seq<string>)
    ensures forall o :: o in r <==> o in order && o != id
  {
    Seqs.Filter(order, (o: string) => o != id)
  }

  /**
   * `monsterOrder.filter(id => id !== id)` as written: the callback's
   * parameter shadows the deleted id, every string equals itself, and the
   * whole order is dropped.
   */
  function WithoutIdAsWritten(order: seq<string>, id: string): (r: seq<string>)
    ensures r == []
  {
    var keep := (o: string) => o != o;
    Seqs.FilterNone(order, keep);
    Seqs.Filter(order, keep)
  }

  lemma WithoutMonsterCons(ms: seq<Monster>, id: string)
    requires ms != []
    ensures WithoutMonster(ms, id) == (if ms[0].id != id then [ms[0]] else []) + WithoutMonster(ms[1..], id)
  {
  }

  lemma WithoutIdCons(order: seq<string>, id: string)
    requires order != []
    ensures WithoutId(order, id) == (if order[0] != id then [order[0]] else []) + WithoutId(order[1..], id)
  {
  }

  lemma LookupCons(ms: seq<Monster>, id: string)
    requires ms != []
    ensures Lookup(ms, id) == if ms[0].id == id then Some(ms[0]) else Lookup(ms[1..], id)
  {
  }

  /** Looking an id up among the survivors finds the same monster as before the deletion. */
  lemma {:induction false} LookupSurvivor(ms: seq<Monster>, gone: string, id: string)
    requires id != gone
    ensures Lookup(WithoutMonster(ms, gone), id) == Lookup(ms, id)
  {
    if ms != [] {
      LookupSurvivor(ms[1..], gone, id);
      WithoutMonsterCons(ms, gone);
      LookupCons(ms, id);
      var rest := WithoutMonster(ms[1..], gone);
      if ms[0].id != gone {
        assert WithoutMonster(ms, gone) == [ms[0]] + rest;
        assert ([ms[0]] + rest)[1..] == rest;
        LookupCons([ms[0]] + rest, id);
      } else {
        assert WithoutMonster(ms, gone) == rest;
      }
    }
  }

  /** The rendering of a longer order: the first id's monster, if any, then the rest. */
  lemma RenderOrderCons(ms: seq<Monster>, order: seq<string>)
    requires order != []
    ensures RenderOrder(ms, order) == (if Lookup(ms, order[0]).Some? then [Lookup(ms, order[0]).value] else []) + RenderOrder(ms, order[1..])
  {
  }

  /**
   * With the intended order filter, the tracker after a deletion shows what
   * it showed before, less the deleted monster, in the same order.
   */
  lemma {:induction false} DeletionKeepsRenderedOrder(ms: seq<Monster>, order: seq<string>, id: string)
    ensures RenderOrder(WithoutMonster(ms, id), WithoutId(order, id)) == WithoutMonster(RenderOrder(ms, order), id)
  {
    if order != [] {
      DeletionKeepsRenderedOrder(ms, order[1..], id);
      WithoutIdCons(order, id);
      RenderOrderCons(ms, order);
      var rest := RenderOrder(ms, order[1..]);
      var tail := WithoutId(order[1..], id);
      var lookedUp := Lookup(ms, order[0]);
      var shown := if lookedUp.Some? then [lookedUp.value] else [];
      assert RenderOrder(ms, order) == shown + rest;
      if shown != [] {
        WithoutMonsterCons(shown + rest, id);
        assert (shown + rest)[1..] == rest;
      }
      if order[0] == id {
        assert WithoutId(order, id) == tail;
      } else {
        assert WithoutId(order, id) == [order[0]] + tail;
        assert ([order[0]] + tail)[1..] == tail;
        LookupSurvivor(ms, id, order[0]);
        RenderOrderCons(WithoutMonster(ms, id), [order[0]] + tail);
      }
    }
  }

  /** As written, deleting any monster empties what the tracker shows, survivors included. */
  lemma DeletionAsWrittenHidesSurvivors(ms: seq<Monster>, order: seq<string>, id: string)
    ensures RenderOrder(WithoutMonster(ms, id), WithoutIdAsWritten(order, id)) == []
  {
  }

  const GOBLIN: Monster := Monster("a", "Goblin1", 7, 7, 0, [], 0, false)
  const ORC: Monster := Monster("b", "Orc2", 15, 15, 0, [], 0, false)

  /** Both monsters of the two-monster table are shown, in order. */
  lemma RenderBothMonsters()
    ensures RenderOrder([GOBLIN, ORC], ["a", "b"]) == [GOBLIN, ORC]
  {
    var order := ["a", "b"];
    assert order[1..] == ["b"] && order[1..][1..] == [];
    assert Lookup([GOBLIN, ORC], "a") == Some(GOBLIN);
    assert FindMonster([GOBLIN, ORC][1..], "b") == Some(0);
    assert Lookup([GOBLIN, ORC], "b") == Some(ORC);
    RenderOrderCons([GOBLIN, ORC], order);
    RenderOrderCons([GOBLIN, ORC], order[1..]);
  }

  /** Deleting the goblin leaves the orc. */
  lemma WithoutGoblin()
    ensures WithoutMonster([GOBLIN, ORC], "a") == [ORC]
  {
    var shown := [GOBLIN, ORC];
    assert shown[1..] == [ORC] && shown[1..][1..] == [];
    WithoutMonsterCons(shown, "a");
    WithoutMonsterCons(shown[1..], "a");
    assert WithoutMonster([], "a") == [];
  }

  /** Deleting the goblin from a two-monster table: as written the orc vanishes from view, as intended it stays. */
  lemma DeleteGoblinScenario()
    ensures RenderOrder([GOBLIN, ORC], ["a", "b"]) == [GOBLIN, ORC]
    ensures RenderOrder(WithoutMonster([GOBLIN, ORC], "a"), WithoutIdAsWritten(["a", "b"], "a")) == []
    ensures RenderOrder(WithoutMonster([GOBLIN, ORC], "a"), WithoutId(["a", "b"], "a")) == [ORC]
  {
    RenderBothMonsters();
    WithoutGoblin();
    DeletionAsWrittenHidesSurvivors([GOBLIN, ORC], ["a", "b"], "a");
    DeletionKeepsRenderedOrder([GOBLIN, ORC], ["a", "b"], "a");
  }

  // ---- The order invariant ----

  /** Changing anything but the ids keeps the order listed. */
  lemma SameIdsListed(ms: seq<Monster>, ms': seq<Monster>, order: seq<string>)
    requires Listed(ms, order)
    requires |ms'| == |ms| && forall j :: 0 <= j < |ms| ==> ms'[j].id == ms[j].id
    ensures Listed(ms', order)
  {
    forall k | 0 <= k < |order| ensures HasMonster(ms', order[k]) {
      var j :| 0 <= j < |ms| && ms[j].id == order[k];
      assert ms'[j].id == order[k];
    }
  }

  /** Appending a monster and its id keeps the order listed. */
  lemma AppendListed(ms: seq<Monster>, order: seq<string>, m: Monster)
    requires Listed(ms, order)
    ensures Listed(ms + [m], order + [m.id])
  {
    var ms', order' := ms + [m], order + [m.id];
    forall k | 0 <= k < |order'| ensures HasMonster(ms', order'[k]) {
      if k == |order| {
        assert ms'[|ms|].id == order'[k];
      } else {
        var j :| 0 <= j < |ms| && ms[j].id == order[k];
        assert ms'[j].id == order'[k];
      }
    }
  }

  /** Deleting a monster together with its order entries keeps the order listed. */
  lemma DeletionListed(ms: seq<Monster>, order: seq<string>, id: string)
    requires Listed(ms, order)
    ensures Listed(WithoutMonster(ms, id), WithoutId(order, id))
  {
    var ms', order' := WithoutMonster(ms, id), WithoutId(order, id);
    forall k | 0 <= k < |order'| ensures HasMonster(ms', order'[k]) {
      var o := order'[k];
      assert o in order && o != id;
      var k' :| 0 <= k' < |order| && order[k'] == o;
      var j :| 0 <= j < |ms| && ms[j].id == o;
      assert ms[j] in ms';
      var j' :| 0 <= j' < |ms'| && ms'[j'] == ms[j];
    }
  }

  // ---- Dice ----

  /** `results.reduce((a, b) => a + b, 0)`. */
  function Sum(xs: seq<int>): int {
    if xs == [] then 0 else Sum(xs[..|xs| - 1]) + xs[|xs| - 1]
  }

  /** One die face from one `Math.random()` draw: `Math.floor(r * diceType) + 1`. */
  function Face(draw: real, diceType: int): (face: int)
    requires 0.0 <= draw < 1.0 && diceType >= 1
    ensures 1 <= face <= diceType
  {
    (draw * diceType as real).Floor + 1
  }

  /** A total of faces each between 1 and `diceType` lies between the count and `count * diceType`. */
  lemma {:induction false} SumBounds(xs: seq<int>, diceType: int)
    requires forall k :: 0 <= k < |xs| ==> 1 <= xs[k] <= diceType
    ensures |xs| <= Sum(xs) <= |xs| * diceType
  {
    if xs != [] {
      SumBounds(xs[..|xs| - 1], diceType);
    }
  }

  /** The object `rollDice` emits and returns. */
  datatype Roll = Roll(diceType: int, quantity: int, results: seq<int>, total: int)

  /**
   * `rollDice(diceType, quantity)`: one face per iteration, `quantity`
   * iterations (none for a quantity below one), then the total; the
   * `Math.random()` draws are given.
   */
  method RollDice(diceType: int, quantity: int, draws: seq<real>) returns (roll: Roll)
    requires diceType >= 1
    requires quantity <= |draws| && forall k :: 0 <= k < |draws| ==> 0.0 <= draws[k] < 1.0
    ensures roll.diceType == diceType && roll.quantity == quantity
    ensures |roll.results| == if quantity < 0 then 0 else quantity
    ensures forall k :: 0 <= k < |roll.results| ==> roll.results[k] == Face(draws[k], diceType)
    ensures roll.total == Sum(roll.results)
    ensures |roll.results| <= roll.total <= |roll.results| * diceType
  {
    var results: seq<int> := [];
    var i := 0;
    while i < quantity
      invariant 0 <= i <= (if quantity < 0 then 0 else quantity) && |results| == i
      invariant forall k :: 0 <= k < i ==> results[k] == Face(draws[k], diceType)
    {
      results := results + [Face(draws[i], diceType)];
      i := i + 1;
    }
    SumBounds(results, diceType);
    roll := Roll(diceType, quantity, results, Sum(results));
  }

  /** A 3d6 roll with draws 0, 0.5 and 0.99 shows 1, 4 and 6 for a total of 11. */
  lemma ThreeD6()
    ensures Face(0.0, 6) == 1 && Face(0.5, 6) == 4 && Face(0.99, 6) == 6
    ensures Sum([1, 4, 6]) == 11
  {
    assert [1, 4, 6][..2] == [1, 4] && [1, 4][..1] == [1] && [1][..0] == [];
  }

  /**
   * The tracker's globals: `monsters`, `monsterOrder` and `battlefield`,
   * which the page's handlers change in place.
   */
  class ClientState {
    var monsters: seq<Monster>
    var monsterOrder: seq<string>
    var battlefield: Battlefield

    /** Every id in the order names a monster on the page. */
    predicate OrderListsMonsters()
      reads this
    {
      Listed(monsters, monsterOrder)
    }

    /** Every monster's HP is non-negative. */
    predicate HpNonNegative()
      reads this
    {
      forall k :: 0 <= k < |monsters| ==> monsters[k].currentHp >= 0
    }

    /** The page as first loaded: no monsters, the default battlefield. */
    constructor ()
      ensures monsters == [] && monsterOrder == [] && battlefield == INITIAL_BATTLEFIELD
      ensures OrderListsMonsters() && HpNonNegative()
    {
      monsters := [];
      monsterOrder := [];
      battlefield := INITIAL_BATTLEFIELD;
    }

    /**
     * `addMonster(prefix, defaultHp, isAdventurer)` with the generated id
     * given: append a fresh monster at full HP, named by the prefix and its
     * position, and append its id to the order.
     */
    method AddMonster(prefix: string, defaultHp: int, isAdventurer: bool, id: string)
      modifies this
      ensures monsters == old(monsters) + [Monster(id, prefix + JsValue.NatToString(|old(monsters)| + 1), defaultHp, defaultHp, 0, [], 0, isAdventurer)]
      ensures monsterOrder == old(monsterOrder) + [id]
      ensures battlefield == old(battlefield)
      ensures old(OrderListsMonsters()) ==> OrderListsMonsters()
      ensures old(HpNonNegative()) && defaultHp >= 0 ==> HpNonNegative()
    {
      var name := prefix + JsValue.NatToString(|monsters| + 1);
      var monster := Monster(id, name, defaultHp, defaultHp, 0, [], 0, isAdventurer);
      if OrderListsMonsters() {
        AppendListed(monsters, monsterOrder, monster);
      }
      monsters := monsters + [monster];
      monsterOrder := monsterOrder + [id];
    }

    /**
     * `updateMonsterHp(id, amount)`: the first monster with the id gets
     * `max(0, currentHp + amount)`, not capped by `maxHp`; an unknown id
     * changes nothing.
     */
    method UpdateMonsterHp(id: string, amount: int)
      modifies this
      ensures FindMonster(old(monsters), id).None? ==> monsters == old(monsters)
      ensures FindMonster(old(monsters), id).Some? ==>
        var i := FindMonster(old(monsters), id).value;
        var hp := old(monsters[i].currentHp) + amount;
        monsters == old(monsters)[i := old(monsters[i]).(currentHp := if hp > 0 then hp else 0)]
      ensures monsterOrder == old(monsterOrder) && battlefield == old(battlefield)
      ensures old(HpNonNegative()) ==> HpNonNegative()
      ensures old(OrderListsMonsters()) ==> OrderListsMonsters()
    {
      var found := FindMonster(monsters, id);
      if found.Some? {
        var i := found.value;
        var hp := monsters[i].currentHp + amount;
        var updated := monsters[i := monsters[i].(currentHp := if hp > 0 then hp else 0)];
        if OrderListsMonsters() {
          SameIdsListed(monsters, updated, monsterOrder);
        }
        monsters := updated;
      }
    }

    /** `updateMonsterInitiative(id, value)`: the first monster with the id takes the value. */
    method UpdateMonsterInitiative(id: string, value: int)
      modifies this
      ensures FindMonster(old(monsters), id).None? ==> monsters == old(monsters)
      ensures FindMonster(old(monsters), id).Some? ==>
        var i := FindMonster(old(monsters), id).value;
        monsters == old(monsters)[i := old(monsters[i]).(initiative := value)]
      ensures monsterOrder == old(monsterOrder) && battlefield == old(battlefield)
    {
      var found := FindMonster(monsters, id);
      if found.Some? {
        monsters := monsters[found.value := monsters[found.value].(initiative := value)];
      }
    }

    /** `toggleMonsterCondition(id, condition)` on the first monster with the id. */
    method ToggleMonsterCondition(id: string, condition: string)
      modifies this
      ensures FindMonster(old(monsters), id).None? ==> monsters == old(monsters)
      ensures FindMonster(old(monsters), id).Some? ==>
        var i := FindMonster(old(monsters), id).value;
        monsters == old(monsters)[i := old(monsters[i]).(conditions := Toggled(old(monsters[i].conditions), condition))]
      ensures monsterOrder == old(monsterOrder) && battlefield == old(battlefield)
    {
      var found := FindMonster(monsters, id);
      if found.Some? {
        var m := monsters[found.value];
        var cs := m.conditions;
        if condition !in cs {
          cs := cs + [condition];
        } else {
          var index := IndexOf(cs, condition);
          cs := cs[..index] + cs[index + 1..];
        }
        monsters := monsters[found.value := m.(conditions := cs)];
      }
    }

    /**
     * `deleteMonster(id)` as written: when the user confirms, the monsters
     * with the id go and so does the whole initiative order.
     */
    method DeleteMonsterAsWritten(id: string, confirmed: bool)
      modifies this
      ensures !confirmed ==> monsters == old(monsters) && monsterOrder == old(monsterOrder)
      ensures confirmed ==> monsters == WithoutMonster(old(monsters), id) && monsterOrder == []
      ensures battlefield == old(battlefield)
    {
      if confirmed {
        monsters := WithoutMonster(monsters, id);
        monsterOrder := WithoutIdAsWritten(monsterOrder, id);
      }
    }

    /**
     * `deleteMonster(id)` with the order filter comparing against the
     * deleted id: the monsters with the id and their order entries go, the
     * rest keep their order.
     */
    method DeleteMonster(id: string, confirmed: bool)
      modifies this
      ensures !confirmed ==> monsters == old(monsters) && monsterOrder == old(monsterOrder)
      ensures confirmed ==> monsters == WithoutMonster(old(monsters), id) && monsterOrder == WithoutId(old(monsterOrder), id)
      ensures battlefield == old(battlefield)
      ensures old(OrderListsMonsters()) ==> OrderListsMonsters()
    {
      if confirmed {
        if OrderListsMonsters() {
          DeletionListed(monsters, monsterOrder, id);
        }
        monsters := WithoutMonster(monsters, id);
        monsterOrder := WithoutId(monsterOrder, id);
      }
    }

    /** `renderMonsters`: walk the order and show the first monster of each id. */
    method RenderMonsters() returns (cards: seq<Monster>)
      ensures cards == RenderOrder(monsters, monsterOrder)
    {
      cards := [];
      var i := 0;
      while i < |monsterOrder|
        invariant 0 <= i <= |monsterOrder|
        invariant cards + RenderOrder(monsters, monsterOrder[i..]) == RenderOrder(monsters, monsterOrder)
      {
        var found := FindMonster(monsters, monsterOrder[i]);
        assert monsterOrder[i..][1..] == monsterOrder[i + 1..];
        if found.Some? {
          cards := cards + [monsters[found.value]];
        }
        i := i + 1;
      }
      assert monsterOrder[i..] == [];
    }

    /** `resetSession`: no monsters, no order, the initial battlefield. */
    method ResetSession()
      modifies this
      ensures monsters == [] && monsterOrder == [] && battlefield == INITIAL_BATTLEFIELD
      ensures OrderListsMonsters() && HpNonNegative()
    {
      monsters := [];
      monsterOrder := [];
      battlefield := INITIAL_BATTLEFIELD;
    }
  }
}

=== FILE: dice_route.dfy ===
/**
 * The dice router: read the latest rolls, record a roll, clear the
 * history, and count the history by player and by die type.
 */
module DiceRoute {
  import opened Wrappers
  import opened JsValue
  import opened SessionModel
  import opened RouteCommon
  import Seqs

  // ---- validateRollData ----

  /** One die: a truthy type and a non-zero number value. */
  function DieCheck(d: Value): (v: Verdict)
    ensures v.Pass? || v == Fail(InvalidDie)
    ensures v.Pass? <==> Truthy(Field(d, "type")) && Field(d, "value").Num? && Field(d, "value").n != 0.0
  {
    if !Truthy(Field(d, "type")) || !Truthy(Field(d, "value")) || !Field(d, "value").Num? then Fail(InvalidDie)
    else Pass
  }

  /** `validateRollData`: a non-blank player name, then an object holding a non-empty array of dice. */
  function ValidateRollData(body: Value): (v: Verdict)
    ensures v.Pass? ==> Field(body, "playerName").Str? && Trim(Field(body, "playerName").s) != []
    ensures v.Pass? ==> WellFormedRollData(Field(body, "rollData"))
    ensures (Field(body, "playerName").Str? && Trim(Field(body, "playerName").s) != []
             && WellFormedRollData(Field(body, "rollData"))) ==> v.Pass?
  {
    var name := Field(body, "playerName");
    if !Truthy(name) || !name.Str? || Trim(name.s) == [] then Fail(InvalidPlayerName)
    else
      var rollData := Field(body, "rollData");
      if !Truthy(rollData) || !IsObjectType(rollData) then Fail(RollDataNotObject)
      else
        var dice := Field(rollData, "dice");
        if !Truthy(dice) || !dice.Arr? || |dice.items| == 0 then Fail(InvalidDiceList)
        else Scan(dice.items, DieCheck)
  }

  /** A die as the statistics read it. */
  datatype Die = Die(kind: Value, value: real)

  predicate WellFormedDie(d: Value) {
    !IsNullish(d) && DieCheck(d).Pass?
  }

  /** What an accepted roll request's `rollData` looks like. */
  predicate WellFormedRollData(rollData: Value) {
    && rollData.Obj?
    && Field(rollData, "dice").Arr?
    && |Field(rollData, "dice").items| > 0
    && forall k :: 0 <= k < |Field(rollData, "dice").items| ==> WellFormedDie(Field(rollData, "dice").items[k])
  }

  /** Every stored roll came through the roll route's check. */
  predicate WellFormedHistory(history: seq<RollRecord>) {
    forall k :: 0 <= k < |history| ==> WellFormedRollData(history[k].rollData)
  }

  // ---- Specification of the statistics ----

  /** The dice of a roll's `dice` array, in order. */
  function DiceOf(ds: seq<Value>): (r: seq<Die>)
    ensures |r| == |ds|
  {
    if ds == [] then [] else DiceOf(ds[..|ds| - 1]) + [DieOf(ds[|ds| - 1])]
  }

  /** The type and value of one well-formed die (the value of any other is never read). */
  function DieOf(d: Value): (r: Die)
    ensures WellFormedDie(d) ==> r == Die(Field(d, "type"), Field(d, "value").n)
  {
    Die(Field(d, "type"), if Field(d, "value").Num? then Field(d, "value").n else 0.0)
  }

  /** Every die of the history, roll after roll. */
  function AllDice(history: seq<RollRecord>): seq<Die>
    requires WellFormedHistory(history)
  {
    if history == [] then []
    else AllDice(history[..|history| - 1]) + DiceOf(Field(history[|history| - 1].rollData, "dice").items)
  }

  function Kinds(ds: seq<Die>): (r: seq<Value>)
    ensures |r| == |ds|
  {
    if ds == [] then [] else Kinds(ds[..|ds| - 1]) + [ds[|ds| - 1].kind]
  }

  function Names(history: seq<RollRecord>): (r: seq<string>)
    ensures |r| == |history|
  {
    if history == [] then [] else Names(history[..|history| - 1]) + [history[|history| - 1].playerName]
  }

  /** The sum of the values of the dice of one type. */
  function KindTotal(ds: seq<Die>, kind: Value): real {
    if ds == [] then 0.0
    else KindTotal(ds[..|ds| - 1], kind) + (if ds[|ds| - 1].kind == kind then ds[|ds| - 1].value else 0.0)
  }

  /** A running `{ total, count }` per die type. */
  datatype Accumulator = Accumulator(total: real, count: nat)

  /** The statistics object of the stats route. */
  datatype Stats = Stats(totalRolls: nat, players: map<string, nat>, diceTypes: map<Value, nat>, averageRolls: map<Value, real>)

  /** The accumulators agree with the counts and the dice seen so far. */
  predicate Accumulates(sums: map<Value, Accumulator>, counts: map<Value, nat>, seen: seq<Die>) {
    && sums.Keys == counts.Keys
    && forall t :: t in sums ==>
         sums[t].count == counts[t] && sums[t].count >= 1 && sums[t].total == KindTotal(seen, t)
  }

  /** One die into the accumulators: a type seen for the first time starts from `{ total: 0, count: 0 }`. */
  function AddDie(sums: map<Value, Accumulator>, d: Die): map<Value, Accumulator> {
    var previous := if d.kind in sums then sums[d.kind] else Accumulator(0.0, 0);
    sums[d.kind := Accumulator(previous.total + d.value, previous.count + 1)]
  }

  /** The accumulators after a run of dice. */
  function Accumulated(ds: seq<Die>): map<Value, Accumulator> {
    if ds == [] then map[] else AddDie(Accumulated(ds[..|ds| - 1]), ds[|ds| - 1])
  }

  /** Appending one die adds its value to its own type's total and nothing else. */
  lemma KindTotalSnoc(ds: seq<Die>, d: Die, kind: Value)
    ensures KindTotal(ds + [d], kind) == KindTotal(ds, kind) + (if d.kind == kind then d.value else 0.0)
  {
    assert (ds + [d])[..|ds + [d]| - 1] == ds;
  }

  lemma KindsSnoc(ds: seq<Die>, d: Die)
    ensures Kinds(ds + [d]) == Kinds(ds) + [d.kind]
  {
    assert (ds + [d])[..|ds + [d]| - 1] == ds;
  }

  /** One more die adds one to its type's count. */
  lemma CountStep(seen: seq<Die>, d: Die)
    ensures Seqs.Tally(Kinds(seen + [d])) == Seqs.Inc(Seqs.Tally(Kinds(seen)), d.kind)
  {
    KindsSnoc(seen, d);
    Seqs.TallySnoc(Kinds(seen), d.kind);
  }

  lemma AccumulatedSnoc(seen: seq<Die>, d: Die)
    ensures Accumulated(seen + [d]) == AddDie(Accumulated(seen), d)
  {
    assert (seen + [d])[..|seen|] == seen;
  }

  /** A type no die has totals zero. */
  lemma {:induction false} KindTotalAbsent(ds: seq<Die>, kind: Value)
    requires kind !in Kinds(ds)
    ensures KindTotal(ds, kind) == 0.0
  {
    if ds != [] {
      assert Kinds(ds) == Kinds(ds[..|ds| - 1]) + [ds[|ds| - 1].kind];
      KindTotalAbsent(ds[..|ds| - 1], kind);
    }
  }

  /** One more die: its type's accumulator grows, every other stays. */
  lemma AccumulateStep(sums: map<Value, Accumulator>, counts: map<Value, nat>, seen: seq<Die>, d: Die)
    requires counts == Seqs.Tally(Kinds(seen)) && Accumulates(sums, counts, seen)
    ensures Accumulates(AddDie(sums, d), Seqs.Inc(counts, d.kind), seen + [d])
  {
    var sums', counts' := AddDie(sums, d), Seqs.Inc(counts, d.kind);
    assert sums'.Keys == sums.Keys + {d.kind} == counts'.Keys;
    forall t | t in sums'
      ensures sums'[t].count == counts'[t] && sums'[t].count >= 1 && sums'[t].total == KindTotal(seen + [d], t)
    {
      KindTotalSnoc(seen, d, t);
      if t == d.kind && t !in sums {
        KindTotalAbsent(seen, t);
      }
    }
  }

  /**
   * Each type's accumulator holds the number of dice of that type and the
   * sum of their values, and there is one for every type thrown.
   */
  lemma {:induction false} AccumulatedSpec(ds: seq<Die>)
    ensures Accumulates(Accumulated(ds), Seqs.Tally(Kinds(ds)), ds)
  {
    if ds != [] {
      var front, last := ds[..|ds| - 1], ds[|ds| - 1];
      assert front + [last] == ds;
      AccumulatedSpec(front);
      CountStep(front, last);
      AccumulatedSnoc(front, last);
      AccumulateStep(Accumulated(front), Seqs.Tally(Kinds(front)), front, last);
    }
  }

  /** The dice of the first `j + 1` elements are those of the first `j` and one more. */
  lemma DiceOfSnoc(seen: seq<Die>, ds: seq<Value>, j: nat)
    requires j < |ds|
    ensures seen + DiceOf(ds[..j + 1]) == (seen + DiceOf(ds[..j])) + [DieOf(ds[j])]
  {
    assert ds[..j + 1][..j] == ds[..j];
  }

  /** The names and dice of the first `i + 1` rolls are those of the first `i` and one more. */
  lemma HistorySnoc(history: seq<RollRecord>, i: nat)
    requires i < |history| && WellFormedHistory(history)
    ensures Names(history[..i + 1]) == Names(history[..i]) + [history[i].playerName]
    ensures AllDice(history[..i + 1]) == AllDice(history[..i]) + DiceOf(Field(history[i].rollData, "dice").items)
  {
    assert history[..i + 1][..i] == history[..i];
  }

  /** Per-type counts of a run of dice, one die at a time. */
  function KindCounts(ds: seq<Die>): (r: map<Value, nat>)
    ensures forall k :: k in r ==> 0 < r[k] <= |ds|
  {
    if ds == [] then map[] else Seqs.Inc(KindCounts(ds[..|ds| - 1]), ds[|ds| - 1].kind)
  }

  /** Per-player counts of a run of rolls, one roll at a time. */
  function PlayerCounts(history: seq<RollRecord>): (r: map<string, nat>)
    ensures forall k :: k in r ==> 0 < r[k] <= |history|
  {
    if history == [] then map[] else Seqs.Inc(PlayerCounts(history[..|history| - 1]), history[|history| - 1].playerName)
  }

  lemma KindCountsSnoc(ds: seq<Die>, d: Die)
    ensures KindCounts(ds + [d]) == Seqs.Inc(KindCounts(ds), d.kind)
  {
    assert (ds + [d])[..|ds|] == ds;
  }

  /** Counting die by die is tallying the list of types. */
  lemma {:induction false} KindCountsTally(ds: seq<Die>)
    ensures KindCounts(ds) == Seqs.Tally(Kinds(ds))
  {
    if ds != [] {
      var front, last := ds[..|ds| - 1], ds[|ds| - 1];
      assert ds == front + [last];
      KindCountsTally(front);
      CountStep(front, last);
    }
  }

  /** Counting roll by roll is tallying the list of player names. */
  lemma {:induction false} PlayerCountsTally(history: seq<RollRecord>)
    ensures PlayerCounts(history) == Seqs.Tally(Names(history))
  {
    if history != [] {
      var front := history[..|history| - 1];
      PlayerCountsTally(front);
      assert Names(history) == Names(front) + [history[|history| - 1].playerName];
      Seqs.TallySnoc(Names(front), history[|history| - 1].playerName);
    }
  }

  /**
   * The body of the inner `forEach`: `(counts[type] || 0) + 1`, and the
   * type's accumulator, created as `{ total: 0, count: 0 }` when missing,
   * takes the die's value.
   */
  method CountDie(counts: map<Value, nat>, sums: map<Value, Accumulator>, kind: Value, value: real)
    returns (counts': map<Value, nat>, sums': map<Value, Accumulator>)
    ensures counts' == Seqs.Inc(counts, kind) && sums' == AddDie(sums, Die(kind, value))
  {
    counts' := counts[kind := (if kind in counts then counts[kind] else 0) + 1];
    var previous := if kind in sums then sums[kind] else Accumulator(0.0, 0);
    sums' := sums[kind := Accumulator(previous.total + value, previous.count + 1)];
  }

  /**
   * The inner `forEach` of the stats route, over the dice of one roll:
   * count each die's type and add its value to that type's accumulator.
   */
  method CountDice(dice: seq<Value>, ghost seen: seq<Die>, counts: map<Value, nat>, sums: map<Value, Accumulator>)
    returns (counts': map<Value, nat>, sums': map<Value, Accumulator>)
    requires forall k :: 0 <= k < |dice| ==> WellFormedDie(dice[k])
    requires counts == KindCounts(seen) && sums == Accumulated(seen)
    ensures counts' == KindCounts(seen + DiceOf(dice)) && sums' == Accumulated(seen + DiceOf(dice))
  {
    counts', sums' := counts, sums;
    var j := 0;
    ghost var done := seen;
    assert DiceOf(dice[..0]) == [] && seen + [] == seen;
    while j < |dice|
      invariant 0 <= j <= |dice|
      invariant done == seen + DiceOf(dice[..j])
      invariant counts' == KindCounts(done) && sums' == Accumulated(done)
    {
      assert WellFormedDie(dice[j]);
      var kind := Field(dice[j], "type");
      var value := Field(dice[j], "value").n;
      assert DieOf(dice[j]) == Die(kind, value);
      KindCountsSnoc(done, Die(kind, value));
      AccumulatedSnoc(done, Die(kind, value));
      DiceOfSnoc(seen, dice, j);
      counts', sums' := CountDie(counts', sums', kind, value);
      done := done + [Die(kind, value)];
      j := j + 1;
    }
    assert dice[..j] == dice;
  }

  lemma PlayerCountsSnoc(history: seq<RollRecord>, i: nat)
    requires i < |history|
    ensures PlayerCounts(history[..i + 1]) == Seqs.Inc(PlayerCounts(history[..i]), history[i].playerName)
  {
    assert history[..i + 1][..i] == history[..i];
  }

  /** Every prefix of a well-formed history is well formed. */
  lemma PrefixWellFormed(history: seq<RollRecord>, i: nat)
    requires WellFormedHistory(history) && i <= |history|
    ensures WellFormedHistory(history[..i])
  {
  }

  /** `(players[name] || 0) + 1`. */
  method CountPlayer(players: map<string, nat>, name: string) returns (players': map<string, nat>)
    ensures players' == Seqs.Inc(players, name)
  {
    players' := players[name := (if name in players then players[name] else 0) + 1];
  }

  /**
   * The outer `forEach` of the stats route, over the rolls: count the
   * player's name, then the roll's dice.
   */
  method CountRolls(history: seq<RollRecord>)
    returns (players: map<string, nat>, diceTypes: map<Value, nat>, sums: map<Value, Accumulator>)
    requires WellFormedHistory(history)
    ensures players == PlayerCounts(history)
    ensures diceTypes == KindCounts(AllDice(history)) && sums == Accumulated(AllDice(history))
  {
    players, diceTypes, sums := map[], map[], map[];
    var i := 0;
    PrefixWellFormed(history, 0);
    while i < |history|
      invariant 0 <= i <= |history|
      invariant WellFormedHistory(history[..i])
      invariant players == PlayerCounts(history[..i])
      invariant diceTypes == KindCounts(AllDice(history[..i])) && sums == Accumulated(AllDice(history[..i]))
    {
      var roll := history[i];
      assert WellFormedRollData(roll.rollData);
      var dice := Field(roll.rollData, "dice").items;
      HistorySnoc(history, i);
      PlayerCountsSnoc(history, i);
      PrefixWellFormed(history, i + 1);
      players := CountPlayer(players, roll.playerName);
      diceTypes, sums := CountDice(dice, AllDice(history[..i]), diceTypes, sums);
      i := i + 1;
    }
    assert history[..i] == history;
  }

  /**
   * The stats route: counts per player, counts per die type, and per type
   * the total over the count (the `Object.keys` pass) as the average.
   */
  method ComputeStats(history: seq<RollRecord>) returns (stats: Stats)
    requires WellFormedHistory(history)
    ensures stats.totalRolls == |history|
    ensures stats.players == Seqs.Tally(Names(history))
    ensures stats.diceTypes == Seqs.Tally(Kinds(AllDice(history)))
    ensures stats.averageRolls.Keys == stats.diceTypes.Keys
    ensures forall t :: t in stats.averageRolls ==>
      stats.diceTypes[t] >= 1 && stats.averageRolls[t] == KindTotal(AllDice(history), t) / stats.diceTypes[t] as real
  {
    var players, diceTypes, sums := CountRolls(history);
    ghost var all := AllDice(history);
    PlayerCountsTally(history);
    KindCountsTally(all);
    AccumulatedSpec(all);
    AveragesSpec(sums, diceTypes, all);
    stats := Stats(|history|, players, diceTypes, Averages(sums));
  }

  /** The `Object.keys(averageRolls)` pass: each type's total over its count. */
  function Averages(sums: map<Value, Accumulator>): map<Value, real>
    requires forall t :: t in sums ==> sums[t].count >= 1
  {
    map t | t in sums :: sums[t].total / sums[t].count as real
  }

  /** Over accumulators that agree with the counts, the averages are the value totals over the counts. */
  lemma AveragesSpec(sums: map<Value, Accumulator>, counts: map<Value, nat>, seen: seq<Die>)
    requires Accumulates(sums, counts, seen)
    ensures forall t :: t in sums ==> sums[t].count >= 1
    ensures Averages(sums).Keys == counts.Keys
    ensures forall t :: t in Averages(sums) ==> counts[t] >= 1 && Averages(sums)[t] == KindTotal(seen, t) / counts[t] as real
  {
  }

  /** The per-player counts add up to the number of rolls. */
  lemma PlayerCountsSumToRolls(history: seq<RollRecord>)
    ensures Seqs.SumValues(Seqs.Tally(Names(history))) == |history|
  {
    Seqs.TallySum(Names(history));
  }

  /** The per-type counts add up to the number of dice thrown. */
  lemma TypeCountsSumToDice(history: seq<RollRecord>)
    requires WellFormedHistory(history)
    ensures Seqs.SumValues(Seqs.Tally(Kinds(AllDice(history)))) == |AllDice(history)|
  {
    Seqs.TallySum(Kinds(AllDice(history)));
  }

  /** Each type's count is the number of dice of that type. */
  lemma TypeCountIsOccurrences(history: seq<RollRecord>, kind: Value)
    requires WellFormedHistory(history)
    requires kind in Kinds(AllDice(history))
    ensures Seqs.Tally(Kinds(AllDice(history)))[kind] == multiset(Kinds(AllDice(history)))[kind]
  {
    Seqs.TallyCounts(Kinds(AllDice(history)), kind);
  }

  // ---- Handlers ----

  /** `parseInt(req.query.limit) || 20`: a missing, unparsable or zero limit is 20. */
  function LimitOf(query: Option<string>): (limit: int)
    ensures limit != 0
    ensures query.None? ==> limit == 20
    ensures query.Some? && ParseInt(query.value).Some? && ParseInt(query.value).value != 0 ==>
      limit == ParseInt(query.value).value
    ensures query.Some? && (ParseInt(query.value).None? || ParseInt(query.value).value == 0) ==> limit == 20
  {
    if query.None? then 20
    else match ParseInt(query.value)
      case None => 20
      case Some(n) => if n == 0 then 20 else n
  }

  /** `h.slice(-limit)` for a non-zero limit. */
  function SliceFromEnd<T>(h: seq<T>, limit: int): (r: seq<T>)
    requires limit != 0
    ensures limit > 0 ==> |r| == (if limit < |h| then limit else |h|) && r == h[|h| - |r|..]
    ensures limit < 0 ==> r == h[(if -limit < |h| then -limit else |h|)..]
  {
    var start := -limit;
    if start < 0 then h[(if |h| + start > 0 then |h| + start else 0)..]
    else h[(if start < |h| then start else |h|)..]
  }

  /** A negative limit does not count from the end: it skips that many of the oldest rolls. */
  lemma NegativeLimitSkipsOldest(h: seq<RollRecord>)
    requires |h| >= 3
    ensures SliceFromEnd(h, -2) == h[2..]
    ensures LimitOf(Some("-2")) == -2
  {
    MinusTwoParses();
  }

  lemma MinusTwoParses()
    ensures ParseInt("-2") == Some(-2)
  {
    assert NatToString(2) == "2";
    assert IntToString(-2) == "-" + "2" == "-2";
    ParseIntOfIntToString(-2);
  }

  datatype HistoryPage = HistoryPage(records: seq<RollRecord>, total: nat, limit: int)

  /** `GET /sessions/:sessionId` of the dice router. */
  function GetHistory(store: Store, id: string, query: Option<string>): (r: Reply<HistoryPage>)
    ensures r.status == 200 <==> ValidateSessionId(id).Pass? && id in store
    ensures r.status == 200 ==>
      var h := store[id].diceHistory;
      && r.body.Data? && r.body.data.total == |h| && r.body.data.limit == LimitOf(query)
      && r.body.data.records == SliceFromEnd(h, LimitOf(query))
      && (r.body.data.limit > 0 ==>
            |r.body.data.records| == (if r.body.data.limit < |h| then r.body.data.limit else |h|)
            && r.body.data.records == h[|h| - |r.body.data.records|..])
      && (query.None? ==> |r.body.data.records| == (if |h| < 20 then |h| else 20))
    ensures ValidateSessionId(id).Pass? && id !in store ==> r == Reply(404, NotFound)
  {
    if !ValidateSessionId(id).Pass? then Refusal(ValidateSessionId(id))
    else if id !in store then Reply(404, NotFound)
    else
      var limit := LimitOf(query);
      var h := store[id].diceHistory;
      Reply(200, Data(HistoryPage(SliceFromEnd(h, limit), |h|, limit)))
  }

  /** `POST /sessions/:sessionId`: append the roll with the trimmed player name. */
  function PostRoll(store: Store, id: string, body: Value, now: int): (o: Outcome<RollRecord>)
    ensures o.reply.status == 200 <==> o.notice.Some?
    ensures o.reply.status != 200 ==> o.store == store
    ensures o.reply.status == 200 ==>
      && id in store && id in o.store && o.store == store[id := o.store[id]]
      && Field(body, "playerName").Str?
      && var record := RollRecord(Trim(Field(body, "playerName").s), Field(body, "rollData"), now);
         && o.store[id] == store[id].(diceHistory := store[id].diceHistory + [record], lastUpdated := now)
         && o.reply.body == Data(record)
         && o.notice == Some(Notice(id, "dice-rolled", RollPayload(record)))
    ensures (ValidateSessionId(id).Pass? && ValidateRollData(body).Pass?
             && ValidRoll(RollRecord(Trim(Field(body, "playerName").s), Field(body, "rollData"), now))) ==>
      && (o.reply.status == 200 <==> id in store)
      && (id !in store ==> o.reply == Reply(404, NotFound))
  {
    if !ValidateSessionId(id).Pass? then Outcome(store, Refusal(ValidateSessionId(id)), None)
    else
      var verdict := ValidateRollData(body);
      if !verdict.Pass? then Outcome(store, Refusal(verdict), None)
      else
        var record := RollRecord(Trim(Field(body, "playerName").s), Field(body, "rollData"), now);
        if !ValidRoll(record) then Outcome(store, Reply(400, SchemaViolation), None)
        else if id !in store then Outcome(store, Reply(404, NotFound), None)
        else
          var saved := store[id].(diceHistory := store[id].diceHistory + [record], lastUpdated := now);
          // the reply and the broadcast carry the last entry of the updated history
          var latest := saved.diceHistory[|saved.diceHistory| - 1];
          Outcome(store[id := saved], Reply(200, Data(latest)), Some(Notice(id, "dice-rolled", RollPayload(latest))))
  }

  /** A name of more than 50 characters after trimming is refused by the schema, not the route. */
  lemma LongNameIsSchemaViolation(store: Store, id: string, body: Value, now: int)
    requires ValidateSessionId(id).Pass? && ValidateRollData(body).Pass?
    requires |Trim(Field(body, "playerName").s)| > 50
    ensures PostRoll(store, id, body, now).reply == Reply(400, SchemaViolation)
  {
  }

  /** Every stored history stays well formed: the statistics can always read it. */
  predicate HistoriesWellFormed(store: Store) {
    forall k :: k in store ==> WellFormedHistory(store[k].diceHistory)
  }

  /** Recording a roll keeps the store valid and its histories well formed. */
  lemma PostRollKeepsInvariants(store: Store, id: string, body: Value, now: int)
    requires StoreValid(store) && HistoriesWellFormed(store)
    ensures StoreValid(PostRoll(store, id, body, now).store)
    ensures HistoriesWellFormed(PostRoll(store, id, body, now).store)
  {
    if ValidateSessionId(id).Pass? && ValidateRollData(body).Pass? && id in store {
      var record := RollRecord(Trim(Field(body, "playerName").s), Field(body, "rollData"), now);
      if ValidRoll(record) {
        var saved := store[id].(diceHistory := store[id].diceHistory + [record], lastUpdated := now);
        AppendRollKeepsValid(store[id], record, now);
        ReplaceKeepsStoreValid(store, id, saved);
      }
    }
  }

  /** Appending a valid, well-formed roll keeps a record valid and its history well formed. */
  lemma AppendRollKeepsValid(s: Session, record: RollRecord, now: int)
    requires ValidSession(s) && WellFormedHistory(s.diceHistory)
    requires ValidRoll(record) && WellFormedRollData(record.rollData)
    ensures var saved := s.(diceHistory := s.diceHistory + [record], lastUpdated := now);
      ValidSession(saved) && WellFormedHistory(saved.diceHistory)
  {
    var h := s.diceHistory + [record];
    assert forall k :: 0 <= k < |h| ==> h[k] == if k < |s.diceHistory| then s.diceHistory[k] else record;
  }

  /** `DELETE /sessions/:sessionId` of the dice router: clear the history. */
  function ResetHistory(store: Store, id: string, now: int): (o: Outcome<()>)
    ensures o.reply.status == 200 <==> ValidateSessionId(id).Pass? && id in store
    ensures o.reply.status == 200 ==>
      o.store == store[id := store[id].(diceHistory := [], lastUpdated := now)]
      && o.notice == Some(Notice(id, "dice-reset", NoPayload))
    ensures o.reply.status != 200 ==> o.store == store && o.notice.None?
    ensures ValidateSessionId(id).Pass? && id !in store ==> o.reply == Reply(404, NotFound)
  {
    if !ValidateSessionId(id).Pass? then Outcome(store, Refusal(ValidateSessionId(id)), None)
    else if id !in store then Outcome(store, Reply(404, NotFound), None)
    else
      var saved := store[id].(diceHistory := [], lastUpdated := now);
      Outcome(store[id := saved], Reply(200, Done), Some(Notice(id, "dice-reset", NoPayload)))
  }

  /** After a reset the history page is empty and reports a total of zero. */
  lemma ResetThenHistory(store: Store, id: string, now: int, query: Option<string>)
    requires ValidateSessionId(id).Pass? && id in store
    ensures var r := GetHistory(ResetHistory(store, id, now).store, id, query);
      r.status == 200 && r.body.data.records == [] && r.body.data.total == 0
  {
  }

  /** `GET /sessions/:sessionId/stats`. */
  method GetStats(store: Store, id: string) returns (r: Reply<Stats>)
    ensures r.status == 200 <==> ValidateSessionId(id).Pass? && id in store && WellFormedHistory(store[id].diceHistory)
    ensures r.status == 200 ==>
      var h := store[id].diceHistory;
      && r.body.Data? && r.body.data.totalRolls == |h|
      && r.body.data.players == Seqs.Tally(Names(h))
      && r.body.data.diceTypes == Seqs.Tally(Kinds(AllDice(h)))
      && r.body.data.averageRolls.Keys == r.body.data.diceTypes.Keys
    ensures ValidateSessionId(id).Pass? && id !in store ==> r == Reply(404, NotFound)
  {
    if !ValidateSessionId(id).Pass? {
      return Refusal(ValidateSessionId(id));
    }
    if id !in store {
      return Reply(404, NotFound);
    }
    if !WellFormedHistory(store[id].diceHistory) {
      return Reply(500, ServerError);
    }
    var stats := ComputeStats(store[id].diceHistory);
    return Reply(200, Data(stats));
  }
}

=== FILE: error_handler.dfy ===
/**
 * The Express error middleware (server/middlewares/errorHandler.js): an
 * ordered classification of an error, by its `name` and `code`, into an
 * HTTP status and a response body.
 */
module ErrorHandler {
  import opened Wrappers

  /** The fields of an error object that the middleware reads. */
  datatype Error = Error(
    name: string,
    message: string,
    code: Option<int>,
    // messages of the errors a ValidationError contains, in `Object.values` order
    errors: seq<string>,
    isBusinessError: bool,
    // 0 when the error has none: `err.statusCode || 400` treats both alike
    statusCode: int)

  /** The `error` field of the response body. */
  datatype Kind =
    | DataValidation
    | InvalidIdFormat
    | Conflict
    | UploadFailure
    | SocketFailure
    | InvalidToken
    | ExpiredToken
    | Business(errorName: string)
    | Internal

  datatype Response = Response(status: int, kind: Kind, message: Option<string>, details: Option<seq<string>>)

  const CHECK_ID_MESSAGE := "请检查ID格式是否正确"
  const CONFLICT_MESSAGE := "该记录已存在"
  const LOGIN_AGAIN_MESSAGE := "请重新登录"
  const RETRY_LATER_MESSAGE := "请稍后重试"

  /** Names matched before the business-error test, in the order they are checked. */
  const NAMED_ERRORS: seq<string> :=
    ["ValidationError", "CastError", "MulterError", "SocketError", "JsonWebTokenError", "TokenExpiredError"]

  /** True when some test before the business-error test claims the error. */
  predicate MatchedByName(err: Error) {
    err.name in NAMED_ERRORS || (err.name == "MongoError" && err.code == Some(11000))
  }

  /** `errorHandler(err, req, res, next)`; `development` is `NODE_ENV === 'development'`. */
  function Handle(err: Error, development: bool): (r: Response)
    ensures r.details.Some? <==> err.name == "ValidationError"
    ensures r.message.None? <==> err.name == "ValidationError"
    ensures r.kind.Internal? <==> !MatchedByName(err) && !err.isBusinessError
    ensures r.kind.Business? <==> !MatchedByName(err) && err.isBusinessError
  {
    if err.name == "ValidationError" then
      Response(400, DataValidation, None, Some(err.errors))
    else if err.name == "CastError" then
      Response(400, InvalidIdFormat, Some(CHECK_ID_MESSAGE), None)
    else if err.name == "MongoError" && err.code == Some(11000) then
      Response(409, Conflict, Some(CONFLICT_MESSAGE), None)
    else if err.name == "MulterError" then
      Response(400, UploadFailure, Some(err.message), None)
    else if err.name == "SocketError" then
      Response(400, SocketFailure, Some(err.message), None)
    else if err.name == "JsonWebTokenError" then
      Response(401, InvalidToken, Some(LOGIN_AGAIN_MESSAGE), None)
    else if err.name == "TokenExpiredError" then
      Response(401, ExpiredToken, Some(LOGIN_AGAIN_MESSAGE), None)
    else if err.isBusinessError then
      Response(if err.statusCode != 0 then err.statusCode else 400, Business(err.name), Some(err.message), None)
    else
      Response(500, Internal, Some(if development then err.message else RETRY_LATER_MESSAGE), None)
  }

  /** A validation failure is a 400 whose details list each contained message, in order. */
  lemma ValidationErrorDetails(err: Error, development: bool)
    requires err.name == "ValidationError"
    ensures var r := Handle(err, development);
            && r.status == 400 && r.details.Some?
            && |r.details.value| == |err.errors|
            && forall k :: 0 <= k < |err.errors| ==> r.details.value[k] == err.errors[k]
  {
  }

  /** 409 is answered for exactly the duplicate-key MongoError; other MongoError codes are internal errors. */
  lemma ConflictOnlyForDuplicateKey(err: Error, development: bool)
    ensures Handle(err, development).status == 409 <==>
              (err.name == "MongoError" && err.code == Some(11000)) || (err.isBusinessError && err.statusCode == 409 && !MatchedByName(err))
    ensures err.name == "MongoError" && err.code != Some(11000) && !err.isBusinessError ==> Handle(err, development).status == 500
  {
  }

  /** The fixed statuses of the named errors. */
  lemma NamedStatuses(err: Error, development: bool)
    ensures err.name in {"ValidationError", "CastError", "MulterError", "SocketError"} ==> Handle(err, development).status == 400
    ensures err.name in {"JsonWebTokenError", "TokenExpiredError"} ==> Handle(err, development).status == 401
  {
  }

  /** An error claimed by name is answered the same whatever its business flag and status code say. */
  lemma NameTakesPrecedence(err: Error, development: bool, flag: bool, statusCode: int)
    requires MatchedByName(err)
    ensures Handle(err.(isBusinessError := flag, statusCode := statusCode), development) == Handle(err, development)
  {
  }

  /** An unclaimed business error answers its own status, or 400 when it has none. */
  lemma BusinessStatus(err: Error, development: bool)
    requires err.isBusinessError && !MatchedByName(err)
    ensures Handle(err, development).status == (if err.statusCode == 0 then 400 else err.statusCode)
    ensures Handle(err, development).kind == Business(err.name)
  {
  }

  /** Everything else is a 500 whose message is the error's own only in development. */
  lemma FallbackIsInternal(err: Error, development: bool)
    requires !err.isBusinessError && !MatchedByName(err)
    ensures Handle(err, development).status == 500
    ensures Handle(err, development).message == Some(if development then err.message else RETRY_LATER_MESSAGE)
  {
  }

  /** Every answer is one of the statuses the middleware knows, or a business error's own. */
  lemma StatusRange(err: Error, development: bool)
    ensures var s := Handle(err, development).status;
            s in {400, 401, 409, 500} || (err.isBusinessError && s == err.statusCode)
  {
  }
}

=== FILE: jsvalue.dfy ===
/**
 * JavaScript values as they arrive in request bodies, route parameters and
 * push-channel payloads (parsed JSON, plus `undefined` for a missing
 * property), and the few language operations the handlers apply to them:
 * truthiness, `typeof`, property reads, `===`, `String.prototype.trim`,
 * `parseInt` and number-to-string conversion.
 */
module JsValue {
  import opened Wrappers

  datatype Value =
    | Undefined
    | Null
    | Bool(b: bool)
    | Num(n: real)
    | Str(s: string)
    | Arr(items: seq<Value>)
    | Obj(fields: map<string, Value>)

  /** `!!v`: false, 0, "", null and undefined are falsy; every array and object is truthy. */
  predicate Truthy(v: Value) {
    match v
    case Undefined => false
    case Null => false
    case Bool(b) => b
    case Num(n) => n != 0.0
    case Str(s) => s != ""
    case Arr(_) => true
    case Obj(_) => true
  }

  /** `typeof v === 'object'`, which holds for null and for arrays too. */
  predicate IsObjectType(v: Value) {
    v.Null? || v.Arr? || v.Obj?
  }

  /** `v == null`: reading a property of such a value throws a TypeError. */
  predicate IsNullish(v: Value) {
    v.Undefined? || v.Null?
  }

  /**
   * `v[key]` for a non-nullish `v` and the field names the handlers read:
   * an own field of an object, and `undefined` for every other value.
   */
  function Field(v: Value, key: string): (r: Value)
    ensures !v.Obj? ==> r == Undefined
    ensures v.Obj? && key !in v.fields ==> r == Undefined
  {
    if v.Obj? && key in v.fields then v.fields[key] else Undefined
  }

  /**
   * `a === b` (and `Array.prototype.includes`) for values parsed from
   * different messages: primitives compare by value, while two arrays or
   * objects are never the same reference.
   */
  predicate StrictEquals(a: Value, b: Value) {
    !a.Arr? && !a.Obj? && a == b
  }

  /** The characters ECMAScript's WhiteSpace and LineTerminator productions accept. */
  predicate IsWhitespace(c: char) {
    || c == '\t' || c == '\n' || c == '\U{B}' || c == '\U{C}' || c == '\r' || c == ' '
    || c == '\U{A0}' || c == '\U{1680}' || ('\U{2000}' <= c <= '\U{200A}')
    || c == '\U{2028}' || c == '\U{2029}' || c == '\U{202F}' || c == '\U{205F}'
    || c == '\U{3000}' || c == '\U{FEFF}'
  }

  /** Number of whitespace characters at the start of `s`. */
  function LeadingSpaces(s: string): (n: nat)
    ensures n <= |s|
    ensures forall k :: 0 <= k < n ==> IsWhitespace(s[k])
    ensures n == |s| || !IsWhitespace(s[n])
  {
    if s == [] || !IsWhitespace(s[0]) then 0 else 1 + LeadingSpaces(s[1..])
  }

  /** Number of whitespace characters at the end of `s`. */
  function TrailingSpaces(s: string): (n: nat)
    ensures n <= |s|
    ensures forall k :: |s| - n <= k < |s| ==> IsWhitespace(s[k])
    ensures n == |s| || !IsWhitespace(s[|s| - 1 - n])
  {
    if s == [] || !IsWhitespace(s[|s| - 1]) then 0 else 1 + TrailingSpaces(s[..|s| - 1])
  }

  /** `s.trim()`: the slice of `s` left after dropping whitespace at both ends. */
  function Trim(s: string): (r: string)
    ensures |r| <= |s|
    ensures r == [] <==> forall k :: 0 <= k < |s| ==> IsWhitespace(s[k])
    ensures r != [] ==> !IsWhitespace(r[0]) && !IsWhitespace(r[|r| - 1])
    ensures var i := LeadingSpaces(s);
              i + |r| <= |s| && r == s[i..i + |r|]
              && forall k :: i + |r| <= k < |s| ==> IsWhitespace(s[k])
  {
    var i := LeadingSpaces(s);
    var rest := s[i..];
    var j := TrailingSpaces(rest);
    var r := rest[..|rest| - j];
    assert r == s[i..i + |r|];
    r
  }

  // ---- parseInt(string) with no radix ----

  /** Value of `c` as a digit in base `radix` (10 or 16), or -1 when it is not one. */
  function DigitValue(c: char, radix: int): (d: int)
    ensures -1 <= d < radix || (d == -1)
    ensures radix == 10 ==> (d >= 0 <==> '0' <= c <= '9')
  {
    if '0' <= c <= '9' && (c as int) - ('0' as int) < radix then (c as int) - ('0' as int)
    else if radix == 16 && 'a' <= c <= 'f' then (c as int) - ('a' as int) + 10
    else if radix == 16 && 'A' <= c <= 'F' then (c as int) - ('A' as int) + 10
    else -1
  }

  /** Length of the longest prefix of `s` made of digits in base `radix`. */
  function DigitRun(s: string, radix: int): (n: nat)
    ensures n <= |s|
    ensures forall k :: 0 <= k < n ==> DigitValue(s[k], radix) >= 0
    ensures n == |s| || DigitValue(s[n], radix) < 0
  {
    if s == [] || DigitValue(s[0], radix) < 0 then 0 else 1 + DigitRun(s[1..], radix)
  }

  /** The number written by the digits `ds` in base `radix`, most significant first. */
  function DigitsValue(ds: string, radix: nat): nat
    requires forall k :: 0 <= k < |ds| ==> DigitValue(ds[k], radix) >= 0
  {
    if ds == [] then 0
    else DigitsValue(ds[..|ds| - 1], radix) * radix + DigitValue(ds[|ds| - 1], radix)
  }

  /**
   * The unsigned part of `parseInt`: a `0x`/`0X` prefix selects base 16,
   * otherwise base 10, then the longest run of digits is read; `None`
   * stands for NaN (no digit at all).
   */
  function ParseMagnitude(u: string): Option<nat> {
    var hex := |u| >= 2 && u[0] == '0' && (u[1] == 'x' || u[1] == 'X');
    var radix := if hex then 16 else 10;
    var body := if hex then u[2..] else u;
    var n := DigitRun(body, radix);
    if n == 0 then None
    else Some(DigitsValue(body[..n], radix))
  }

  /**
   * `parseInt(s)` with no radix: skip leading whitespace, read an optional
   * sign, then the magnitude; `None` stands for NaN.
   */
  function ParseInt(s: string): (r: Option<int>)
    ensures (forall k :: 0 <= k < |s| ==> IsWhitespace(s[k])) ==> r.None?
    ensures r.Some? && r.value < 0 ==> '-' in s
  {
    var t := s[LeadingSpaces(s)..];
    var negative := t != [] && t[0] == '-';
    var u := if t != [] && (t[0] == '-' || t[0] == '+') then t[1..] else t;
    match ParseMagnitude(u)
    case None => None
    case Some(m) =>
      var v: int := if negative then 0 - m as int else m;
      Some(v)
  }

  // ---- Number-to-string conversion of integers ----

  /** Decimal digits of `n`, without leading zeros. */
  function NatToString(n: nat): (r: string)
    ensures |r| >= 1
    ensures forall k :: 0 <= k < |r| ==> '0' <= r[k] <= '9'
    ensures r[0] == '0' ==> n == 0
  {
    var last := ['0' + (n % 10) as char];
    if n < 10 then last else NatToString(n / 10) + last
  }

  /** `String(n)` for an integer `n`. */
  function IntToString(n: int): string {
    if n < 0 then "-" + NatToString(-n) else NatToString(n)
  }

  lemma {:induction false} DigitsOfNatToString(n: nat)
    ensures DigitRun(NatToString(n), 10) == |NatToString(n)|
    ensures DigitsValue(NatToString(n), 10) == n
  {
    var s := NatToString(n);
    assert DigitRun(s, 10) == |s| by {
      DigitRunAll(s);
    }
    if n >= 10 {
      DigitsOfNatToString(n / 10);
      assert s[..|s| - 1] == NatToString(n / 10);
    }
  }

  lemma {:induction false} DigitRunAll(s: string)
    requires forall k :: 0 <= k < |s| ==> '0' <= s[k] <= '9'
    ensures DigitRun(s, 10) == |s|
  {
    if s != [] {
      DigitRunAll(s[1..]);
    }
  }

  lemma MagnitudeOfNatToString(m: nat)
    ensures ParseMagnitude(NatToString(m)) == Some(m)
  {
    var u := NatToString(m);
    DigitsOfNatToString(m);
    assert !(|u| >= 2 && u[0] == '0') by {
      if u[0] == '0' {
        assert m == 0;
      }
    }
    assert u[..|u|] == u;
  }

  /** Reading back a written integer with `parseInt` gives the integer: the two conversions round-trip. */
  lemma ParseIntOfIntToString(n: int)
    ensures ParseInt(IntToString(n)) == Some(n)
  {
    var s := IntToString(n);
    var m: nat := if n < 0 then -n else n;
    var digits := NatToString(m);
    MagnitudeOfNatToString(m);
    assert s[0] == '-' || '0' <= s[0] <= '9';
    assert LeadingSpaces(s) == 0;
    var t := s[LeadingSpaces(s)..];
    assert t == s;
    var u := if t != [] && (t[0] == '-' || t[0] == '+') then t[1..] else t;
    assert u == digits;
  }
}

=== FILE: push_channel.dfy ===
/**
 * The push channel of server.js: the handshake that binds a connection to
 * the `sessionId` of its query, the per-event gate that drops every event
 * naming another session, room membership, the relay of client events to
 * the rest of a room, the in-memory cache of the 20 most recent rolls per
 * session (independent of the durable `diceHistory`), and the
 * `reorder-monsters` write that bypasses the schema validators.
 */
module PushChannel {
  import opened Wrappers
  import opened JsValue
  import opened SessionModel
  import Casting

  /** A connection's `socket.id`. */
  type ConnId = nat

  /** How many rolls the cache keeps per session. */
  const CACHE_LIMIT: nat := 20

  /** The stand-in name of a dice player who sent none. */
  const UNKNOWN_PLAYER: string := "未知玩家"

  /** `socket.handshake.query.sessionId`: absent, given once, or repeated. */
  datatype QueryParam = Absent | One(s: string) | Many(ss: seq<string>)

  /** The query parameter as the handler sees it: a repeated parameter arrives as an array. */
  function BoundValue(q: QueryParam): (v: Value)
    ensures q.Absent? <==> v.Undefined?
    ensures q.Many? ==> v.Arr? && |v.items| == |q.ss|
  {
    match q
    case Absent => Undefined
    case One(s) => Str(s)
    case Many(ss) => Arr(seq(|ss|, k requires 0 <= k < |ss| => Str(ss[k])))
  }

  /**
   * The variables of one connection's closure: the bound `socket.sessionId`,
   * `joinedDiceSession` and `playerName` (both `null` until the connection
   * joins a dice session).
   */
  datatype Connection = Connection(bound: QueryParam, joinedDice: Option<string>, playerName: Option<Value>)

  /** One emit: the connections it reaches, the event name and the payload (`Undefined` for none). */
  datatype Delivery = Delivery(to: set<ConnId>, event: string, payload: Value)

  /**
   * `data && data.sessionId === socket.sessionId`, the gate of every
   * session-scoped event; when it holds, the room the event is about.
   */
  function Admitted(data: Value, bound: QueryParam): (room: Option<string>)
    requires !bound.Absent?
    ensures room.Some? <==> Truthy(data) && StrictEquals(Field(data, "sessionId"), BoundValue(bound))
    ensures room.Some? ==> bound == One(room.value) && Field(data, "sessionId") == Str(room.value)
  {
    if Truthy(data) && bound.One? && Field(data, "sessionId") == Str(bound.s) then Some(bound.s) else None
  }

  /** A connection whose query repeated `sessionId` is bound to an array and passes no gate. */
  lemma RepeatedQueryPassesNoGate(data: Value, ss: seq<string>)
    ensures Admitted(data, Many(ss)).None?
    ensures !StrictEquals(Field(data, "sessionId"), BoundValue(Many(ss)))
  {
  }

  /** `socket.to(room)`: every member of the room except the sender. */
  function Audience(rooms: map<string, set<ConnId>>, room: string, sender: ConnId): (to: set<ConnId>)
    ensures sender !in to
    ensures forall c :: c in to <==> room in rooms && c in rooms[room] && c != sender
  {
    if room in rooms then rooms[room] - {sender} else {}
  }

  /** The members of a room, none when it does not exist yet. */
  function Members(rooms: map<string, set<ConnId>>, room: string): set<ConnId> {
    if room in rooms then rooms[room] else {}
  }

  // ---- Events relayed unchanged in state ----

  /** The events the server only passes on to the rest of the room. */
  datatype RelayEvent =
    | UpdateMonster(data: Value)
    | DeleteMonster(data: Value)
    | SessionUpdate(data: Value)
    | UpdateDiceState(data: Value)
    | PieceMoved(data: Value)
    | BackgroundUpdated(data: Value)
    | SettingsUpdated(data: Value)
    | StateUpdated(data: Value)

  /** The event name each relay is emitted under. */
  function RelayName(ev: RelayEvent): string {
    match ev
    case UpdateMonster(_) => "monster-updated"
    case DeleteMonster(_) => "delete-monster"
    case SessionUpdate(_) => "session-updated"
    case UpdateDiceState(_) => "dice-state-updated"
    case PieceMoved(_) => "piece-moved"
    case BackgroundUpdated(_) => "background-updated"
    case SettingsUpdated(_) => "battlefield-settings-updated"
    case StateUpdated(_) => "battlefield-state-updated"
  }

  /**
   * The payload a relay event forwards, or `None` when the event lacks the
   * field its handler requires (a falsy `monster`, `monsterId`, `data`,
   * `diceState`, `imageUrl`, `settings` or `state`; for a moved piece a
   * falsy `pieceId` or an undefined coordinate).
   */
  function Forwarded(ev: RelayEvent): (r: Option<Value>)
    ensures !ev.PieceMoved? ==> (r.Some? <==> Truthy(Field(ev.data, PayloadKey(ev))))
    ensures ev.PieceMoved? ==> (r.Some? <==>
      Truthy(Field(ev.data, "pieceId")) && !Field(ev.data, "x").Undefined? && !Field(ev.data, "y").Undefined?)
    ensures r.Some? && (ev.UpdateMonster? || ev.SessionUpdate? || ev.UpdateDiceState? || ev.SettingsUpdated?) ==>
      r.value == Field(ev.data, PayloadKey(ev))
    ensures r.Some? && (ev.DeleteMonster? || ev.BackgroundUpdated? || ev.StateUpdated?) ==>
      r.value == Obj(map[PayloadKey(ev) := Field(ev.data, PayloadKey(ev))])
  {
    var d := ev.data;
    match ev
    case PieceMoved(_) =>
      if Truthy(Field(d, "pieceId")) && !Field(d, "x").Undefined? && !Field(d, "y").Undefined? then
        Some(Obj(map["pieceId" := Field(d, "pieceId"), "x" := Field(d, "x"), "y" := Field(d, "y")]))
      else None
    case _ =>
      var v := Field(d, PayloadKey(ev));
      if !Truthy(v) then None
      else if ev.DeleteMonster? || ev.BackgroundUpdated? || ev.StateUpdated? then Some(Obj(map[PayloadKey(ev) := v]))
      else Some(v)
  }

  /** The field of `data` each relay event requires. */
  function PayloadKey(ev: RelayEvent): string {
    match ev
    case UpdateMonster(_) => "monster"
    case DeleteMonster(_) => "monsterId"
    case SessionUpdate(_) => "data"
    case UpdateDiceState(_) => "diceState"
    case PieceMoved(_) => "pieceId"
    case BackgroundUpdated(_) => "imageUrl"
    case SettingsUpdated(_) => "settings"
    case StateUpdated(_) => "state"
  }

  /** A piece at the origin is still relayed: only an undefined coordinate stops the event. */
  lemma PieceAtOriginRelayed(id: string)
    requires id != ""
    ensures Forwarded(PieceMoved(Obj(map["pieceId" := Str(id), "x" := Num(0.0), "y" := Null]))).Some?
  {
    var d := Obj(map["pieceId" := Str(id), "x" := Num(0.0), "y" := Null]);
    assert Field(d, "pieceId") == Str(id) && Field(d, "x") == Num(0.0) && Field(d, "y") == Null;
  }

  // ---- The roll cache ----

  /** The newest `CACHE_LIMIT` entries of a run of rolls, in roll order. */
  function Latest(rolls: seq<Value>): (r: seq<Value>)
    ensures |r| == if |rolls| < CACHE_LIMIT then |rolls| else CACHE_LIMIT
    ensures r == rolls[|rolls| - |r|..]
  {
    if |rolls| <= CACHE_LIMIT then rolls else rolls[|rolls| - CACHE_LIMIT..]
  }

  /**
   * One `roll-dice` on a cache entry: drop the oldest when the entry is
   * full (`shift`), then append (`push`).
   */
  function Pushed(entry: seq<Value>, roll: Value): (r: seq<Value>)
    ensures |entry| <= CACHE_LIMIT ==> |r| <= CACHE_LIMIT && r == Latest(entry + [roll])
    ensures |r| > 0 && r[|r| - 1] == roll
  {
    if |entry| >= CACHE_LIMIT then entry[1..] + [roll] else entry + [roll]
  }

  /** The entry of a session that has seen exactly these rolls since the server started. */
  function CacheAfter(rolls: seq<Value>): seq<Value> {
    if rolls == [] then [] else Pushed(CacheAfter(rolls[..|rolls| - 1]), rolls[|rolls| - 1])
  }

  /** Keeping the newest entries after each roll keeps the newest entries of the whole run. */
  lemma LatestSnoc(rolls: seq<Value>, roll: Value)
    ensures Latest(Latest(rolls) + [roll]) == Latest(rolls + [roll])
  {
  }

  /** The cache holds the newest `min(n, 20)` rolls, in roll order. */
  lemma {:induction false} CacheHoldsLatest(rolls: seq<Value>)
    ensures CacheAfter(rolls) == Latest(rolls)
  {
    if rolls != [] {
      var front, last := rolls[..|rolls| - 1], rolls[|rolls| - 1];
      assert rolls == front + [last];
      CacheHoldsLatest(front);
      LatestSnoc(front, last);
    }
  }

  /** After 21 rolls into a fresh session the cache is rolls 2 to 21. */
  lemma TwentyOneRolls(rolls: seq<Value>)
    requires |rolls| == 21
    ensures CacheAfter(rolls) == rolls[1..]
  {
    CacheHoldsLatest(rolls);
  }

  /**
   * The names every plain object answers to through `Object.prototype`.
   * The cache in server.js is such an object, so a lookup under one of
   * these names finds an inherited member even when the cache has no
   * entry of that name.
   */
  const INHERITED_NAMES: set<string> := {
    "constructor", "__proto__", "toString", "toLocaleString", "valueOf", "hasOwnProperty",
    "isPrototypeOf", "propertyIsEnumerable", "__defineGetter__", "__defineSetter__",
    "__lookupGetter__", "__lookupSetter__"}

  /**
   * `diceSessionHistory[room]` on that plain object: an own entry, an
   * inherited member (a function, or the prototype itself for
   * `__proto__`: truthy, and not an array), or nothing.
   */
  datatype CacheSlot = Own(rolls: seq<Value>) | InheritedMember | NoEntry

  function SlotOf(cache: map<string, seq<Value>>, room: string): (slot: CacheSlot)
    ensures slot.Own? <==> room in cache
    ensures slot.Own? ==> slot.rolls == cache[room]
    ensures slot.InheritedMember? <==> room !in cache && room in INHERITED_NAMES
  {
    if room in cache then Own(cache[room])
    else if room in INHERITED_NAMES then InheritedMember
    else NoEntry
  }

  /**
   * The cache after an admitted `roll-dice`, as server.js:166-175 is
   * written, or `None` when the listener throws: an inherited member is
   * truthy, so no entry is created for it, and it has no `push`.
   */
  function RollAsWritten(cache: map<string, seq<Value>>, room: string, roll: Value): (r: Option<map<string, seq<Value>>>)
    ensures r.None? <==> room !in cache && room in INHERITED_NAMES
    ensures r.Some? ==> r.value.Keys == cache.Keys + {room}
    ensures r.Some? ==> r.value[room] == Pushed(if room in cache then cache[room] else [], roll)
    ensures r.Some? ==> forall k :: k in cache && k != room ==> r.value[k] == cache[k]
  {
    match SlotOf(cache, room)
    case Own(rolls) => Some(cache[room := Pushed(rolls, roll)])
    case InheritedMember => None
    case NoEntry => Some(cache[room := Pushed([], roll)])
  }

  /**
   * A roll into a session named `constructor` (a valid session id) throws
   * as written, while every session gets its own entry in `Hub.RollDice`.
   */
  lemma ConstructorRoomRollThrows(cache: map<string, seq<Value>>, roll: Value)
    requires "constructor" !in cache
    ensures RollAsWritten(cache, "constructor", roll).None?
    ensures ValidSessionId("constructor")
  {
  }

  // ---- `reorder-monsters` persistence ----

  /**
   * `findOneAndUpdate({sessionId}, {monsterOrder: order, lastUpdated})`
   * without `runValidators` and without upsert: an unknown session, or an
   * order that does not cast to strings, leaves the store as it was (the
   * failure is only logged).
   */
  function PersistOrder(store: map<string, Session>, room: string, order: Value, now: int): (r: map<string, Session>)
    ensures r.Keys == store.Keys
    ensures forall k :: k in store && k != room ==> r[k] == store[k]
    ensures room in store && order.Arr? && Casting.DecodeStrings(order.items).Some? ==>
      r[room] == store[room].(monsterOrder := Casting.DecodeStrings(order.items).value, lastUpdated := now)
    ensures !(order.Arr? && Casting.DecodeStrings(order.items).Some?) ==> r == store
  {
    if room in store && order.Arr? then
      match Casting.DecodeStrings(order.items)
      case Some(ids) => store[room := store[room].(monsterOrder := ids, lastUpdated := now)]
      case None => store
    else store
  }

  const GHOST_ORDER_SESSION: Session :=
    Session("table-1", [Monster("g1", "Goblin", 7.0, 7.0, 0.0, [], 0.0, false)], ["g1"], DEFAULT_BATTLEFIELD, [], 0)

  /**
   * The persisted order is not checked against the monsters: an order naming
   * a monster that does not exist is stored, and so is an empty id that the
   * schema forbids.
   */
  lemma ReorderSkipsOrderCheck()
    ensures ValidSession(GHOST_ORDER_SESSION) && OrderReferencesMonsters(GHOST_ORDER_SESSION)
    ensures !OrderReferencesMonsters(PersistOrder(map["table-1" := GHOST_ORDER_SESSION], "table-1", Arr([Str("ghost")]), 1)["table-1"])
    ensures !ValidSession(PersistOrder(map["table-1" := GHOST_ORDER_SESSION], "table-1", Arr([Str("")]), 1)["table-1"])
  {
    var ghost_ := [Str("ghost")];
    var blank := [Str("")];
    assert ghost_[1..] == [] && blank[1..] == [];
    assert Casting.DecodeStrings([]) == Some([]);
    assert ["ghost"] + [] == ["ghost"] && [""] + [] == [""];
    assert Casting.DecodeStrings(ghost_) == Some(["ghost"]);
    assert Casting.DecodeStrings(blank) == Some([""]);
    var s := PersistOrder(map["table-1" := GHOST_ORDER_SESSION], "table-1", Arr([Str("ghost")]), 1)["table-1"];
    assert s.monsterOrder[0] == "ghost";
    assert s.monsters[0].id == "g1";
  }

  /**
   * The server's push-channel state: the connections with their closure
   * variables, room membership, the roll cache, and the session store the
   * `reorder-monsters` handler writes to.
   */
  class Hub {
    var conns: map<ConnId, Connection>
    var rooms: map<string, set<ConnId>>
    var rollCache: map<string, seq<Value>>
    var store: map<string, Session>

    /**
     * Only handshaken connections exist, rooms hold only live connections,
     * and no cache entry exceeds the limit.
     */
    predicate Valid()
      reads this
    {
      && (forall c :: c in conns ==> Truthy(BoundValue(conns[c].bound)))
      && (forall r :: r in rooms ==> rooms[r] <= conns.Keys)
      && (forall r :: r in rollCache ==> |rollCache[r]| <= CACHE_LIMIT)
    }

    constructor (store: map<string, Session>)
      ensures Valid()
      ensures conns == map[] && rooms == map[] && rollCache == map[] && this.store == store
    {
      conns := map[];
      rooms := map[];
      rollCache := map[];
      this.store := store;
    }

    /** The handshake middleware: a falsy `sessionId` refuses the connection. */
    method Connect(id: ConnId, query: QueryParam) returns (accepted: bool)
      requires Valid() && id !in conns
      modifies this
      ensures Valid()
      ensures accepted <==> Truthy(BoundValue(query))
      ensures accepted ==> conns == old(conns)[id := Connection(query, None, None)]
      ensures !accepted ==> conns == old(conns)
      ensures rooms == old(rooms) && rollCache == old(rollCache) && store == old(store)
    {
      accepted := Truthy(BoundValue(query));
      if accepted {
        conns := conns[id := Connection(query, None, None)];
      }
    }

    /** `join-session` and `join-battlefield`: join the room named by the bound id, nothing otherwise. */
    method JoinRoom(id: ConnId, sessionId: Value)
      requires Valid() && id in conns
      modifies this
      ensures Valid()
      ensures StrictEquals(sessionId, BoundValue(old(conns[id].bound))) ==>
        rooms == old(rooms)[sessionId.s := Members(old(rooms), sessionId.s) + {id}]
      ensures !StrictEquals(sessionId, BoundValue(old(conns[id].bound))) ==> rooms == old(rooms)
      ensures conns == old(conns) && rollCache == old(rollCache) && store == old(store)
    {
      if StrictEquals(sessionId, BoundValue(conns[id].bound)) {
        rooms := rooms[sessionId.s := Members(rooms, sessionId.s) + {id}];
      }
    }

    /** The events that only relay: to the rest of the room when admitted, nowhere otherwise. */
    method Relay(id: ConnId, ev: RelayEvent) returns (out: seq<Delivery>)
      requires Valid() && id in conns
      ensures Admitted(ev.data, conns[id].bound).None? || Forwarded(ev).None? ==> out == []
      ensures Admitted(ev.data, conns[id].bound).Some? && Forwarded(ev).Some? ==>
        out == [Delivery(Audience(rooms, Admitted(ev.data, conns[id].bound).value, id), RelayName(ev), Forwarded(ev).value)]
    {
      var room := Admitted(ev.data, conns[id].bound);
      var payload := Forwarded(ev);
      if room.None? || payload.None? {
        return [];
      }
      out := [Delivery(Audience(rooms, room.value, id), RelayName(ev), payload.value)];
    }

    /**
     * `join-dice-session`: record the joined session and player name, join
     * the room, and replay the session's cache entry, if there is one (even
     * an empty one), to the joiner alone.
     */
    method JoinDiceSession(id: ConnId, data: Value) returns (out: seq<Delivery>)
      requires Valid() && id in conns
      modifies this
      ensures Valid()
      ensures Admitted(data, old(conns[id].bound)).None? ==>
        conns == old(conns) && rooms == old(rooms) && out == []
      ensures Admitted(data, old(conns[id].bound)).Some? ==>
        var room := Admitted(data, old(conns[id].bound)).value;
        var name := if Truthy(Field(data, "playerName")) then Field(data, "playerName") else Str(UNKNOWN_PLAYER);
        && conns == old(conns)[id := old(conns[id]).(joinedDice := Some(room), playerName := Some(name))]
        && rooms == old(rooms)[room := Members(old(rooms), room) + {id}]
        && out == if room in rollCache then [Delivery({id}, "roll-history-sync", Arr(rollCache[room]))] else []
      ensures rollCache == old(rollCache) && store == old(store)
    {
      var room := Admitted(data, conns[id].bound);
      if room.None? {
        return [];
      }
      var s := room.value;
      var name := if Truthy(Field(data, "playerName")) then Field(data, "playerName") else Str(UNKNOWN_PLAYER);
      conns := conns[id := conns[id].(joinedDice := Some(s), playerName := Some(name))];
      rooms := rooms[s := Members(rooms, s) + {id}];
      out := [];
      if s in rollCache {
        out := [Delivery({id}, "roll-history-sync", Arr(rollCache[s]))];
      }
    }

    /**
     * `roll-dice`: an admitted roll with a truthy `rollData` goes into the
     * session's cache entry (created empty when missing) and is relayed.
     */
    method RollDice(id: ConnId, data: Value) returns (out: seq<Delivery>)
      requires Valid() && id in conns
      modifies this
      ensures Valid()
      ensures Admitted(data, old(conns[id].bound)).None? || !Truthy(Field(data, "rollData")) ==>
        rollCache == old(rollCache) && out == []
      ensures Admitted(data, old(conns[id].bound)).Some? && Truthy(Field(data, "rollData")) ==>
        var room := Admitted(data, old(conns[id].bound)).value;
        var entry := if room in old(rollCache) then old(rollCache[room]) else [];
        && rollCache == old(rollCache)[room := Pushed(entry, Field(data, "rollData"))]
        && out == [Delivery(Audience(rooms, room, id), "dice-rolled", Field(data, "rollData"))]
      ensures conns == old(conns) && rooms == old(rooms) && store == old(store)
    {
      var room := Admitted(data, conns[id].bound);
      var roll := Field(data, "rollData");
      if room.None? || !Truthy(roll) {
        return [];
      }
      var s := room.value;
      var entry := if s in rollCache then rollCache[s] else [];
      ghost var before := entry;
      if |entry| >= CACHE_LIMIT {
        entry := entry[1..];
      }
      entry := entry + [roll];
      assert entry == Pushed(before, roll);
      rollCache := rollCache[s := entry];
      out := [Delivery(Audience(rooms, s, id), "dice-rolled", roll)];
    }

    /**
     * `reset-dice`: an admitted reset empties the session's cache entry if
     * it has one, never creates one, and is relayed without a payload.
     */
    method ResetDice(id: ConnId, data: Value) returns (out: seq<Delivery>)
      requires Valid() && id in conns
      modifies this
      ensures Valid()
      ensures Admitted(data, old(conns[id].bound)).None? ==> rollCache == old(rollCache) && out == []
      ensures Admitted(data, old(conns[id].bound)).Some? ==>
        var room := Admitted(data, old(conns[id].bound)).value;
        && rollCache.Keys == old(rollCache).Keys
        && (room in rollCache ==> rollCache[room] == [])
        && (forall r :: r in rollCache && r != room ==> rollCache[r] == old(rollCache[r]))
        && out == [Delivery(Audience(rooms, room, id), "reset-dice", Undefined)]
      ensures conns == old(conns) && rooms == old(rooms) && store == old(store)
    {
      var room := Admitted(data, conns[id].bound);
      if room.None? {
        return [];
      }
      var s := room.value;
      if s in rollCache {
        rollCache := rollCache[s := []];
      }
      out := [Delivery(Audience(rooms, s, id), "reset-dice", Undefined)];
    }

    /**
     * `reorder-monsters`: an admitted event with a truthy `order` is relayed
     * as `{order}` and written to the store as it is.
     */
    method ReorderMonsters(id: ConnId, data: Value, now: int) returns (out: seq<Delivery>)
      requires Valid() && id in conns
      modifies this
      ensures Valid()
      ensures Admitted(data, old(conns[id].bound)).None? || !Truthy(Field(data, "order")) ==>
        store == old(store) && out == []
      ensures Admitted(data, old(conns[id].bound)).Some? && Truthy(Field(data, "order")) ==>
        var room := Admitted(data, old(conns[id].bound)).value;
        && store == PersistOrder(old(store), room, Field(data, "order"), now)
        && out == [Delivery(Audience(rooms, room, id), "monsters-reordered", Obj(map["order" := Field(data, "order")]))]
      ensures conns == old(conns) && rooms == old(rooms) && rollCache == old(rollCache)
    {
      var room := Admitted(data, conns[id].bound);
      var order := Field(data, "order");
      if room.None? || !Truthy(order) {
        return [];
      }
      out := [Delivery(Audience(rooms, room.value, id), "monsters-reordered", Obj(map["order" := order]))];
      store := PersistOrder(store, room.value, order, now);
    }

    /**
     * `disconnect`: the connection's closure, with its `joinedDiceSession`,
     * goes away and the connection leaves every room; the roll cache
     * outlives it.
     */
    method Disconnect(id: ConnId)
      requires Valid() && id in conns
      modifies this
      ensures Valid()
      ensures conns == old(conns) - {id}
      ensures rooms.Keys == old(rooms).Keys && forall r :: r in rooms ==> rooms[r] == old(rooms[r]) - {id}
      ensures rollCache == old(rollCache) && store == old(store)
    {
      conns := conns - {id};
      rooms := map r | r in rooms :: rooms[r] - {id};
    }
  }
}

=== FILE: route_common.dfy ===
/**
 * What the three REST routers share: the session store they update, the
 * verdict of a validation middleware, the shape of a reply, the room
 * broadcast a handler issues, and the session-id guard every route runs
 * first (server/routes/battles.js, battlefield.js and dice.js each carry an
 * identical copy of it).
 */
module RouteCommon {
  import opened Wrappers
  import opened JsValue
  import opened SessionModel
  import ErrorHandler

  /** The persistent session store, keyed by session id. */
  type Store = map<string, Session>

  /** Every stored record sits under its own id and satisfies the schema. */
  predicate StoreValid(store: Store) {
    forall k :: k in store ==> store[k].sessionId == k && ValidSession(store[k])
  }

  /** Storing a valid record under its own id keeps the store valid. */
  lemma ReplaceKeepsStoreValid(store: Store, id: string, saved: Session)
    requires StoreValid(store)
    requires saved.sessionId == id && ValidSession(saved)
    ensures StoreValid(store[id := saved])
  {
  }

  /** The first check a validation middleware found failing. */
  datatype Reason =
    | InvalidSessionId
    | MonstersNotArray | OrderNotArray | MonsterMissingField | OrderUnknownId
    | BattlefieldNotObject | PiecesNotArray | PieceMissingField | InvalidPieceHp
    | SettingsNotObject | InvalidGridSize | InvalidShowGrid
    | InvalidPlayerName | RollDataNotObject | InvalidDiceList | InvalidDie
    | NoFileUploaded

  /**
   * A validation middleware's verdict: call `next()`, answer 400 with a
   * reason, or throw (`Crash`: reading a field of a null array element).
   */
  datatype Verdict = Pass | Fail(reason: Reason) | Crash

  /** The error a validator throws when it reads a field of `null`. */
  const NULL_ELEMENT_ERROR: ErrorHandler.Error :=
    ErrorHandler.Error("TypeError", "Cannot read properties of null", None, [], false, 0)

  /** The body of a reply carrying data of type `D`. */
  datatype Body<D> =
    | Data(data: D)
    | Done
    | Rejected(reason: Reason)
    | NotFound
    // a schema validator failed inside the store call (`error.name === 'ValidationError'`)
    | SchemaViolation
    // any other error caught by the handler
    | ServerError
    // an error thrown before the handler, answered by the error middleware
    | Unhandled(error: ErrorHandler.Error)

  datatype Reply<D> = Reply(status: int, body: Body<D>)

  /** What an `io.to(room).emit(event, payload)` carries. */
  datatype Payload =
    | MonstersPayload(monsters: seq<Monster>, monsterOrder: seq<string>)
    | BattlefieldPayload(battlefield: Battlefield)
    | SettingsPayload(settings: Settings)
    | PiecesPayload(pieces: seq<Piece>)
    | ImagePayload(imageUrl: string)
    | RollPayload(record: RollRecord)
    | NoPayload

  /** A broadcast to every member of a room, the originator included. */
  datatype Notice = Notice(room: string, event: string, payload: Payload)

  /** The effect of one request: the store afterwards, the reply, and the broadcast if any. */
  datatype Outcome<D> = Outcome(store: Store, reply: Reply<D>, notice: Option<Notice>)

  /** The reply for a verdict other than `Pass`. */
  function Refusal<D>(v: Verdict): (r: Reply<D>)
    requires !v.Pass?
    ensures v.Fail? ==> r == Reply(400, Rejected(v.reason))
    ensures v.Crash? ==> r.status == ErrorHandler.Handle(NULL_ELEMENT_ERROR, false).status
  {
    if v.Fail? then Reply(400, Rejected(v.reason)) else Reply(500, Unhandled(NULL_ELEMENT_ERROR))
  }

  /** A thrown TypeError is a 500 in every environment. */
  lemma CrashIsInternalError(development: bool)
    ensures ErrorHandler.Handle(NULL_ELEMENT_ERROR, development).status == 500
  {
  }

  /** `validateSessionId`: a present id of 3 to 50 characters. */
  function ValidateSessionId(id: string): (v: Verdict)
    ensures v.Pass? || v == Fail(InvalidSessionId)
    ensures v.Pass? <==> 3 <= |id| <= 50
  {
    if id == [] || |id| < 3 || |id| > 50 then Fail(InvalidSessionId) else Pass
  }

  /** The route guard accepts exactly the ids the schema accepts. */
  lemma SessionIdGuardMatchesSchema(id: string)
    ensures ValidateSessionId(id).Pass? <==> ValidSessionId(id)
    ensures ValidateSessionId(id).Pass? <==> 3 <= |id| <= 50
  {
  }

  // ---- The `for (const x of xs) { if (...) return res.status(400)...; }` scan ----

  /** How one element fares: a null element throws, any other is judged by `check`. */
  function ElementVerdict(v: Value, check: Value -> Verdict): Verdict {
    if IsNullish(v) then Crash else check(v)
  }

  /**
   * Runs `check` over `vs` from the first element on and stops at the first
   * element that does not pass: its verdict is the scan's.
   */
  function Scan(vs: seq<Value>, check: Value -> Verdict): (r: Verdict)
    ensures r.Pass? <==> forall k :: 0 <= k < |vs| ==> ElementVerdict(vs[k], check).Pass?
    ensures !r.Pass? ==>
      exists k :: 0 <= k < |vs| && r == ElementVerdict(vs[k], check)
        && forall j :: 0 <= j < k ==> ElementVerdict(vs[j], check).Pass?
  {
    if vs == [] then Pass
    else
      var first := ElementVerdict(vs[0], check);
      if !first.Pass? then first
      else
        var rest := Scan(vs[1..], check);
        if !rest.Pass? then
          ghost var k :| 0 <= k < |vs| - 1 && rest == ElementVerdict(vs[1..][k], check)
                         && forall j :: 0 <= j < k ==> ElementVerdict(vs[1..][j], check).Pass?;
          assert rest == ElementVerdict(vs[k + 1], check);
          rest
        else rest
  }

  /** The scan's verdict is never a failure that `check` cannot give. */
  lemma ScanVerdicts(vs: seq<Value>, check: Value -> Verdict, reasons: set<Reason>)
    requires forall v :: check(v).Pass? || (check(v).Fail? && check(v).reason in reasons)
    ensures var r := Scan(vs, check); r.Pass? || r.Crash? || (r.Fail? && r.reason in reasons)
  {
    var r := Scan(vs, check);
    if r.Fail? {
      var k :| 0 <= k < |vs| && r == ElementVerdict(vs[k], check);
      assert r == check(vs[k]);
    }
  }
}

=== FILE: seqs.dfy ===
/**
 * Sequence and dictionary helpers shared by the model: JavaScript's
 * `Array.prototype.filter` and `findIndex`, and the `counts[k] = (counts[k] || 0) + 1`
 * counting idiom over a plain object used as a dictionary.
 */
module Seqs {
  import opened Wrappers

  /** `findIndex`: the index of the first element that satisfies `p`, if any. */
  function FindFirst<T>(s: seq<T>, p: T -> bool): (r: Option<nat>)
    ensures r.None? <==> forall k :: 0 <= k < |s| ==> !p(s[k])
    ensures r.Some? ==> r.value < |s| && p(s[r.value]) && forall k :: 0 <= k < r.value ==> !p(s[k])
  {
    if s == [] then None
    else if p(s[0]) then Some(0)
    else match FindFirst(s[1..], p)
      case None => None
      case Some(k) => Some(k + 1)
  }

  /** The elements of `s` that satisfy `keep`, in their original order. */
  function Filter<T>(s: seq<T>, keep: T -> bool): (r: seq<T>)
    ensures |r| <= |s|
    ensures forall x :: x in r ==> x in s && keep(x)
    ensures forall x :: x in s && keep(x) ==> x in r
  {
    if s == [] then []
    else (if keep(s[0]) then [s[0]] else []) + Filter(s[1..], keep)
  }

  /** Filtering distributes over concatenation: relative order is kept. */
  lemma {:induction false} FilterAppend<T>(a: seq<T>, b: seq<T>, keep: T -> bool)
    ensures Filter(a + b, keep) == Filter(a, keep) + Filter(b, keep)
  {
    if a == [] {
      assert a + b == b;
    } else {
      assert (a + b)[1..] == a[1..] + b;
      FilterAppend(a[1..], b, keep);
    }
  }

  /** A filter that keeps nothing leaves nothing. */
  lemma {:induction false} FilterNone<T>(s: seq<T>, keep: T -> bool)
    requires forall x :: !keep(x)
    ensures Filter(s, keep) == []
  {
    if s != [] {
      FilterNone(s[1..], keep);
    }
  }

  /** Filtering a sequence whose every element is kept changes nothing. */
  lemma {:induction false} FilterKeepsAll<T>(s: seq<T>, keep: T -> bool)
    requires forall i :: 0 <= i < |s| ==> keep(s[i])
    ensures Filter(s, keep) == s
  {
    if s != [] {
      FilterKeepsAll(s[1..], keep);
    }
  }

  /** Filtering keeps the number of occurrences of each kept element. */
  lemma {:induction false} FilterCounts<T>(s: seq<T>, keep: T -> bool, x: T)
    ensures multiset(Filter(s, keep))[x] == if keep(x) then multiset(s)[x] else 0
  {
    if s != [] {
      FilterCounts(s[1..], keep, x);
      assert s == [s[0]] + s[1..];
      assert multiset(s) == multiset([s[0]]) + multiset(s[1..]);
    }
  }

  /** One more occurrence of `k` in a counting dictionary. */
  function Inc<K>(m: map<K, nat>, k: K): (r: map<K, nat>)
    ensures r.Keys == m.Keys + {k}
    ensures r[k] == (if k in m then m[k] else 0) + 1
    ensures forall j :: j in m && j != k ==> r[j] == m[j]
  {
    m[k := if k in m then m[k] + 1 else 1]
  }

  /** The dictionary obtained by counting every element of `ks`, left to right. */
  function Tally<K>(ks: seq<K>): (m: map<K, nat>)
    ensures forall k :: k in m ==> k in ks
    ensures forall k :: k in ks ==> k in m
  {
    if ks == [] then map[] else Inc(Tally(ks[..|ks| - 1]), ks[|ks| - 1])
  }

  /** Counting one more key adds one to that key's count. */
  lemma TallySnoc<K>(ks: seq<K>, k: K)
    ensures Tally(ks + [k]) == Inc(Tally(ks), k)
  {
    assert (ks + [k])[..|ks|] == ks;
  }

  /** Each entry of a tally is the number of occurrences of its key. */
  lemma {:induction false} TallyCounts<K>(ks: seq<K>, k: K)
    requires k in ks
    ensures Tally(ks)[k] == multiset(ks)[k]
  {
    var n := |ks|;
    var init := ks[..n - 1];
    assert ks == init + [ks[n - 1]];
    assert multiset(ks) == multiset(init) + multiset([ks[n - 1]]);
    if k in init {
      TallyCounts(init, k);
    } else {
      assert multiset(init)[k] == 0;
    }
  }

  /** Sum of the values of a dictionary of counts. */
  ghost function SumValues<K>(m: map<K, nat>): nat
    decreases |m|
  {
    if |m| == 0 then 0
    else
      var k :| k in m;
      assert (m - {k}).Keys == m.Keys - {k};
      m[k] + SumValues(m - {k})
  }

  /** Removing two distinct keys, in either order, from a dictionary. */
  lemma RemoveTwoKeys<K>(m: map<K, nat>, j: K, k: K)
    requires j in m && k in m && j != k
    ensures |m - {j}| < |m| && k in m - {j} && (m - {j})[k] == m[k]
    ensures |m - {k}| < |m| && j in m - {k} && (m - {k})[j] == m[j]
    ensures m - {j} - {k} == m - {k} - {j}
  {
    assert (m - {j}).Keys == m.Keys - {j};
    assert (m - {k}).Keys == m.Keys - {k};
  }

  /** The key that the definition of `SumValues` takes out first. */
  lemma FirstSummedKey<K>(m: map<K, nat>, k: K) returns (j: K)
    requires k in m
    ensures j in m && SumValues(m) == m[j] + SumValues(m - {j})
  {
    assert |m| != 0 by { assert k in m.Keys; }
    j :| j in m && SumValues(m) == m[j] + SumValues(m - {j});
  }

  /** The sum does not depend on which key is taken out first. */
  lemma {:induction false} SumValuesRemove<K>(m: map<K, nat>, k: K)
    requires k in m
    ensures SumValues(m) == m[k] + SumValues(m - {k})
    decreases |m|
  {
    var j := FirstSummedKey(m, k);
    if j != k {
      RemoveTwoKeys(m, j, k);
      var mj, mk := m - {j}, m - {k};
      SumValuesRemove(mj, k);
      SumValuesRemove(mk, j);
      assert SumValues(mj - {k}) == SumValues(mk - {j});
    }
  }

  /** Counting one more element adds one to the sum. */
  lemma SumValuesInc<K>(m: map<K, nat>, k: K)
    ensures SumValues(Inc(m, k)) == SumValues(m) + 1
  {
    var r := Inc(m, k);
    SumValuesRemove(r, k);
    if k in m {
      SumValuesRemove(m, k);
      assert r - {k} == m - {k};
    } else {
      assert r - {k} == m;
    }
  }

  /** The counts of a tally add up to the length of the counted sequence. */
  lemma {:induction false} TallySum<K>(ks: seq<K>)
    ensures SumValues(Tally(ks)) == |ks|
  {
    if ks != [] {
      TallySum(ks[..|ks| - 1]);
      SumValuesInc(Tally(ks[..|ks| - 1]), ks[|ks| - 1]);
    }
  }
}

=== FILE: session_model.dfy ===
/**
 * The persisted session record (server/models/session.js): its shape, the
 * schema's constraints as a validity predicate, the `activeMonsters` and
 * `totalMonsters` views, the document methods that change one monster, and
 * the 24-hour activity window.
 */
module SessionModel {
  import opened Wrappers
  import opened JsValue
  import Seqs

  /** The status-effect tags admitted by the schema's `conditions` enum. */
  const CONDITIONS: seq<string> :=
    ["中毒", "麻痹", "昏迷", "恐惧", "魅惑", "目盲", "耳聋", "震慑", "石化", "睡眠", "束缚", "其他"]

  /** One day in milliseconds, the window of `findActiveSessions`. */
  const DAY_MS: int := 24 * 60 * 60 * 1000

  datatype Monster = Monster(
    id: string,
    name: string,
    currentHp: real,
    maxHp: real,
    tempHp: real,
    conditions: seq<string>,
    initiative: real,
    isAdventurer: bool)

  datatype Piece = Piece(id: string, name: string, x: real, y: real, currentHp: real, maxHp: real)

  datatype Settings = Settings(gridSize: real, showGrid: bool)

  datatype Battlefield = Battlefield(background: Option<string>, pieces: seq<Piece>, settings: Settings)

  /** One durable dice-log entry; `rollData` is stored as an untyped object. */
  datatype RollRecord = RollRecord(playerName: string, rollData: Value, timestamp: int)

  datatype Session = Session(
    sessionId: string,
    monsters: seq<Monster>,
    monsterOrder: seq<string>,
    battlefield: Battlefield,
    diceHistory: seq<RollRecord>,
    lastUpdated: int)

  /** The schema defaults of `battlefield.settings`. */
  const DEFAULT_SETTINGS: Settings := Settings(50.0, true)

  /** The battlefield of a freshly inserted record: no background, no pieces, default settings. */
  const DEFAULT_BATTLEFIELD: Battlefield := Battlefield(None, [], DEFAULT_SETTINGS)

  /** The record an upsert inserts for an unknown id, before its `$set` fields are applied. */
  function NewSession(sessionId: string, now: int): (s: Session)
    ensures s.sessionId == sessionId && s.lastUpdated == now
    ensures s.monsters == [] && s.monsterOrder == [] && s.diceHistory == []
    ensures s.battlefield.background.None? && s.battlefield.pieces == []
    ensures s.battlefield.settings.gridSize == 50.0 && s.battlefield.settings.showGrid
  {
    Session(sessionId, [], [], DEFAULT_BATTLEFIELD, [], now)
  }

  // ---- Schema constraints ----

  /** `sessionId`: required (non-empty), 3 to 50 characters. */
  predicate ValidSessionId(id: string) {
    id != [] && 3 <= |id| && |id| <= 50
  }

  predicate ValidMonster(m: Monster) {
    && m.id != []
    && m.name != [] && |m.name| <= 100
    && m.currentHp >= 0.0
    && m.maxHp >= 1.0
    && m.tempHp >= 0.0
    && (forall k :: 0 <= k < |m.conditions| ==> m.conditions[k] in CONDITIONS)
    && -100.0 <= m.initiative <= 100.0
  }

  predicate ValidPiece(p: Piece) {
    && p.id != []
    && p.name != [] && |p.name| <= 100
    && p.x >= 0.0 && p.y >= 0.0
    && p.currentHp >= 0.0
    && p.maxHp >= 1.0
  }

  predicate ValidSettings(s: Settings) {
    10.0 <= s.gridSize <= 200.0
  }

  predicate ValidBattlefield(b: Battlefield) {
    && (b.background.Some? ==> |b.background.value| <= 500)
    && (forall k :: 0 <= k < |b.pieces| ==> ValidPiece(b.pieces[k]))
    && ValidSettings(b.settings)
  }

  predicate ValidRoll(r: RollRecord) {
    && r.playerName != [] && |r.playerName| <= 50
    && !r.rollData.Undefined? && !r.rollData.Null?
  }

  predicate ValidMonsters(ms: seq<Monster>) {
    forall k :: 0 <= k < |ms| ==> ValidMonster(ms[k])
  }

  /** `monsterOrder` entries are required strings. */
  predicate ValidOrder(order: seq<string>) {
    forall k :: 0 <= k < |order| ==> order[k] != []
  }

  /** Every constraint the schema declares, over the whole record. */
  predicate ValidSession(s: Session)
    ensures ValidSession(s) ==> 3 <= |s.sessionId| <= 50
    ensures ValidSession(s) ==> forall k :: 0 <= k < |s.battlefield.pieces| ==> s.battlefield.pieces[k].maxHp >= 1.0
    ensures ValidSession(s) ==> forall k :: 0 <= k < |s.diceHistory| ==> 1 <= |s.diceHistory[k].playerName| <= 50
  {
    && ValidSessionId(s.sessionId)
    && ValidMonsters(s.monsters)
    && ValidOrder(s.monsterOrder)
    && ValidBattlefield(s.battlefield)
    && (forall k :: 0 <= k < |s.diceHistory| ==> ValidRoll(s.diceHistory[k]))
  }

  lemma NewSessionValid(sessionId: string, now: int)
    requires ValidSessionId(sessionId)
    ensures ValidSession(NewSession(sessionId, now))
  {
  }

  /** Every id in the initiative order names a monster of the record. */
  predicate OrderReferencesMonsters(s: Session) {
    forall k :: 0 <= k < |s.monsterOrder| ==> exists j :: 0 <= j < |s.monsters| && s.monsters[j].id == s.monsterOrder[k]
  }

  // ---- Virtuals ----

  /** `activeMonsters`: the monsters still standing, in record order. */
  function ActiveMonsters(ms: seq<Monster>): (r: seq<Monster>)
    ensures |r| <= |ms|
    ensures forall m :: m in r <==> m in ms && m.currentHp > 0.0
  {
    Seqs.Filter(ms, (m: Monster) => m.currentHp > 0.0)
  }

  /** `totalMonsters`. */
  function TotalMonsters(ms: seq<Monster>): nat {
    |ms|
  }

  /** The active view holds exactly the monsters with positive HP, and is never larger than the roster. */
  lemma ActiveMonstersSpec(ms: seq<Monster>)
    ensures forall m :: m in ActiveMonsters(ms) <==> m in ms && m.currentHp > 0.0
    ensures |ActiveMonsters(ms)| <= TotalMonsters(ms)
    ensures (forall k :: 0 <= k < |ms| ==> ms[k].currentHp > 0.0) ==> ActiveMonsters(ms) == ms
  {
    if forall k :: 0 <= k < |ms| ==> ms[k].currentHp > 0.0 {
      Seqs.FilterKeepsAll(ms, (m: Monster) => m.currentHp > 0.0);
    }
  }

  /** The active view of a concatenation is the concatenation of the views: record order is kept. */
  lemma ActiveMonstersAppend(a: seq<Monster>, b: seq<Monster>)
    ensures ActiveMonsters(a + b) == ActiveMonsters(a) + ActiveMonsters(b)
  {
    Seqs.FilterAppend(a, b, (m: Monster) => m.currentHp > 0.0);
  }

  // ---- Document methods ----

  /** `this.monsters.find(m => m.id === monsterId)`, as the index of the first match. */
  function FindMonster(ms: seq<Monster>, monsterId: string): (r: Option<nat>)
    ensures r.None? <==> forall k :: 0 <= k < |ms| ==> ms[k].id != monsterId
    ensures r.Some? ==> r.value < |ms| && ms[r.value].id == monsterId
    ensures r.Some? ==> forall k :: 0 <= k < r.value ==> ms[k].id != monsterId
  {
    Seqs.FindFirst(ms, (m: Monster) => m.id == monsterId)
  }

  /** `Math.max(0, Math.min(newHp, maxHp))`. */
  function ClampHp(newHp: real, maxHp: real): (r: real)
    ensures maxHp >= 0.0 ==> 0.0 <= r <= maxHp
    ensures 0.0 <= newHp <= maxHp ==> r == newHp
    ensures newHp < 0.0 ==> r == 0.0
    ensures 0.0 <= maxHp <= newHp ==> r == maxHp
  {
    var capped := if newHp < maxHp then newHp else maxHp;
    if capped > 0.0 then capped else 0.0
  }

  /** The conditions after `addCondition`: appended only when absent. */
  function WithCondition(cs: seq<string>, c: string): (r: seq<string>)
    ensures c in r
    ensures c in cs ==> r == cs
    ensures c !in cs ==> r == cs + [c]
  {
    if c in cs then cs else cs + [c]
  }

  /** The conditions after `removeCondition`: every occurrence of `c` filtered out. */
  function WithoutCondition(cs: seq<string>, c: string): (r: seq<string>)
    ensures c !in r
    ensures forall x :: x in r <==> x in cs && x != c
  {
    Seqs.Filter(cs, (x: string) => x != c)
  }

  /** Adding a condition twice is the same as adding it once. */
  lemma WithConditionIdempotent(cs: seq<string>, c: string)
    ensures WithCondition(WithCondition(cs, c), c) == WithCondition(cs, c)
  {
  }

  /**
   * Removing a condition drops every occurrence of it, keeps the number of
   * occurrences of every other tag, and keeps their relative order.
   */
  lemma WithoutConditionSpec(cs: seq<string>, c: string, other: string, a: seq<string>, b: seq<string>)
    requires cs == a + b
    ensures c !in WithoutCondition(cs, c)
    ensures other != c ==> multiset(WithoutCondition(cs, c))[other] == multiset(cs)[other]
    ensures WithoutCondition(cs, c) == WithoutCondition(a, c) + WithoutCondition(b, c)
    ensures c !in cs ==> WithoutCondition(cs, c) == cs
  {
    var keep := (x: string) => x != c;
    Seqs.FilterCounts(cs, keep, other);
    Seqs.FilterAppend(a, b, keep);
    if c !in cs {
      Seqs.FilterKeepsAll(cs, keep);
    }
  }

  /** Removing right after adding leaves no trace of the tag. */
  lemma AddThenRemove(cs: seq<string>, c: string)
    ensures WithoutCondition(WithCondition(cs, c), c) == WithoutCondition(cs, c)
  {
    var keep := (x: string) => x != c;
    if c !in cs {
      Seqs.FilterAppend(cs, [c], keep);
      assert Seqs.Filter([c], keep) == [];
    }
  }

  /** Outcome of a document method: `MonsterNotFound` is the error it throws. */
  datatype DocResult = Saved | Unchanged | MonsterNotFound

  /**
   * A loaded session document. The methods change the monster they find and
   * stamp `lastUpdated`; writing the document back (`save()`) is the store's
   * business and is not part of this class.
   */
  class SessionDocument {
    var sessionId: string
    var monsters: seq<Monster>
    var monsterOrder: seq<string>
    var battlefield: Battlefield
    var diceHistory: seq<RollRecord>
    var lastUpdated: int

    /** The record a `save()` would write. */
    function Record(): Session
      reads this
    {
      Session(sessionId, monsters, monsterOrder, battlefield, diceHistory, lastUpdated)
    }

    constructor Load(s: Session)
      ensures Record() == s
    {
      sessionId := s.sessionId;
      monsters := s.monsters;
      monsterOrder := s.monsterOrder;
      battlefield := s.battlefield;
      diceHistory := s.diceHistory;
      lastUpdated := s.lastUpdated;
    }

    /** `updateMonsterHp(monsterId, newHp)`. */
    method UpdateMonsterHp(monsterId: string, newHp: real, now: int) returns (r: DocResult)
      modifies this
      ensures FindMonster(old(monsters), monsterId).None? ==> r == MonsterNotFound && Record() == old(Record())
      ensures FindMonster(old(monsters), monsterId).Some? ==>
        var i := FindMonster(old(monsters), monsterId).value;
        var m := old(monsters)[i];
        && r == Saved
        && Record() == old(Record()).(monsters := old(monsters)[i := m.(currentHp := ClampHp(newHp, m.maxHp))],
                                      lastUpdated := now)
    {
      var found := FindMonster(monsters, monsterId);
      if found.None? {
        return MonsterNotFound;
      }
      var i := found.value;
      monsters := monsters[i := monsters[i].(currentHp := ClampHp(newHp, monsters[i].maxHp))];
      lastUpdated := now;
      r := Saved;
    }

    /** `addCondition(monsterId, condition)`: nothing is saved when the tag is already present. */
    method AddCondition(monsterId: string, condition: string, now: int) returns (r: DocResult)
      modifies this
      ensures FindMonster(old(monsters), monsterId).None? ==> r == MonsterNotFound && Record() == old(Record())
      ensures FindMonster(old(monsters), monsterId).Some? ==>
        var i := FindMonster(old(monsters), monsterId).value;
        var m := old(monsters)[i];
        if condition in m.conditions then
          r == Unchanged && Record() == old(Record())
        else
          && r == Saved
          && Record() == old(Record()).(monsters := old(monsters)[i := m.(conditions := WithCondition(m.conditions, condition))],
                                        lastUpdated := now)
    {
      var found := FindMonster(monsters, monsterId);
      if found.None? {
        return MonsterNotFound;
      }
      var i := found.value;
      if condition in monsters[i].conditions {
        return Unchanged;
      }
      monsters := monsters[i := monsters[i].(conditions := monsters[i].conditions + [condition])];
      lastUpdated := now;
      r := Saved;
    }

    /** `removeCondition(monsterId, condition)`. */
    method RemoveCondition(monsterId: string, condition: string, now: int) returns (r: DocResult)
      modifies this
      ensures FindMonster(old(monsters), monsterId).None? ==> r == MonsterNotFound && Record() == old(Record())
      ensures FindMonster(old(monsters), monsterId).Some? ==>
        var i := FindMonster(old(monsters), monsterId).value;
        var m := old(monsters)[i];
        && r == Saved
        && Record() == old(Record()).(monsters := old(monsters)[i := m.(conditions := WithoutCondition(m.conditions, condition))],
                                      lastUpdated := now)
    {
      var found := FindMonster(monsters, monsterId);
      if found.None? {
        return MonsterNotFound;
      }
      var i := found.value;
      monsters := monsters[i := monsters[i].(conditions := WithoutCondition(monsters[i].conditions, condition))];
      lastUpdated := now;
      r := Saved;
    }
  }

  // ---- What the document methods do to a valid record ----

  /** Clamping keeps a valid record valid: the new HP lies in [0, maxHp]. */
  lemma UpdateHpKeepsValid(s: Session, i: nat, newHp: real, now: int)
    requires ValidSession(s) && i < |s.monsters|
    ensures var m := s.monsters[i];
            var m' := m.(currentHp := ClampHp(newHp, m.maxHp));
            && 0.0 <= m'.currentHp <= m'.maxHp
            && ValidSession(s.(monsters := s.monsters[i := m'], lastUpdated := now))
  {
    assert ValidMonster(s.monsters[i]);
  }

  /** Adding a tag keeps a valid record valid exactly when the tag is one of the enum's or already present. */
  lemma AddConditionValidity(s: Session, i: nat, c: string, now: int)
    requires ValidSession(s) && i < |s.monsters|
    ensures var m := s.monsters[i];
            var s' := s.(monsters := s.monsters[i := m.(conditions := WithCondition(m.conditions, c))], lastUpdated := now);
            ValidSession(s') <==> c in CONDITIONS || c in m.conditions
  {
    var m := s.monsters[i];
    var m' := m.(conditions := WithCondition(m.conditions, c));
    assert ValidMonster(m);
    if c !in m.conditions && c !in CONDITIONS {
      assert m'.conditions[|m'.conditions| - 1] == c;
      assert !ValidMonster(m');
      var s' := s.(monsters := s.monsters[i := m'], lastUpdated := now);
      assert s'.monsters[i] == m';
    }
  }

  /** Removing a tag keeps a valid record valid. */
  lemma RemoveConditionKeepsValid(s: Session, i: nat, c: string, now: int)
    requires ValidSession(s) && i < |s.monsters|
    ensures var m := s.monsters[i];
            ValidSession(s.(monsters := s.monsters[i := m.(conditions := WithoutCondition(m.conditions, c))], lastUpdated := now))
  {
    var m := s.monsters[i];
    assert ValidMonster(m);
    var r := WithoutCondition(m.conditions, c);
    forall k | 0 <= k < |r|
      ensures r[k] in CONDITIONS
    {
      assert r[k] in r;
    }
  }

  /** Concrete case: a 7-HP goblin set to -10 HP ends at 0, not -3. */
  lemma GoblinClampScenario()
    ensures ClampHp(-10.0, 7.0) == 0.0
  {
  }

  // ---- findActiveSessions ----

  /** The sessions whose `lastUpdated` lies within one day before `now`. */
  function FindActiveSessions(store: map<string, Session>, now: int): (r: map<string, Session>)
    ensures forall k :: k in r ==> k in store && r[k] == store[k]
    ensures forall k :: k in store ==> (k in r <==> store[k].lastUpdated >= now - DAY_MS)
  {
    map k | k in store && store[k].lastUpdated >= now - DAY_MS :: store[k]
  }

  /** A session last updated at `lastUpdated` stays in the active set until one day after that instant. */
  lemma ActiveWindow(store: map<string, Session>, k: string, now: int)
    requires k in store
    ensures k in FindActiveSessions(store, now) <==> now <= store[k].lastUpdated + 86_400_000
  {
  }
}

=== FILE: wrappers.dfy ===
/** Optional values, used for the source's `undefined`/`null` results and for NaN. */
module Wrappers {

  datatype Option<+T> = None | Some(value: T) {

    /** The wrapped value, or `default` when there is none. */
    function GetOr(default: T): T {
      match this
      case Some(v) => v
      case None => default
    }
  }
}
